=== FILE: README.md ===
# VJava-Atom decoration and visibility engine, modelled in Dafny

VJava-Atom is an Atom editor package that shows C-preprocessor variation
(`#ifdef` choices) in a source file. Each choice is one *dimension* with a
defined side and an undefined side. The package:

- colours the lines of each side;
- lets the user fold away one side of a dimension;
- hides the directive lines themselves except while the cursor stands on them.

This project models the logic behind that, as immutable datatypes and pure
functions (or methods, where the code loops), and proves what the code
promises:

- **The decoration forest** (`DimensionDecorationManager`). Nested row ranges, one per branch of a choice.
  - `Decorations`: insertion, including the swap loop that puts a new node in place; range comparison; the pre-order filters; teardown.
  - `Nesting`: insertion adds exactly one decoration and keeps the nesting and class-name invariants.
  - `Traversal`: the filters are the pre-order walk, restricted.
- **The editor's parse-tree walk** (`addDimensions` / `addDecoration`).
  - `Ast`, `Requests`, `Editor`: on a well-spanned parse tree, walked into an empty forest (the first parse after the view is toggled on), the walk never throws. It yields one decoration per requested branch and registers a menu for every dimension.
- **Showing one side of a dimension** (`showDimensionChoice`). `Folding`.
- **The style sheet**.
  - `Queues`: the package's linked-list queue, over an explicit heap.
  - `BreadthFirst`: the breadth-first walk of the forest.
  - `Colors`: shading.
  - `Styles`: the rules of each class, including the gradient stops of nested classes.
- **The side panel's registry** (`VariationalEditorView`). `PanelMenus`.
- **The older `VJavaUI` session/dimension lists**. `SessionUI`.
- **The predicate suppressor** (`PredicateSuppressor`). `Suppression`: hides directive lines by folding them and reacts to cursor moves.

Host objects become plain values:

- Markers, decorations and folds become ids that a counter hands out.
- Atom's `Range` becomes a pair of rows (`Rows`). Every range the code builds starts and ends at column 0, so a point compares exactly as its row does.
- Colours are integer RGB triples.
- A thrown error becomes the `Err` case of `Result`.
- An editor call the code makes for its effect becomes a function result. Examples: the ids a fold release hands back, and the position the cursor is moved to.
- The host's line lengths become a parameter (`lineLength`).

Some behaviours of the code worth stating plainly:

- `addDecoration` has no same-range case: equal ranges classify as Parent, and the walk moves on to the next sibling.
- `unmark` and `sweep` are called at ts/variational-editor.ts:191-195 but are not defined in `VariationalEditor`, `DimensionDecorationManager` or `VJavaUI`.
- `shadeColor` floors each channel and does not clamp it.
- A nested gradient's new stop is at the parent's last percent plus one (ts/variational-editor.ts:410-415). The model computes it from the parent's last stop; since the stops are numbered 0, 1, 2, … (`Styles.Numbered`), that is also the parent's stop count.

## Model

| member | source | states |
|---|---|---|
| Rows.MakeRange | ts/variational-editor.ts:232-234 | The host's range constructor: the two rows in order, smaller first. |
| Decorations.Opposite | ts/variational-editor.ts:242-248 | The else branch gets the side opposite to the then branch. |
| Decorations.ClassName | ts/dimension-decoration-manager.ts:52-60 | A class name is the prefix (the parent's class name, or `dimension-marker` at the top), a dash, the dimension, a dash, and `defbranch` or `ndefbranch`. |
| Decorations.ClassNameSidesDiffer | ts/dimension-decoration-manager.ts:52-60 | The two sides of one dimension under one parent never share a class name. |
| Decorations.CompareDecorations | ts/dimension-decoration-manager.ts:106-127 | Parent exactly when r1 contains r2 (so equal ranges give Parent); Child when only r2 contains r1; Above/Below exactly when the ranges are disjoint and r1 ends before / starts after r2; the malformed error exactly when they overlap without containment. |
| Decorations.SpliceBySwaps | ts/dimension-decoration-manager.ts:78-90 | Appending the new node and swapping it leftwards until index i inserts it at i, the later siblings shifted right in order. |
| Decorations.AddDecoration | ts/dimension-decoration-manager.ts:51-99 | The loop with its recursive call, early returns and swap splice computes the reference insertion `Insert`: descend into the containing child, insert before the first sibling it lies above, skip the others, append at the end, fail on a malformed comparison. |
| Decorations.Destroy | ts/dimension-decoration-manager.ts:136-144 | Teardown releases one marker per node of the forest, in pre-order. |
| Decorations.FilterDimension | ts/dimension-decoration-manager.ts:153-165 | A node is collected exactly when it is in the forest and belongs to the dimension. Its order is stated by `Traversal.FilterDimensionIsPreOrder`. |
| Decorations.FilterDimensionChoice | ts/dimension-decoration-manager.ts:167-181 | A node is collected exactly when it is in the forest and belongs to the dimension and side. Its order is stated by `Traversal.FilterChoiceIsPreOrder`. |
| Traversal.FilterDimensionIsPreOrder | ts/dimension-decoration-manager.ts:153-165 | `filterDimension` returns exactly the nodes of the pre-order walk that belong to the dimension, in walk order. |
| Traversal.FilterChoiceIsPreOrder | ts/dimension-decoration-manager.ts:167-181 | `filterDimensionChoice` returns exactly the nodes of the pre-order walk of that dimension and side, in walk order. |
| Traversal.ChoiceIsSubsequenceOfDimension | ts/dimension-decoration-manager.ts:153-181 | What `filterDimensionChoice` returns is a subsequence of what `filterDimension` returns for the same dimension. |
| Nesting.InsertAddsOne | ts/dimension-decoration-manager.ts:51-99 | A successful insertion adds exactly one decoration, with the given range, dimension, side and id, and loses none. |
| Nesting.InsertFromEnd | ts/dimension-decoration-manager.ts:93-98 | An unfolding lemma of the reference walk `InsertFrom`, used by the nesting proofs: once every sibling is passed, the new node is appended at the end. The link to the code is `Decorations.AddDecoration`. |
| Nesting.InsertFromAt | ts/dimension-decoration-manager.ts:70-91 | An unfolding lemma of the reference walk `InsertFrom`, case by case, used by the nesting proofs. At sibling i the walk descends into a sibling that contains the range, with that sibling's children replaced; it splices the new node before a sibling it lies above; it moves past a sibling it contains or lies below; it throws on an overlap. The link to the code is `Decorations.AddDecoration`. |
| Nesting.InsertKeepsNesting | ts/dimension-decoration-manager.ts:51-127 | Inserting a valid range that contains no existing decoration keeps siblings sorted and disjoint and children inside their parents, at every level. |
| Nesting.InsertKeepsClassNames | ts/dimension-decoration-manager.ts:45-60 | After an insertion every class name is still its parent's class name (or `dimension-marker`) followed by its own dimension and side. |
| Nesting.InsertFitting | ts/dimension-decoration-manager.ts:106-127 | When every existing range is disjoint from the new one or strictly contains it, the insertion does not throw, keeps the nesting and adds exactly one decoration. |
| Requests.ThenCondition | ts/variational-editor.ts:222-228 | The then branch is the defined side exactly for a positive choice. |
| Requests.BranchRange | ts/variational-editor.ts:231-234 | A branch's decoration runs from the row after its directive to the row its span ends on. |
| Requests.ChoiceRequests | ts/variational-editor.ts:218-258 | One request for the then branch, and a second one, on the opposite side, exactly when the else branch has segments. |
| Requests.RegionNests | ts/variational-editor.ts:261-273 | For a well-spanned region, every request the walk makes lies within the region's rows and fits (is disjoint from or strictly inside) every earlier request. |
| Editor.SegmentAgrees | ts/variational-editor.ts:261-267 | Walking one segment gives the same forest, marker count and menus as inserting its flat request list one by one, and fails exactly when that does. |
| Editor.AddChoiceDecorations | ts/variational-editor.ts:218-258 | The then branch is inserted under the root with its side and the next marker id. When the else branch has segments, it is then inserted with the opposite side and the id after that. Either error is passed on, and menus are untouched. |
| Editor.AddDimensions | ts/variational-editor.ts:261-273 | Walking the root region agrees with inserting its flat request list one by one: the same forest, the marker counter advanced by the number of requests, menus grown by exactly the dimensions asked for, and failure exactly when that insertion fails. |
| Editor.RegionAgrees | ts/variational-editor.ts:268-272 | The same for a region's segments, from any segment on. |
| Editor.MenuThenDecorationsAgree | ts/variational-editor.ts:262-264 | Registering the choice's menu and then decorating it agrees with inserting its requests; the menus grow only by the choice's name, in the default colour. |
| Editor.AddDimensionsWellSpanned | ts/variational-editor.ts:261-273 | On a well-spanned parse tree, walked into an empty forest (the first parse after the view is toggled on), the walk never throws. The forest comes out nested with path class names, with exactly one decoration per requested branch (ids telling which), and every dimension of the tree has a menu. |
| Folding.ShowDimensionChoice | ts/variational-editor.ts:277-344 | Showing a side folds exactly the other side's decorations of that dimension (fold rows one inside the decoration) and records them; `null` folds nothing and forgets the dimension. Earlier folds are released only for `null` or when the request names the folded side. Other dimensions are untouched. |
| Folding.FoldsExactlyTheOtherSide | ts/variational-editor.ts:294-323 | Every fold made belongs to a decoration of the dimension on the other side. |
| Folding.ShowThenBoth | ts/variational-editor.ts:282-292 | Showing a side and then both releases exactly the folds the first call made and forgets the dimension. |
| Folding.SwitchSides | ts/variational-editor.ts:282-304 | Switching to the other side releases the first side's folds and records the new folded side. |
| Folding.SameSideTwice | ts/variational-editor.ts:282-338 | Asking twice for the same side releases nothing the second time; the first call's folds stop being recorded, so no later call releases them. |
| Colors.Shade | ts/variational-editor.ts:451-462 | Each channel is the floor of the channel times (1 + k/10); alpha is .3. |
| Colors.Step | ts/variational-editor.ts:391-400 | The luminosity steps lie in -3..3 tenths, never 0, positive exactly for the defined side. |
| Colors.ShadesOrdered | ts/variational-editor.ts:391-400 | On each side plain ≤ cursor ≤ hover in every channel, and every defined-side shade is at least as bright as every undefined-side shade. |
| Colors.ShadeBrackets | ts/variational-editor.ts:391-400 | Defined-side shades are never darker, undefined-side shades never brighter, than the dimension colour. |
| Colors.DefaultShadeExample | ts/variational-editor.ts:451-462 | `rgb(127, 71, 62)` shaded by .1 is `rgba(139, 78, 68, .3)` and by -.3 is `rgba(88, 49, 43, .3)`. |
| PanelMenus.CreatePanelMenu | ts/variational-editor-view.ts:60-69 | Registers the name with the given colour or `rgb(127, 71, 62)`; an existing name leaves the registry unchanged; no name is removed. |
| PanelMenus.GetPanelMenu | ts/variational-editor-view.ts:103-108 | The entry of a registered name; the "doesn't exist" error exactly for an unregistered one. |
| PanelMenus.GetDimensionColor | ts/variational-editor-view.ts:114-119 | The colour of a registered name; the error exactly for an unregistered one. |
| PanelMenus.NewMenuHasDefaultColor | ts/variational-editor-view.ts:60-69 | A menu created without a colour reports `rgb(127, 71, 62)`. |
| PanelMenus.CreateKeepsRegistered | ts/variational-editor-view.ts:60-119 | Creating a menu never changes the colour of a registered name. |
| PanelMenus.Serialize | ts/variational-editor-view.ts:47-54 | The saved map has exactly the registered names, each with its menu's colour. |
| PanelMenus.FromState | ts/variational-editor-view.ts:29-45 | Building from a saved map registers exactly its names, each with its colour or the default. |
| PanelMenus.SerializeRoundTrip | ts/variational-editor-view.ts:42-54 | Saving the registry and building from the saved map gives back the same registry. |
| Queues.NewQueue | ts/utils.ts:16-18 | A new queue is well formed and empty. |
| Queues.IsEmpty | ts/utils.ts:24-26 | `empty()` holds exactly when the queue holds nothing. |
| Queues.Peek | ts/utils.ts:28-33 | The front item; the error exactly on an empty queue. |
| Queues.Pop | ts/utils.ts:35-51 | The front item and the rest of the queue in order, still well formed (taking the last node clears the end node); the error exactly on an empty queue. |
| Queues.PopFront | ts/utils.ts:35-51 | A non-empty queue gives up its front item; the rest stays in order in a smaller well-formed queue. |
| Queues.Push | ts/utils.ts:53-69 | The items go behind the current contents, in argument order, and the queue stays well formed. |
| Queues.Drain | ts/utils.ts:24-51 | Popping until empty hands out exactly the contents, front first (first in, first out). |
| BreadthFirst.TopEntries | ts/variational-editor.ts:361-364 | The queue is primed with every top-level node, in order, with no parent class. |
| BreadthFirst.Children | ts/variational-editor.ts:375-380 | A node's children are queued in order, tagged with the node's class name. |
| BreadthFirst.BfsVisitsEachNodeOnce | ts/variational-editor.ts:358-380 | The walk hands out every node below the queued entries exactly once. |
| BreadthFirst.BfsCoversForest | ts/variational-editor.ts:358-380 | From the top level, the walk visits each node of the forest exactly once. |
| BreadthFirst.WalkOrigin | ts/variational-editor.ts:361-380 | In the walk from the top level, an entry without a parent class is a top-level one, and an entry with a parent class has a walked parent entry of that class one level up. |
| BreadthFirst.TopLevelBfsByLevel | ts/variational-editor.ts:346-349 | From the top level, shallower nodes come out before deeper ones. |
| Styles.AsWrittenTopStyle | ts/variational-editor.ts:429-431 | The hover rule of a top-level class, as written, is `background-color: 90deg, <shade>`. |
| Styles.AsWrittenHoverIsMalformed | ts/variational-editor.ts:431 | That hover rule is not a colour, so the top-level style as written is malformed. |
| Styles.TopStyle | ts/variational-editor.ts:427-434 | A top-level class gets three solid shades and passes on its plain shade as a single stop at 0%. |
| Styles.NestedBackground | ts/variational-editor.ts:404-425 | A nested class's gradient is its parent's stops plus one stop of its own shade, one percent past the parent's last stop. |
| Styles.NestedStyle | ts/variational-editor.ts:404-425 | All three rules of a nested class extend the parent class's plain-line stops, which are the only stops the cache keeps. Each adds one stop of its own line state's shade of the dimension colour, and passes on the plain gradient. |
| Styles.StyleFor | ts/variational-editor.ts:382-438 | The rules for a class not yet styled. It returns the error exactly for an unregistered dimension. Otherwise, at the top level, it returns the solid style of the dimension's colour and branch (`TopStyle`, with the corrected hover rule) and caches one stop at 0%. At a nested level it returns the nested style over the parent class's cached stops (`NestedStyle`) and caches them extended by one stop of its own plain shade. |
| Styles.Emit | ts/variational-editor.ts:382-439 | A cached class adds nothing. A new class appends exactly `StyleFor`'s style and caches exactly its stops. It fails exactly when the class is new and its dimension unregistered. |
| Styles.GenerateStyleSheet | ts/variational-editor.ts:350-440 | Classes are styled in order of first appearance in the breadth-first walk. Each style is the one the first entry of its class gets (`StyledFrom`): the solid style of its dimension's colour and branch at the top level, or the nested style over the stops of its parent class's style, which comes earlier. Each is well formed. When every class name sits at one depth, a class at depth d has stops at 0..d percent. It succeeds when every dimension is registered, and fails only with the error for a dimension of the forest. |
| Styles.StopsByDepth | ts/variational-editor.ts:404-434 | When every class name of the walk sits at one depth, a class at depth d passes on numbered stops at 0..d percent: one stop at the top level, one more per level. |
| Styles.EmitKeepsColored | ts/variational-editor.ts:382-439 | What one entry emits is the style its class gets, so every style of the sheet stays the one the first entry of its class gets. |
| Styles.Prime | ts/variational-editor.ts:358-370 | The queue is primed with the top-level nodes; nothing has been taken out and the cache and sheet are empty. |
| Styles.Visit | ts/variational-editor.ts:372-437 | One turn of the loop fails exactly when the entry's class is new and its dimension has no menu. Otherwise the queue, cache and sheet still match the entries taken out, every style still being the one the first entry of its class gets, and fewer nodes are left. |
| Styles.WalkQueue | ts/variational-editor.ts:358-437 | When the loop ends, every entry of the walk has been taken out, and every style is the one the first entry of its class gets. A failure names a dimension of the forest that has no menu. |
| Styles.StylesCoverForest | ts/variational-editor.ts:358-440 | The classes styled are exactly the class names in the forest, each once. |
| Suppression.HidePredicate | ts/predicate-suppressor.ts:71-76 | Hiding a shown predicate takes the next fold id; a hidden one is left alone. |
| Suppression.ShowPredicate | ts/predicate-suppressor.ts:78-84 | Showing releases exactly the fold held; a shown one is left alone. |
| Suppression.HideShowIdempotent | ts/predicate-suppressor.ts:71-84 | Hiding twice is hiding once; showing twice is showing once. |
| Suppression.ShowUndoesHide | ts/predicate-suppressor.ts:71-84 | Showing right after hiding gives the predicate back and releases the fold the hide took. |
| Suppression.DestroyPredicate | ts/predicate-suppressor.ts:66-69 | Teardown releases a fold exactly when the predicate was hidden. |
| Suppression.CountHidden | ts/predicate-suppressor.ts:103-105 | The hidden count equals the member count exactly when every member is hidden. |
| Suppression.GroupHidden | ts/predicate-suppressor.ts:103-105 | A group is hidden exactly when all its members are. |
| Suppression.HasRow | ts/predicate-suppressor.ts:111-113 | A group has a row exactly when some member is at it. |
| Suppression.Track | ts/predicate-suppressor.ts:94-101 | The constructor's loop tracks exactly the old rows plus the listed ones, each once, new ones shown and ending where the line ends. |
| Suppression.NewGroup | ts/predicate-suppressor.ts:94-101 | A new group tracks exactly the listed rows, each once, all shown. |
| Suppression.HasRows | ts/predicate-suppressor.ts:115-128 | `hasRows` holds exactly when the list is as long as the group and every listed row is tracked. |
| Suppression.HasRowsIffSameRows | ts/predicate-suppressor.ts:115-128 | For a list without repeats, `hasRows` holds exactly when the list names the group's rows. |
| Suppression.HasOwnRows | ts/predicate-suppressor.ts:115-128 | A group passes `hasRows` for its own rows. |
| Suppression.FindPredicateForRow | ts/predicate-suppressor.ts:138-145 | The first member at the row, or none exactly when no member is there. |
| Suppression.HideMembersIncreasing | ts/predicate-suppressor.ts:71-76 | Hiding the members one by one, each shown member calls `foldBufferRange` once, so their new fold ids increase in member order and no two members get the same fold. |
| Suppression.HideGroup | ts/predicate-suppressor.ts:134-136 | Every member hidden; members already hidden keep their fold; the shown members get one new fold each, strictly increasing in member order and numbered upward from the counter, so no two share one. |
| Suppression.ShowMembers | ts/predicate-suppressor.ts:130-132 | No member hidden, and the folds released are exactly those the members held. |
| Suppression.DestroyGroup | ts/predicate-suppressor.ts:107-109 | Teardown of a group releases exactly the folds its members held. |
| Suppression.HideThenShowGroup | ts/predicate-suppressor.ts:130-136 | Hiding then showing a group leaves the same lines, all shown. |
| Suppression.FindGroupForRow | ts/predicate-suppressor.ts:299-306 | The first group with the row, or none exactly when no group has it. |
| Suppression.FindGroupForRows | ts/predicate-suppressor.ts:308-315 | The first group passing `hasRows` (no earlier group passes it), or none exactly when none does. |
| Suppression.Add | ts/predicate-suppressor.ts:217-225 | When a group already has exactly these rows nothing changes; otherwise one hidden group of the listed rows is appended and nothing else changes. |
| Suppression.NewHiddenGroup | ts/predicate-suppressor.ts:221-223 | The new group tracks exactly the listed rows, once each. All its members are hidden, and its folds are below the new counter. |
| Suppression.AddTwice | ts/predicate-suppressor.ts:217-225 | Adding the same rows (without repeats) twice is adding them once. |
| Suppression.AddRepeatedRowsAgain | ts/predicate-suppressor.ts:94-128 | From a state with no groups, adding a list that names one row twice and then adding the same list again leaves two groups. The row is tracked once, so `hasRows` rejects the list. |
| Suppression.HideAllExcept | ts/predicate-suppressor.ts:344-352 | Groups with the row are untouched and every other group is hidden; new folds come from the counter, strictly increasing group by group and member by member, so no two share one. |
| Suppression.Hide | ts/predicate-suppressor.ts:344-352 | With an expected position, every group without its row is hidden and the others are untouched; without one nothing changes. |
| Suppression.ShowAt | ts/predicate-suppressor.ts:355-363 | Every group with the row is shown; the others are untouched. |
| Suppression.Show | ts/predicate-suppressor.ts:355-363 | With an expected position, every group with its row is shown; without one nothing changes. |
| Suppression.TargetRow | ts/predicate-suppressor.ts:321-328 | The row one step from the old row toward the new one, or the old row when they agree. |
| Suppression.AdjustedCursorPosition | ts/predicate-suppressor.ts:317-341 | If a group tracks the target row, the cursor goes to that row at the new column or the line's end, whichever is smaller; otherwise the new position stands. |
| Suppression.LeaveRow | ts/predicate-suppressor.ts:261-267 | The first group with the row left is hidden and no other changes. |
| Suppression.Reposition | ts/predicate-suppressor.ts:280-281 | `hide` then `show`: groups at the expected row end up shown and all others hidden. |
| Suppression.DisplayLine | ts/predicate-suppressor.ts:252-288 | The event at the expected position, and a move within a row, only clear the expectation. Otherwise the first group at the row left is hidden and the cursor position adjusted. If the adjusted position differs from the new one, the cursor is moved exactly there, the expectation is kept, and the groups at that row are shown while all others are hidden. If it does not differ, the result is the state with the left row hidden and no expectation. Every fold stays on the same lines. |
| Suppression.OwnMoveSwallowed | ts/predicate-suppressor.ts:256-259 | The cursor event that the suppressor's own move causes is swallowed without changing any fold. |
| Suppression.LeftRowHidden | ts/predicate-suppressor.ts:261-267 | When the cursor leaves a row and is not moved, the first group tracking the row left ends up hidden. |
| SessionUI.HasDimension | ts/ui.ts:62-67 | Holds exactly when some dimension entry has the name. |
| SessionUI.SessionColorFor | ts/ui.ts:69-74 | The colour of the first session entry with the name; none exactly when there is no such entry. |
| SessionUI.UpdateSession | ts/ui.ts:76-85 | The first session entry with the name is replaced in place, the length unchanged; with none, the entry is appended. |
| SessionUI.UpdateThenSessionColor | ts/ui.ts:69-85 | After an update the name's session colour is the new entry's colour; every other name keeps its session colour. |
| SessionUI.UpdateSessionTwice | ts/ui.ts:76-85 | Updating twice with the same entry is updating once. |
| SessionUI.ColorForDim | ts/ui.ts:109-129 | A known dimension gives the colour of its last entry and nothing changes; an unknown one is appended with the session colour, or `rgb(127, 71, 62)` when there is none, and that colour is returned; afterwards the dimension is known. |
| SessionUI.ColorForDimStable | ts/ui.ts:109-129 | Asking again gives the same colour and changes nothing. |
| SessionUI.ColorForNodeByName | ts/ui.ts:87-107 | Asking by choice node registers the node's name and is stable in the same way as asking by name. |
| SessionUI.GetSelector | ts/ui.ts:149-154 | The first active choice with the name; none exactly when there is none. |
| SessionUI.ShouldBeChecked | ts/ui.ts:156-165 | `BOTH` is checked when there is no selector or its status is `BOTH`; `DEF`/`NDEF` only when the selector has exactly that status. |
| SessionUI.ExactlyOneChecked | ts/ui.ts:156-165 | For every dimension exactly one of the three buttons is checked. |

## Left out

- Host lifecycle and process plumbing (`activate`, `deactivate`, `toggle`, `serialize`, `parseVariation`), the style sheet's installation and its text, and all DOM, jQuery and colour-picker code (`setupColorPickerForDim`, `VJavaUI.serialize`). These are I/O with the editor and a child process.
- `emitHiddenFold`, `findHiddenPredicateForRange` and the patching of Atom's screen-line builder. They change how the host draws a fold, not which lines are folded.
- ts/line-suppressor.ts. It patches host internals, and its `displayLine` does nothing.
- Marker movement on edits. Rows are fixed.
- `unmark` and `sweep` (ts/variational-editor.ts:191-195): their definitions are not part of this model.
- Editor.AddDimensionsWellSpanned: proved only for a walk into an empty forest, the first parse after toggling on (ts/variational-editor.ts:150). A later re-parse walks into the same manager (ts/variational-editor.ts:143-146, 193), whose forest still holds the earlier decorations because `unmark`/`sweep` are not defined. A new request may then partly overlap an old range, and `compareDecorations` throws. So nothing is promised about a walk from a non-empty forest.
- Editor.AddDimensionsSegment and Editor.AddDimensionsFrom: they have no contract of their own. They are the mutually recursive walk of `addDimensions` on a segment and on a region, and `Editor.SegmentAgrees` and `Editor.RegionAgrees` state their behaviour.
- `getDecorations` (ts/dimension-decoration-manager.ts:146-151): the undecorated root's children are the `Forest` value itself. The decorated-manager case, which returns `[this]`, is not called by the code modelled.
- Ast.Region: a span is always present. In ts/ast.ts:11,20,26 it is optional, and a missing span makes the unchecked reads at ts/variational-editor.ts:233-234 and 252-253 throw a TypeError; that error is not modelled.
- Decorations.AddDecoration: the range is the host marker's range, reduced to rows; the comparisons of Atom's `Range` are definitions this model assumes (`Rows`).
- Colors.Shade: the channel is the exact floor of v·(10+k)/10 on integers, not JavaScript floating point. It is not clamped at 255, as the code does not clamp it.
- Styles.StyleFor: the colour is an RGB triple, so the `rgb(...)` text and the gradient text are not parsed. A top-level class's hover rule is the corrected solid rule of "## Findings" (`Styles.TopStyle`), not the malformed one at ts/variational-editor.ts:431 (`Styles.AsWrittenTopStyle`).
- Styles.GenerateStyleSheet: the CSS text, its selectors and the order of the three rules within a class are not produced. Its styles use the corrected top-level hover rule of "## Findings", so "each well formed" holds of the corrected program, not of line 431 as written. That a class at depth d has stops at 0..d percent is proved only for forests where every class name sits at one depth (`Styles.OneDepthPerClass`); the model does not prove this of the forests the view builds.
- BreadthFirst.Bfs: a queue entry also records the depth at which it was queued. This is a modelling aid for the level-order lemma and has no counterpart in the code.
- Folding.ShowDimensionChoice: fold ids come from a counter instead of the host. The released ids are returned instead of being destroyed in the host's display layer. A one-row decoration's fold keeps its reversed rows, as computed.
- Suppression.Add: a predicate's fold range (`createFoldRange`) is not modelled, only the fold's id. A line's end column comes from the `lineLength` parameter.
- Suppression.DisplayLine: moving the cursor is returned as `moveTo`. The cursor event that the move raises must be fed back by the caller, as `OwnMoveSwallowed` does.
- The suppressor's own teardown (`PredicateSuppressor.destroy`) is modelled per group only (`DestroyGroup`), since the rest of it restores patched host methods.
- SessionUI.ColorForNode: it has no contract of its own. It is `ColorForDim` on the choice's name, as the code duplicates that body; `ColorForNodeByName` states its behaviour.
- SessionUI.ShouldBeChecked: the returned `'checked'`/`''` text is a boolean. A status outside the three (for which the code returns nothing) cannot be expressed.
- An error thrown part-way through a walk leaves the partial state behind in the package. The model returns only the error.

## Findings

| source | as written | input that shows it | evidently intended | confidence | as-written member | corrected member |
|---|---|---|---|---|---|---|
| ts/variational-editor.ts:431 | The hover rule of a top-level class is `background-color: 90deg, rgba(...)`. | Any top-level decoration, e.g. dimension `A` on the defined side with colour `rgb(127, 71, 62)`: its hover value is `90deg, rgba(165, 92, 80, .3)`, which is not a colour. | A solid `background-color: rgba(...)` like the plain and cursor rules, so hovered top-level lines are shaded. | not executed | Styles.AsWrittenTopStyle | Styles.TopStyle |

=== FILE: ast.dfy ===
/**
 * The parse tree the variational parser returns (ts/ast.ts): a region is
 * a list of segments, a segment is plain text or a choice between a then
 * region and an else region. Only the rows of a region's span are kept;
 * the editor reads them without checking that they are present, so here
 * they always are.
 */
module Ast {
  datatype Span = Span(startRow: nat, endRow: nat)

  datatype ChoiceKind = Positive | Contrapositive

  datatype Segment =
    | Text(content: string)
    | Choice(name: string, thenBranch: Region, elseBranch: Region, kind: ChoiceKind, span: Span)

  datatype Region = Region(segments: seq<Segment>, span: Span)

  /** The choice has an else branch worth decorating: at least one segment. */
  predicate HasElse(c: Segment)
    requires c.Choice?
  {
    |c.elseBranch.segments| > 0
  }

  /** The first row of a choice's text: the row of its opening directive. */
  function ExtentStart(c: Segment): nat
    requires c.Choice?
  {
    c.thenBranch.span.startRow
  }

  /** The last row of a choice's text: the end of its else branch, or of its then branch. */
  function ExtentEnd(c: Segment): nat
    requires c.Choice?
  {
    if HasElse(c) then c.elseBranch.span.endRow else c.thenBranch.span.endRow
  }

  /**
   * The shape a well-formed parse has. A then branch runs from its
   * directive row to the row where the next directive starts, an else
   * branch starts at or below that row; every choice inside a branch lies
   * within the branch's rows below its directive; sibling choices are in
   * row order and do not share rows.
   */
  predicate WellSpannedChoice(c: Segment)
    requires c.Choice?
    decreases c, 1
  {
    var t := c.thenBranch.span;
    var e := c.elseBranch.span;
    && t.startRow < t.endRow
    && WellSpannedRegion(c.thenBranch, t.startRow + 1, t.endRow)
    && (HasElse(c) ==>
          && t.endRow <= e.startRow < e.endRow
          && WellSpannedRegion(c.elseBranch, e.startRow + 1, e.endRow))
  }

  /** Every choice of the region is well spanned and lies within rows lo..hi, siblings in order. */
  predicate WellSpannedRegion(reg: Region, lo: nat, hi: nat)
    decreases reg, 0
  {
    && (forall s | s in reg.segments && s.Choice? ::
          && WellSpannedChoice(s)
          && lo <= ExtentStart(s) && ExtentEnd(s) <= hi)
    && (forall j, k | 0 <= j < k < |reg.segments| && reg.segments[j].Choice? && reg.segments[k].Choice? ::
          ExtentEnd(reg.segments[j]) < ExtentStart(reg.segments[k]))
  }
}

=== FILE: bfs.dfy ===
/**
 * The breadth-first walk of the style-sheet generator
 * (ts/variational-editor.ts:358-380). A queue entry is a forest node with
 * the class name of its parent (none at the top level); the depth at
 * which it was queued is kept alongside so the walk's level order can be
 * stated. `Bfs` is the reference order in which a FIFO queue hands the
 * entries out.
 */
module BreadthFirst {
  import opened Wrappers
  import opened Decorations
  import opened Traversal

  datatype Entry = Entry(parentClass: Option<string>, node: Node, depth: nat)

  /** The entries that prime the queue: every top-level node, with no parent class. */
  function TopEntries(f: Forest): (q: seq<Entry>)
    ensures |q| == |f|
    ensures forall k | 0 <= k < |f| :: q[k] == Entry(None, f[k], 0)
  {
    seq(|f|, k requires 0 <= k < |f| => Entry(None, f[k], 0))
  }

  /** The entries queued when e is taken out: its children, with e's class name as parent class. */
  function Children(e: Entry): (q: seq<Entry>)
    ensures |q| == |e.node.children|
    ensures forall k | 0 <= k < |q| ::
      q[k] == Entry(Some(e.node.deco.className), e.node.children[k], e.depth + 1)
  {
    seq(|e.node.children|, k requires 0 <= k < |e.node.children| =>
      Entry(Some(e.node.deco.className), e.node.children[k], e.depth + 1))
  }

  function Nodes(q: seq<Entry>): (ns: seq<Node>)
    ensures |ns| == |q|
    ensures forall k | 0 <= k < |q| :: ns[k] == q[k].node
  {
    seq(|q|, k requires 0 <= k < |q| => q[k].node)
  }

  function Classes(q: seq<Entry>): (cs: seq<string>)
    ensures |cs| == |q|
    ensures forall k | 0 <= k < |q| :: cs[k] == q[k].node.deco.className
  {
    seq(|q|, k requires 0 <= k < |q| => q[k].node.deco.className)
  }

  /** Taking out the front entry and queueing its children leaves one node fewer to visit. */
  lemma NextQueue(q: seq<Entry>)
    requires q != []
    ensures Flatten(Nodes(q)) == [q[0].node] + Flatten(q[0].node.children) + Flatten(Nodes(q[1..]))
    ensures Flatten(Nodes(q[1..] + Children(q[0]))) == Flatten(Nodes(q[1..])) + Flatten(q[0].node.children)
    ensures |Flatten(Nodes(q[1..] + Children(q[0])))| < |Flatten(Nodes(q))|
  {
    assert Nodes(q)[1..] == Nodes(q[1..]);
    assert Nodes(q[1..] + Children(q[0])) == Nodes(q[1..]) + q[0].node.children;
    FlattenAppend(Nodes(q[1..]), q[0].node.children);
  }

  /** The order in which a FIFO queue primed with q hands out entries, queueing children as it goes. */
  function Bfs(q: seq<Entry>): seq<Entry>
    decreases |Flatten(Nodes(q))|
  {
    if q == [] then []
    else
      NextQueue(q);
      [q[0]] + Bfs(q[1..] + Children(q[0]))
  }

  lemma NodesCons(e: Entry, t: seq<Entry>)
    ensures Nodes([e] + t) == [e.node] + Nodes(t)
  {
  }

  lemma RegroupOne<T>(x: T, a: seq<T>, b: seq<T>)
    ensures multiset([x] + a + b) == multiset{x} + multiset(b + a)
  {
  }

  /** The walk visits every node below the queued entries exactly once. */
  lemma {:induction false} BfsVisitsEachNodeOnce(q: seq<Entry>)
    ensures multiset(Nodes(Bfs(q))) == multiset(Flatten(Nodes(q)))
    decreases |Flatten(Nodes(q))|
  {
    if q != [] {
      var q' := q[1..] + Children(q[0]);
      NextQueue(q);
      BfsVisitsEachNodeOnce(q');
      assert Bfs(q) == [q[0]] + Bfs(q');
      NodesCons(q[0], Bfs(q'));
      RegroupOne(q[0].node, Flatten(q[0].node.children), Flatten(Nodes(q[1..])));
    }
  }

  /** Primed with a forest's top level, the walk visits each node of the forest exactly once. */
  lemma BfsCoversForest(f: Forest)
    ensures multiset(Nodes(Bfs(TopEntries(f)))) == multiset(Flatten(f))
  {
    BfsVisitsEachNodeOnce(TopEntries(f));
    assert Nodes(TopEntries(f)) == f;
  }

  /** Every entry the walk hands out was queued at the start or is a child of an entry it handed out. */
  lemma {:induction false} WalkParents(q: seq<Entry>, x: Entry)
    requires x in Bfs(q)
    ensures x in q || exists y | y in Bfs(q) :: x in Children(y)
    decreases |Flatten(Nodes(q))|
  {
    var q' := q[1..] + Children(q[0]);
    NextQueue(q);
    assert Bfs(q) == [q[0]] + Bfs(q');
    if x != q[0] {
      assert x in Bfs(q');
      WalkParents(q', x);
      if x in q' {
        if x in q[1..] {
          assert x in q;
        } else {
          assert x in Children(q[0]) && q[0] in Bfs(q);
        }
      } else {
        var y :| y in Bfs(q') && x in Children(y);
        assert y in Bfs(q);
      }
    }
  }

  /**
   * From a forest's top level, an entry without a parent class is at depth
   * 0, and one with a parent class has a parent entry of that class one
   * level up in the walk.
   */
  lemma WalkOrigin(f: Forest, x: Entry)
    requires x in Bfs(TopEntries(f))
    ensures x.parentClass.None? ==> x.depth == 0
    ensures x.parentClass.Some? ==> exists y | y in Bfs(TopEntries(f)) ::
      y.node.deco.className == x.parentClass.value && y.depth + 1 == x.depth
  {
    WalkParents(TopEntries(f), x);
    if x in TopEntries(f) {
      var k :| 0 <= k < |TopEntries(f)| && TopEntries(f)[k] == x;
    } else {
      var y :| y in Bfs(TopEntries(f)) && x in Children(y);
      var k :| 0 <= k < |Children(y)| && Children(y)[k] == x;
    }
  }

  /** The position in the walk of an entry's parent entry: of its parent class, one level up. */
  lemma ParentEntry(f: Forest, x: Entry) returns (k: nat)
    requires x in Bfs(TopEntries(f)) && x.parentClass.Some?
    ensures k < |Bfs(TopEntries(f))|
    ensures Bfs(TopEntries(f))[k].node.deco.className == x.parentClass.value
    ensures Bfs(TopEntries(f))[k].depth + 1 == x.depth
  {
    WalkOrigin(f, x);
    var y :| y in Bfs(TopEntries(f)) && y.node.deco.className == x.parentClass.value && y.depth + 1 == x.depth;
    k :| 0 <= k < |Bfs(TopEntries(f))| && Bfs(TopEntries(f))[k] == y;
  }

  /** The queue's depths never decrease from front to back and span at most one level. */
  predicate LevelQueue(q: seq<Entry>) {
    && ByDepth(q)
    && (q != [] ==> q[|q| - 1].depth <= q[0].depth + 1)
  }

  /** Shallower entries come before deeper ones. */
  predicate ByDepth(q: seq<Entry>) {
    forall i, j | 0 <= i < j < |q| :: q[i].depth <= q[j].depth
  }

  predicate Shallowest(q: seq<Entry>, d: nat) {
    forall e | e in q :: d <= e.depth
  }

  lemma LevelQueueStep(q: seq<Entry>)
    requires q != [] && LevelQueue(q)
    ensures LevelQueue(q[1..] + Children(q[0]))
    ensures Shallowest(q[1..] + Children(q[0]), q[0].depth)
  {
    var q' := q[1..] + Children(q[0]);
    var d := q[0].depth;
    assert forall k | 0 <= k < |q'| :: q'[k].depth == if k < |q| - 1 then q[k + 1].depth else d + 1;
    assert forall k | 0 <= k < |q| :: d <= q[k].depth <= d + 1;
  }

  lemma ShallowerBound(q: seq<Entry>, d: nat, d': nat)
    requires Shallowest(q, d) && d' <= d
    ensures Shallowest(q, d')
  {
  }

  lemma ShallowestCons(e: Entry, tail: seq<Entry>)
    requires Shallowest(tail, e.depth)
    requires ByDepth(tail)
    ensures Shallowest([e] + tail, e.depth)
    ensures ByDepth([e] + tail)
  {
    var b := [e] + tail;
    forall i, j | 0 <= i < j < |b| ensures b[i].depth <= b[j].depth {
      if i > 0 {
        assert b[i] == tail[i - 1] && b[j] == tail[j - 1];
      } else {
        assert b[j] in tail;
      }
    }
  }

  /**
   * Walked from a level queue, entries come out in order of depth: every
   * entry is at least as deep as the queue's front, and shallower entries
   * come before deeper ones.
   */
  lemma {:induction false} BfsByLevel(q: seq<Entry>)
    requires LevelQueue(q)
    ensures q != [] ==> Shallowest(Bfs(q), q[0].depth)
    ensures ByDepth(Bfs(q))
    decreases |Flatten(Nodes(q))|
  {
    if q != [] {
      var q' := q[1..] + Children(q[0]);
      NextQueue(q);
      LevelQueueStep(q);
      BfsByLevel(q');
      var b := Bfs(q);
      var tail := Bfs(q');
      assert b == [q[0]] + tail;
      if q' != [] {
        assert q'[0] in q';
        ShallowerBound(tail, q'[0].depth, q[0].depth);
      }
      ShallowestCons(q[0], tail);
    }
  }

  /** From a forest's top level, the walk hands out shallower nodes before deeper ones. */
  lemma TopLevelBfsByLevel(f: Forest)
    ensures forall i, j | 0 <= i < j < |Bfs(TopEntries(f))| :: Bfs(TopEntries(f))[i].depth <= Bfs(TopEntries(f))[j].depth
  {
    BfsByLevel(TopEntries(f));
  }
}

=== FILE: colors.dfy ===
/**
 * Dimension colours and their shades. A colour is an integer RGB triple
 * (the `rgb(x, y, z)` strings of the editor, already parsed); a shade is
 * that triple scaled by a luminosity step and given the fixed alpha .3.
 * Luminosity steps are whole tenths, so `lum = .2` is `Shade(c, 2)`.
 */
module Colors {
  import opened Decorations

  datatype Rgb = Rgb(red: nat, green: nat, blue: nat)

  /** An `rgba(...)` colour; alpha is kept in tenths. */
  datatype Rgba = Rgba(red: nat, green: nat, blue: nat, alphaTenths: nat)

  /** The colour a dimension gets when none was chosen: `rgb(127, 71, 62)`. */
  const DefaultColor := Rgb(127, 71, 62)

  /** Every shade is drawn at alpha .3. */
  const ShadeAlphaTenths := 3

  /** The three looks of a decorated line: plain, under the cursor, hovered. */
  datatype LineState = Normal | CursorLine | Hover

  /** floor(v * (10 + k) / 10), i.e. one channel scaled by 1 + k/10. */
  function Channel(v: nat, k: int): (w: nat)
    requires -10 <= k
    ensures 10 * w <= v * (10 + k) < 10 * w + 10
  {
    v * (10 + k) / 10
  }

  /** `shadeColor(rgb, k/10)`: every channel scaled and floored, alpha .3. */
  function Shade(c: Rgb, k: int): (s: Rgba)
    requires -10 <= k
    ensures s.alphaTenths == ShadeAlphaTenths
    ensures 10 * s.red <= c.red * (10 + k) < 10 * s.red + 10
    ensures 10 * s.green <= c.green * (10 + k) < 10 * s.green + 10
    ensures 10 * s.blue <= c.blue * (10 + k) < 10 * s.blue + 10
  {
    Rgba(Channel(c.red, k), Channel(c.green, k), Channel(c.blue, k), ShadeAlphaTenths)
  }

  /**
   * The luminosity step, in tenths, for one side of a choice and one line
   * state: the defined side is lightened by .1/.2/.3 and the undefined
   * side darkened by .3/.2/.1 for plain/cursor/hover lines.
   */
  function Step(b: Branch, st: LineState): (k: int)
    ensures -3 <= k <= 3 && k != 0
    ensures b == Def <==> k > 0
  {
    match (b, st)
    case (Def, Normal) => 1
    case (Def, CursorLine) => 2
    case (Def, Hover) => 3
    case (Ndef, Normal) => -3
    case (Ndef, CursorLine) => -2
    case (Ndef, Hover) => -1
  }

  function BranchShade(c: Rgb, b: Branch, st: LineState): Rgba {
    Shade(c, Step(b, st))
  }

  /** x is nowhere brighter than y, channel by channel. */
  predicate NoBrighter(x: Rgba, y: Rgba) {
    x.red <= y.red && x.green <= y.green && x.blue <= y.blue
  }

  lemma ChannelMonotone(v: nat, k1: int, k2: int)
    requires -10 <= k1 <= k2
    ensures Channel(v, k1) <= Channel(v, k2)
  {
    assert v * (10 + k1) <= v * (10 + k2) by {
      assert v * (10 + k2) - v * (10 + k1) == v * (k2 - k1);
    }
  }

  /** A larger luminosity step never darkens any channel. */
  lemma ShadeMonotone(c: Rgb, k1: int, k2: int)
    requires -10 <= k1 <= k2
    ensures NoBrighter(Shade(c, k1), Shade(c, k2))
  {
    ChannelMonotone(c.red, k1, k2);
    ChannelMonotone(c.green, k1, k2);
    ChannelMonotone(c.blue, k1, k2);
  }

  /**
   * On either side, plain lines are no brighter than cursor lines, which are
   * no brighter than hovered lines; and every shade of the defined side is
   * at least as bright as every shade of the undefined side.
   */
  lemma ShadesOrdered(c: Rgb, b: Branch, st: LineState, st': LineState)
    ensures NoBrighter(BranchShade(c, b, Normal), BranchShade(c, b, CursorLine))
    ensures NoBrighter(BranchShade(c, b, CursorLine), BranchShade(c, b, Hover))
    ensures NoBrighter(BranchShade(c, Ndef, st), BranchShade(c, Def, st'))
  {
    ShadeMonotone(c, Step(b, Normal), Step(b, CursorLine));
    ShadeMonotone(c, Step(b, CursorLine), Step(b, Hover));
    ShadeMonotone(c, Step(Ndef, st), Step(Def, st'));
  }

  /** The defined side is never darker, and the undefined side never brighter, than the base colour. */
  lemma ShadeBrackets(c: Rgb, b: Branch, st: LineState)
    ensures b == Def ==> NoBrighter(Rgba(c.red, c.green, c.blue, ShadeAlphaTenths), BranchShade(c, b, st))
    ensures b == Ndef ==> NoBrighter(BranchShade(c, b, st), Rgba(c.red, c.green, c.blue, ShadeAlphaTenths))
  {
    var k := Step(b, st);
    if b == Def {
      ShadeMonotone(c, 0, k);
    } else {
      ShadeMonotone(c, k, 0);
    }
    assert Channel(c.red, 0) == c.red && Channel(c.green, 0) == c.green && Channel(c.blue, 0) == c.blue;
  }

  /** The default colour lightened by .1 is `rgba(139, 78, 68, .3)`. */
  lemma DefaultShadeExample()
    ensures BranchShade(DefaultColor, Def, Normal) == Rgba(139, 78, 68, 3)
    ensures BranchShade(DefaultColor, Ndef, Normal) == Rgba(88, 49, 43, 3)
  {
  }
}

=== FILE: decorations.dfy ===
/**
 * The decoration forest of `DimensionDecorationManager`
 * (ts/dimension-decoration-manager.ts).
 *
 * The undecorated root manager is represented by its list of children, a
 * `Forest`; every `Node` below it carries a decoration. A decoration is the
 * host's marker/decoration pair, reduced to an opaque `id` handed out by the
 * caller, the class name it was created with and the rows it covers.
 */
module Decorations {
  import opened Wrappers
  import opened Rows

  datatype Branch = Def | Ndef

  function BranchName(b: Branch): string {
    match b
    case Def => "defbranch"
    case Ndef => "ndefbranch"
  }

  /** The other side of a choice. */
  function Opposite(b: Branch): (o: Branch)
    ensures o != b
  {
    match b
    case Def => Ndef
    case Ndef => Def
  }

  datatype Decoration = Decoration(dimension: string, branch: Branch, id: nat, className: string, range: RowRange)

  datatype Node = Node(deco: Decoration, children: seq<Node>)

  /** The children of the undecorated root manager. */
  type Forest = seq<Node>

  /** The class prefix used under the undecorated root. */
  const TopPrefix: string := "dimension-marker"

  /**
   * `<prefix>-<dimension>-<branch>`: the class name of a decoration, whose
   * prefix is its parent's class name or `dimension-marker` at the top.
   */
  function ClassName(prefix: string, dimension: string, b: Branch): (name: string)
    ensures |name| == |prefix| + |dimension| + |BranchName(b)| + 2
    ensures name[..|prefix|] == prefix && name[|prefix|] == '-'
    ensures name[|prefix| + 1..|prefix| + 1 + |dimension|] == dimension
    ensures name[|name| - |BranchName(b)| - 1..] == "-" + BranchName(b)
  {
    var name := prefix + "-" + dimension + "-" + BranchName(b);
    assert name == prefix + ("-" + dimension + "-" + BranchName(b));
    assert name == (prefix + "-" + dimension) + ("-" + BranchName(b));
    name
  }

  /** The two sides of one dimension under one parent get different class names. */
  lemma ClassNameSidesDiffer(prefix: string, dimension: string)
    ensures ClassName(prefix, dimension, Def) != ClassName(prefix, dimension, Ndef)
  {
    assert |ClassName(prefix, dimension, Def)| + 1 == |ClassName(prefix, dimension, Ndef)|;
  }

  function NewNode(prefix: string, r: RowRange, dimension: string, b: Branch, id: nat): Node {
    Node(Decoration(dimension, b, id, ClassName(prefix, dimension, b), r), [])
  }

  datatype Relation = Parent | Child | Above | Below

  /**
   * `compareDecorations`: how range r1 sits against range r2. Containment is
   * tested first, so equal ranges give Parent; a partial overlap is an error.
   */
  function CompareDecorations(r1: RowRange, r2: RowRange): (res: Result<Relation, Error>)
    ensures res == Ok(Parent) <==> ContainsRange(r1, r2)
    ensures res == Ok(Child) <==> !ContainsRange(r1, r2) && ContainsRange(r2, r1)
    ensures r1 == r2 ==> res == Ok(Parent)
    ensures r1.Valid() && r2.Valid() ==> (res == Ok(Above) <==> r1.end < r2.start)
    ensures r1.Valid() && r2.Valid() ==> (res == Ok(Below) <==> r2.end < r1.start)
    ensures r1.Valid() && r2.Valid() ==>
              (res == Err(Malformed) <==>
                 IntersectsWith(r1, r2) && !ContainsRange(r1, r2) && !ContainsRange(r2, r1))
    ensures res.Err? ==> res.error == Malformed
  {
    if ContainsRange(r1, r2) then Ok(Parent)
    else if ContainsRange(r2, r1) then Ok(Child)
    else if CompareRanges(r1, r2) == -1 && !IntersectsWith(r1, r2) then Ok(Above)
    else if CompareRanges(r1, r2) == 1 && !IntersectsWith(r1, r2) then Ok(Below)
    else Err(Malformed)
  }

  /**
   * Reference definition of the sibling walk of `addDecoration`, resumed at
   * sibling i: recurse into a sibling that contains the range, put the new
   * node before the first sibling it lies above, skip siblings it contains
   * or lies below, and append it when the walk runs off the end.
   */
  function InsertFrom(prefix: string, siblings: Forest, i: nat, r: RowRange, dimension: string, b: Branch, id: nat)
    : Result<Forest, Error>
    requires i <= |siblings|
    decreases siblings, |siblings| - i
  {
    if i == |siblings| then
      Ok(siblings + [NewNode(prefix, r, dimension, b, id)])
    else
      var s := siblings[i];
      match CompareDecorations(r, s.deco.range)
      case Err(e) => Err(e)
      case Ok(Child) =>
        assert s in siblings;
        (match InsertFrom(s.deco.className, s.children, 0, r, dimension, b, id)
         case Err(e) => Err(e)
         case Ok(sub) => Ok(siblings[i := Node(s.deco, sub)]))
      case Ok(Above) =>
        Ok(siblings[..i] + [NewNode(prefix, r, dimension, b, id)] + siblings[i..])
      case Ok(_) =>
        InsertFrom(prefix, siblings, i + 1, r, dimension, b, id)
  }

  /** Reference definition of `addDecoration` on a manager whose class prefix is `prefix`. */
  function Insert(prefix: string, siblings: Forest, r: RowRange, dimension: string, b: Branch, id: nat)
    : Result<Forest, Error>
  {
    if |siblings| == 0 then Ok([NewNode(prefix, r, dimension, b, id)])
    else InsertFrom(prefix, siblings, 0, r, dimension, b, id)
  }

  lemma InsertStartsAtZero(prefix: string, siblings: Forest, r: RowRange, dimension: string, b: Branch, id: nat)
    ensures InsertFrom(prefix, siblings, 0, r, dimension, b, id) == Insert(prefix, siblings, r, dimension, b, id)
  {
    if |siblings| == 0 {
      assert siblings + [NewNode(prefix, r, dimension, b, id)] == [NewNode(prefix, r, dimension, b, id)];
    }
  }

  /**
   * The splice of `addDecoration`: push the new node at the end, then swap
   * it leftwards until it sits at index i. The siblings from i on move one
   * place right and keep their order.
   */
  method SpliceBySwaps(children: Forest, i: nat, node': Node) returns (cs: Forest)
    requires i <= |children|
    ensures cs == children[..i] + [node'] + children[i..]
  {
    cs := children + [node'];
    var j := |cs| - 1;
    while j > i
      invariant i <= j <= |children|
      invariant cs == children[..j] + [node'] + children[j..]
      decreases j
    {
      cs := cs[j := cs[j - 1]][j - 1 := cs[j]];
      SwapStep(children, j, node');
      j := j - 1;
    }
  }

  lemma SwapStep(children: Forest, j: nat, node': Node)
    requires 0 < j <= |children|
    ensures var cs := children[..j] + [node'] + children[j..];
      cs[j := cs[j - 1]][j - 1 := cs[j]] == children[..j - 1] + [node'] + children[j - 1..]
  {
  }

  /**
   * `addDecoration`, step by step as the code does it: a loop over the
   * children, a recursive call for a containing child, and for an 'above'
   * result an append followed by the swap loop that moves the new node left
   * into place i.
   */
  method AddDecoration(prefix: string, children: Forest, r: RowRange, dimension: string, b: Branch, id: nat)
    returns (res: Result<Forest, Error>)
    ensures res == Insert(prefix, children, r, dimension, b, id)
    decreases children
  {
    var node' := NewNode(prefix, r, dimension, b, id);
    if |children| == 0 {
      return Ok([node']);
    }
    var i := 0;
    while i < |children|
      invariant 0 <= i <= |children|
      invariant InsertFrom(prefix, children, i, r, dimension, b, id) == Insert(prefix, children, r, dimension, b, id)
    {
      var node := children[i];
      var comparison := CompareDecorations(r, node.deco.range);
      if comparison.Err? {
        return Err(comparison.error);
      }
      if comparison.value == Child {
        assert node in children;
        var sub := AddDecoration(node.deco.className, node.children, r, dimension, b, id);
        InsertStartsAtZero(node.deco.className, node.children, r, dimension, b, id);
        if sub.Err? {
          return Err(sub.error);
        }
        return Ok(children[i := Node(node.deco, sub.value)]);
      }
      if comparison.value == Above {
        var cs := SpliceBySwaps(children, i, node');
        return Ok(cs);
      }
      i := i + 1;
    }
    return Ok(children + [node']);
  }

  /** Every node of the forest in pre-order: a node, then its subtree, then its later siblings. */
  function Flatten(f: Forest): seq<Node>
    decreases f
  {
    if |f| == 0 then []
    else [f[0]] + Flatten(f[0].children) + Flatten(f[1..])
  }

  /** The decorations of the forest in pre-order. */
  function Decos(f: Forest): seq<Decoration>
    decreases f
  {
    if |f| == 0 then []
    else [f[0].deco] + Decos(f[0].children) + Decos(f[1..])
  }

  /** `filterDimension`: the decorated nodes of one dimension, collected in pre-order. */
  function FilterDimension(f: Forest, dimension: string): (r: seq<Node>)
    ensures forall n :: n in r <==> n in Flatten(f) && n.deco.dimension == dimension
    decreases f
  {
    if |f| == 0 then []
    else
      (if f[0].deco.dimension == dimension then [f[0]] else [])
      + FilterDimension(f[0].children, dimension)
      + FilterDimension(f[1..], dimension)
  }

  /** `filterDimensionChoice`: the decorated nodes of one side of one dimension, in pre-order. */
  function FilterDimensionChoice(f: Forest, dimension: string, b: Branch): (r: seq<Node>)
    ensures forall n :: n in r <==> n in Flatten(f) && n.deco.dimension == dimension && n.deco.branch == b
    decreases f
  {
    if |f| == 0 then []
    else
      (if f[0].deco.dimension == dimension && f[0].deco.branch == b then [f[0]] else [])
      + FilterDimensionChoice(f[0].children, dimension, b)
      + FilterDimensionChoice(f[1..], dimension, b)
  }

  /** `destroy`: the marker handles released, one per node, in pre-order. */
  function Destroy(f: Forest): (released: seq<nat>)
    ensures |released| == |Flatten(f)|
    ensures forall k :: 0 <= k < |released| ==> released[k] == Flatten(f)[k].deco.id
    decreases f
  {
    if |f| == 0 then []
    else [f[0].deco.id] + Destroy(f[0].children) + Destroy(f[1..])
  }
}

=== FILE: editor.dfy ===
/**
 * The parse-tree walk of `VariationalEditor` (ts/variational-editor.ts):
 * `addDimensions` registers a side-panel menu for every choice and asks
 * the decoration forest for one decoration per branch, before descending
 * into the branches. Marker ids come from a counter.
 *
 * The walk is shown equal to inserting the flat request list of module
 * Requests one by one, and on a well-spanned parse tree that insertion
 * never throws, keeps the forest nested and yields exactly one decoration
 * per request.
 */
module Editor {
  import opened Wrappers
  import opened Rows
  import opened Decorations
  import opened Nesting
  import opened Colors
  import opened PanelMenus
  import opened Ast
  import opened Requests

  datatype EditorState = EditorState(forest: Forest, menus: Menus, nextMarker: nat)

  /** The requests inserted one after another under the root, with consecutive ids. */
  function InsertAll(f: Forest, rs: seq<Request>, id: nat): Result<Forest, Error>
    decreases |rs|
  {
    if rs == [] then Ok(f)
    else
      var f1 :- Insert(TopPrefix, f, rs[0].range, rs[0].dimension, rs[0].branch, id);
      InsertAll(f1, rs[1..], id + 1)
  }

  /**
   * `addDecoration(node)`: the then branch's decoration, then the else
   * branch's when it has segments, each under the undecorated root with the
   * next marker id.
   */
  function AddChoiceDecorations(st: EditorState, c: Segment): (r: Result<EditorState, Error>)
    requires c.Choice?
    ensures var thenb := ThenCondition(c.kind);
      var first := Insert(TopPrefix, st.forest, BranchRange(c.thenBranch), c.name, thenb, st.nextMarker);
      && (first.Err? ==> r == Err(first.error))
      && (first.Ok? && !HasElse(c) ==> r == Ok(EditorState(first.value, st.menus, st.nextMarker + 1)))
      && (first.Ok? && HasElse(c) ==>
            var second := Insert(TopPrefix, first.value, BranchRange(c.elseBranch), c.name, Opposite(thenb), st.nextMarker + 1);
            && (second.Err? ==> r == Err(second.error))
            && (second.Ok? ==> r == Ok(EditorState(second.value, st.menus, st.nextMarker + 2))))
  {
    var rs := ChoiceRequests(c);
    InsertAllChoice(st.forest, c, st.nextMarker);
    var f :- InsertAll(st.forest, rs, st.nextMarker);
    Ok(EditorState(f, st.menus, st.nextMarker + |rs|))
  }

  /** A choice's requests: the then branch's insertion, then the else branch's when there is one. */
  lemma InsertAllChoice(f: Forest, c: Segment, id: nat)
    requires c.Choice?
    ensures var thenb := ThenCondition(c.kind);
      InsertAll(f, ChoiceRequests(c), id)
      == match Insert(TopPrefix, f, BranchRange(c.thenBranch), c.name, thenb, id)
         case Err(e) => Err(e)
         case Ok(f1) =>
           if !HasElse(c) then Ok(f1)
           else Insert(TopPrefix, f1, BranchRange(c.elseBranch), c.name, Opposite(thenb), id + 1)
  {
    var rs := ChoiceRequests(c);
    var first := Insert(TopPrefix, f, rs[0].range, rs[0].dimension, rs[0].branch, id);
    if first.Ok? {
      if HasElse(c) {
        assert rs[1..][1..] == [];
        var second := Insert(TopPrefix, first.value, rs[1].range, rs[1].dimension, rs[1].branch, id + 1);
        assert InsertAll(first.value, rs[1..], id + 1) == (if second.Ok? then InsertAll(second.value, [], id + 2) else Err(second.error));
      } else {
        assert rs[1..] == [];
      }
    }
  }

  /** `addDimensions` on a segment: menu, decorations, then both branches. */
  function AddDimensionsSegment(st: EditorState, s: Segment): Result<EditorState, Error>
    decreases s, 1
  {
    match s
    case Text(_) => Ok(st)
    case Choice(name, thenBranch, elseBranch, _, _) =>
      var st1 := st.(menus := CreatePanelMenu(st.menus, name, None));
      var st2 :- AddChoiceDecorations(st1, s);
      var st3 :- AddDimensionsFrom(st2, thenBranch, 0);
      AddDimensionsFrom(st3, elseBranch, 0)
  }

  /** `addDimensions` on a region, from segment i on. */
  function AddDimensionsFrom(st: EditorState, reg: Region, i: nat): Result<EditorState, Error>
    requires i <= |reg.segments|
    decreases reg, 0, |reg.segments| - i
  {
    if i == |reg.segments| then Ok(st)
    else
      var st1 :- AddDimensionsSegment(st, reg.segments[i]);
      AddDimensionsFrom(st1, reg, i + 1)
  }

  /**
   * `addDimensions` on the root region: it agrees with inserting the
   * region's request list under the root with consecutive marker ids, and
   * registers a menu for each dimension asked for.
   */
  function AddDimensions(st: EditorState, reg: Region): (r: Result<EditorState, Error>)
    ensures Agrees(st, RegionRequests(reg), r)
  {
    RegionAgrees(st, reg, 0);
    AddDimensionsFrom(st, reg, 0)
  }

  /** Inserting a + b is inserting a, then b with the ids that follow. */
  lemma {:induction false} InsertAllAppend(f: Forest, a: seq<Request>, b: seq<Request>, id: nat)
    ensures InsertAll(f, a + b, id)
         == (match InsertAll(f, a, id)
             case Err(e) => Err(e)
             case Ok(f') => InsertAll(f', b, id + |a|))
    decreases |a|
  {
    if a == [] {
      assert a + b == b;
    } else {
      assert (a + b)[0] == a[0] && (a + b)[1..] == a[1..] + b;
      var r := Insert(TopPrefix, f, a[0].range, a[0].dimension, a[0].branch, id);
      if r.Ok? {
        InsertAllAppend(r.value, a[1..], b, id + 1);
      }
    }
  }

  /**
   * The registry after the walk: the old menus untouched, one new menu in
   * the default colour for every dimension asked for that had none.
   */
  predicate MenusGrow(m: Menus, m': Menus, rs: seq<Request>) {
    && m'.Keys == m.Keys + (set q | q in rs :: q.dimension)
    && (forall k | k in m :: m'[k] == m[k])
    && (forall k | k in m' && k !in m :: m'[k].color == DefaultColor)
    && (Valid(m) ==> Valid(m'))
  }

  lemma MenusGrowTrans(m1: Menus, m2: Menus, m3: Menus, a: seq<Request>, b: seq<Request>)
    requires MenusGrow(m1, m2, a) && MenusGrow(m2, m3, b)
    ensures MenusGrow(m1, m3, a + b)
  {
    assert (set q | q in a + b :: q.dimension) == (set q | q in a :: q.dimension) + (set q | q in b :: q.dimension);
  }

  /** The walk's result agrees with inserting the request list rs. */
  predicate Agrees(st: EditorState, rs: seq<Request>, r: Result<EditorState, Error>) {
    var ins := InsertAll(st.forest, rs, st.nextMarker);
    && (r.Ok? <==> ins.Ok?)
    && (r.Ok? ==>
          && r.value.forest == ins.value
          && r.value.nextMarker == st.nextMarker + |rs|
          && MenusGrow(st.menus, r.value.menus, rs))
  }

  lemma ChoiceDecorationsAgree(st: EditorState, c: Segment)
    requires c.Choice?
    requires c.name in st.menus
    ensures Agrees(st, ChoiceRequests(c), AddChoiceDecorations(st, c))
  {
    var cr := ChoiceRequests(c);
    assert (set q | q in cr :: q.dimension) == {c.name};
  }

  /** Registering the choice's menu and then decorating it agrees with inserting its own requests. */
  lemma MenuThenDecorationsAgree(st: EditorState, c: Segment)
    requires c.Choice?
    ensures Agrees(st, ChoiceRequests(c), AddChoiceDecorations(st.(menus := CreatePanelMenu(st.menus, c.name, None)), c))
  {
    var st1 := st.(menus := CreatePanelMenu(st.menus, c.name, None));
    var cr := ChoiceRequests(c);
    ChoiceDecorationsAgree(st1, c);
    assert (set q | q in cr :: q.dimension) == {c.name};
  }

  lemma AgreesSeq(st: EditorState, a: seq<Request>, r1: Result<EditorState, Error>, b: seq<Request>, r2: Result<EditorState, Error>)
    requires Agrees(st, a, r1)
    requires r1.Ok? ==> Agrees(r1.value, b, r2)
    requires r1.Err? ==> r2.Err?
    ensures Agrees(st, a + b, r2)
  {
    InsertAllAppend(st.forest, a, b, st.nextMarker);
    if r1.Ok? && r2.Ok? {
      MenusGrowTrans(st.menus, r1.value.menus, r2.value.menus, a, b);
    }
  }

  /** The walk over one segment inserts exactly that segment's requests, in order. */
  lemma {:induction false} SegmentAgrees(st: EditorState, s: Segment)
    ensures Agrees(st, SegmentRequests(s), AddDimensionsSegment(st, s))
    decreases s, 1
  {
    match s
    case Text(_) =>
    case Choice(name, thenBranch, elseBranch, _, _) =>
      var st1 := st.(menus := CreatePanelMenu(st.menus, name, None));
      var r2 := AddChoiceDecorations(st1, s);
      var cr := ChoiceRequests(s);
      var tr := RegionRequestsFrom(thenBranch, 0);
      var er := RegionRequestsFrom(elseBranch, 0);
      MenuThenDecorationsAgree(st, s);
      if r2.Ok? {
        var r3 := AddDimensionsFrom(r2.value, thenBranch, 0);
        RegionAgrees(r2.value, thenBranch, 0);
        if r3.Ok? {
          RegionAgrees(r3.value, elseBranch, 0);
        }
        AgreesSeq(st, cr, r2, tr, r3);
        AgreesSeq(st, cr + tr, r3, er, AddDimensionsSegment(st, s));
      } else {
        AgreesSeq(st, cr, r2, tr + er, AddDimensionsSegment(st, s));
        assert cr + tr + er == cr + (tr + er);
      }
  }

  /** The walk over a region, from segment i on, inserts exactly those segments' requests. */
  lemma {:induction false} RegionAgrees(st: EditorState, reg: Region, i: nat)
    requires i <= |reg.segments|
    ensures Agrees(st, RegionRequestsFrom(reg, i), AddDimensionsFrom(st, reg, i))
    decreases reg, 0, |reg.segments| - i
  {
    if i < |reg.segments| {
      var s := reg.segments[i];
      var r1 := AddDimensionsSegment(st, s);
      SegmentAgrees(st, s);
      if r1.Ok? {
        RegionAgrees(r1.value, reg, i + 1);
      }
      AgreesSeq(st, SegmentRequests(s), r1, RegionRequestsFrom(reg, i + 1), AddDimensionsFrom(st, reg, i));
    }
  }

  /** d is the decoration made for request q. */
  predicate Matches(d: Decoration, q: Request) {
    d.range == q.range && d.dimension == q.dimension && d.branch == q.branch
  }

  /** Each decoration is a request's, each request has its decoration, and ids tell which is which. */
  predicate DecoratesExactly(old_: seq<Decoration>, new_: seq<Decoration>, rs: seq<Request>, id: nat) {
    && |new_| == |old_| + |rs|
    && (forall d | d in old_ :: d in new_)
    && (forall d | d in new_ :: d in old_ || (id <= d.id < id + |rs| && Matches(d, rs[d.id - id])))
    && (forall k | 0 <= k < |rs| :: Decorated(new_, id + k, rs[k]))
  }

  /** Some decoration carries the id and matches the request. */
  predicate Decorated(ds: seq<Decoration>, id: nat, q: Request) {
    exists d | d in ds :: d.id == id && Matches(d, q)
  }

  /** Every existing decoration either shares no row with a request or strictly contains it. */
  predicate RoomFor(f: Forest, rs: seq<Request>) {
    forall d, q | d in Decos(f) && q in rs :: Disjoint(d.range, q.range) || StrictlyInside(q.range, d.range)
  }

  lemma MultisetAddOne<T>(a: seq<T>, b: seq<T>, d: T)
    requires multiset(b) == multiset(a) + multiset{d}
    ensures |b| == |a| + 1
    ensures forall x | x in b :: x in a || x == d
    ensures forall x | x in a :: x in b
    ensures d in b
  {
    assert |multiset(b)| == |multiset(a)| + 1;
    forall x | x in b ensures x in a || x == d {
      assert x in multiset(b);
    }
    forall x | x in a ensures x in b {
      assert multiset(b)[x] == multiset(a)[x] + multiset{d}[x];
    }
    assert d in multiset(b);
  }

  /** One request that fits the forest goes in without a throw and adds exactly its decoration. */
  lemma InsertOneFits(f: Forest, q: Request, id: nat) returns (d: Decoration, f1: Forest)
    requires Nested(f) && ClassNamesFollowPaths(TopPrefix, f)
    requires q.range.Valid() && FitsAround(q.range, f)
    ensures Insert(TopPrefix, f, q.range, q.dimension, q.branch, id) == Ok(f1)
    ensures Nested(f1) && ClassNamesFollowPaths(TopPrefix, f1)
    ensures d.id == id && Matches(d, q)
    ensures multiset(Decos(f1)) == multiset(Decos(f)) + multiset{d}
  {
    var className := InsertFitting(TopPrefix, f, q.range, q.dimension, q.branch, id);
    InsertKeepsClassNames(f, q.range, q.dimension, q.branch, id);
    d := Decoration(q.dimension, q.branch, id, className, q.range);
    f1 := Insert(TopPrefix, f, q.range, q.dimension, q.branch, id).value;
  }

  lemma InsertAllStep(f: Forest, rs: seq<Request>, id: nat, f1: Forest)
    requires rs != []
    requires Insert(TopPrefix, f, rs[0].range, rs[0].dimension, rs[0].branch, id) == Ok(f1)
    ensures InsertAll(f, rs, id) == InsertAll(f1, rs[1..], id + 1)
  {
  }

  /** After the first request's decoration is in, the other requests still fit. */
  lemma RestFits(old_: seq<Decoration>, new_: seq<Decoration>, rs: seq<Request>, d: Decoration)
    requires rs != [] && LaterNests(rs) && Matches(d, rs[0])
    requires forall x, q | x in old_ && q in rs :: Disjoint(x.range, q.range) || StrictlyInside(q.range, x.range)
    requires forall x | x in new_ :: x in old_ || x == d
    ensures LaterNests(rs[1..])
    ensures forall x, q | x in new_ && q in rs[1..] :: Disjoint(x.range, q.range) || StrictlyInside(q.range, x.range)
  {
    var rest := rs[1..];
    forall j, k | 0 <= j < k < |rest| ensures Fits(rest[j], rest[k]) {
      assert rest[j] == rs[j + 1] && rest[k] == rs[k + 1];
    }
    forall x, y | x in new_ && y in rest
      ensures Disjoint(x.range, y.range) || StrictlyInside(y.range, x.range)
    {
      var k :| 0 <= k < |rest| && rest[k] == y;
      assert rs[k + 1] == y;
      if x == d {
        assert Fits(rs[0], rs[k + 1]);
      }
    }
  }

  /** The decoration made for the k-th request. */
  lemma DecorationFor(old_: seq<Decoration>, new_: seq<Decoration>, rs: seq<Request>, id: nat, k: nat) returns (x: Decoration)
    requires DecoratesExactly(old_, new_, rs, id) && k < |rs|
    ensures x in new_ && x.id == id + k && Matches(x, rs[k])
  {
    assert Decorated(new_, id + k, rs[k]);
    x :| x in new_ && x.id == id + k && Matches(x, rs[k]);
  }

  /** One decoration for the first request, then exactly the rest's: exactly all of them. */
  lemma DecoratesCompose(old_: seq<Decoration>, mid: seq<Decoration>, new_: seq<Decoration>, rs: seq<Request>, id: nat, d: Decoration)
    requires rs != [] && d.id == id && Matches(d, rs[0])
    requires multiset(mid) == multiset(old_) + multiset{d}
    requires DecoratesExactly(mid, new_, rs[1..], id + 1)
    ensures DecoratesExactly(old_, new_, rs, id)
  {
    MultisetAddOne(old_, mid, d);
    assert forall k | 0 < k < |rs| :: rs[k] == rs[1..][k - 1];
    forall k | 0 <= k < |rs| ensures Decorated(new_, id + k, rs[k]) {
      if k == 0 {
        assert d in new_;
      } else {
        var x := DecorationFor(mid, new_, rs[1..], id + 1, k - 1);
        assert x.id == id + k && Matches(x, rs[k]);
      }
    }
  }

  /** The first request goes in, and the forest it leaves still has room for the rest under the next id. */
  lemma InsertFirst(f: Forest, rs: seq<Request>, id: nat) returns (d: Decoration, f1: Forest)
    requires rs != []
    requires Nested(f) && ClassNamesFollowPaths(TopPrefix, f)
    requires LaterNests(rs) && (forall q | q in rs :: q.range.Valid())
    requires RoomFor(f, rs)
    requires forall x | x in Decos(f) :: x.id < id
    ensures InsertAll(f, rs, id) == InsertAll(f1, rs[1..], id + 1)
    ensures Nested(f1) && ClassNamesFollowPaths(TopPrefix, f1)
    ensures LaterNests(rs[1..]) && (forall q | q in rs[1..] :: q.range.Valid())
    ensures RoomFor(f1, rs[1..])
    ensures forall x | x in Decos(f1) :: x.id < id + 1
    ensures d.id == id && Matches(d, rs[0])
    ensures multiset(Decos(f1)) == multiset(Decos(f)) + multiset{d}
  {
    assert rs[0] in rs;
    d, f1 := InsertOneFits(f, rs[0], id);
    MultisetAddOne(Decos(f), Decos(f1), d);
    RestFits(Decos(f), Decos(f1), rs, d);
    InsertAllStep(f, rs, id, f1);
    forall q | q in rs[1..] ensures q.range.Valid() {
      assert q in rs;
    }
  }

  /**
   * Inserting requests that fit each other and the existing forest never
   * throws, keeps the forest nested with path class names, and adds
   * exactly one decoration per request, numbered from id.
   */
  lemma {:induction false} InsertAllFitting(f: Forest, rs: seq<Request>, id: nat)
    requires Nested(f) && ClassNamesFollowPaths(TopPrefix, f)
    requires LaterNests(rs) && (forall q | q in rs :: q.range.Valid())
    requires RoomFor(f, rs)
    requires forall d | d in Decos(f) :: d.id < id
    ensures InsertAll(f, rs, id).Ok?
    ensures Nested(InsertAll(f, rs, id).value)
    ensures ClassNamesFollowPaths(TopPrefix, InsertAll(f, rs, id).value)
    ensures DecoratesExactly(Decos(f), Decos(InsertAll(f, rs, id).value), rs, id)
    decreases |rs|
  {
    if rs != [] {
      var d, f1 := InsertFirst(f, rs, id);
      InsertAllFitting(f1, rs[1..], id + 1);
      DecoratesCompose(Decos(f), Decos(f1), Decos(InsertAll(f1, rs[1..], id + 1).value), rs, id, d);
    }
  }

  /**
   * A well-spanned parse tree, walked into an empty forest, never throws:
   * the forest comes out nested with path class names, holding one
   * decoration per requested branch, and every dimension of the tree has a
   * menu.
   */
  lemma AddDimensionsWellSpanned(menus: Menus, root: Region, hi: nat, id: nat)
    requires WellSpannedRegion(root, 0, hi)
    ensures AddDimensions(EditorState([], menus, id), root).Ok?
    ensures var st := AddDimensions(EditorState([], menus, id), root).value;
      && Nested(st.forest)
      && ClassNamesFollowPaths(TopPrefix, st.forest)
      && DecoratesExactly([], Decos(st.forest), RegionRequests(root), id)
      && MenusGrow(menus, st.menus, RegionRequests(root))
  {
    var rs := RegionRequests(root);
    RegionNests(root, 0, hi);
    RegionAgrees(EditorState([], menus, id), root, 0);
    InsertAllFitting([], rs, id);
  }
}

=== FILE: folds.dfy ===
/**
 * Showing one side of a dimension (`showDimensionChoice`,
 * ts/variational-editor.ts:277-344). The editor remembers, per dimension,
 * which side it folded and the ids of those folds. Asking for one side
 * folds every decoration of the other side; asking for neither (`null`)
 * folds nothing and forgets the dimension. Earlier folds are released
 * only when the request is `null` or names the side that is folded. Fold
 * ids come from a counter, as the host hands them out.
 */
module Folding {
  import opened Wrappers
  import opened Rows
  import opened Decorations
  import opened Traversal

  datatype FoldRecord = FoldRecord(branch: Branch, foldIds: seq<nat>)

  type ChoiceFolds = map<string, FoldRecord>

  /**
   * A fold the editor asks the host for: from the row after the
   * decoration's first row to the row before its last row (the end at
   * the row's last column). The rows are passed on as computed, so they
   * may be negative or reversed for a one-row decoration.
   */
  datatype Fold = Fold(id: nat, startRow: int, endRow: int)

  datatype ShowOutcome = ShowOutcome(choiceFolds: ChoiceFolds, folded: seq<Fold>, unfolded: seq<nat>, nextFold: nat)

  /** One new fold per decoration, numbered from `next`. */
  function FoldsFor(choices: seq<Node>, next: nat): (folds: seq<Fold>)
    ensures |folds| == |choices|
    ensures forall k | 0 <= k < |choices| ::
      folds[k] == Fold(next + k, choices[k].deco.range.start + 1, choices[k].deco.range.end - 1)
  {
    seq(|choices|, k requires 0 <= k < |choices| =>
      Fold(next + k, choices[k].deco.range.start + 1, choices[k].deco.range.end - 1))
  }

  function FoldIds(folds: seq<Fold>): (ids: seq<nat>)
    ensures |ids| == |folds|
    ensures forall k | 0 <= k < |folds| :: ids[k] == folds[k].id
  {
    seq(|folds|, k requires 0 <= k < |folds| => folds[k].id)
  }

  /** The fold ids released by a request: the recorded ones, when the request is `null` or shows the folded side. */
  function Released(folds: ChoiceFolds, dimension: string, request: Option<Branch>): seq<nat> {
    if dimension in folds && (request.None? || request.value == folds[dimension].branch)
    then folds[dimension].foldIds
    else []
  }

  function ShowDimensionChoice(folds: ChoiceFolds, forest: Forest, dimension: string, request: Option<Branch>, next: nat)
    : (out: ShowOutcome)
    ensures request.None? ==> dimension !in out.choiceFolds && out.folded == [] && out.nextFold == next
    ensures request.Some? ==>
      var hidden := OfChoice(Flatten(forest), dimension, Opposite(request.value));
      && out.folded == FoldsFor(hidden, next)
      && dimension in out.choiceFolds
      && out.choiceFolds[dimension] == FoldRecord(Opposite(request.value), FoldIds(out.folded))
      && out.nextFold == next + |hidden|
    ensures forall d | d != dimension :: (d in out.choiceFolds <==> d in folds)
    ensures forall d | d != dimension && d in folds :: out.choiceFolds[d] == folds[d]
    ensures dimension in folds && (request.None? || request == Some(folds[dimension].branch)) ==>
      out.unfolded == folds[dimension].foldIds
    ensures !(dimension in folds && (request.None? || request == Some(folds[dimension].branch))) ==>
      out.unfolded == []
  {
    var unfold := Released(folds, dimension, request);
    match request
    case None =>
      ShowOutcome(folds - {dimension}, [], unfold, next)
    case Some(b) =>
      var foldBranch := if b == Def then Ndef else Def;
      var choices := FilterDimensionChoice(forest, dimension, foldBranch);
      FilterChoiceIsPreOrder(forest, dimension, foldBranch);
      var newFolds := FoldsFor(choices, next);
      ShowOutcome(folds[dimension := FoldRecord(foldBranch, FoldIds(newFolds))], newFolds, unfold, next + |newFolds|)
  }

  /** Showing one side folds exactly the other side's decorations of that dimension, and nothing of any other. */
  lemma FoldsExactlyTheOtherSide(folds: ChoiceFolds, forest: Forest, dimension: string, b: Branch, next: nat, k: nat)
    requires k < |ShowDimensionChoice(folds, forest, dimension, Some(b), next).folded|
    ensures exists n | n in Flatten(forest) ::
      && n.deco.dimension == dimension && n.deco.branch != b
      && ShowDimensionChoice(folds, forest, dimension, Some(b), next).folded[k].startRow == n.deco.range.start + 1
  {
    var hidden := OfChoice(Flatten(forest), dimension, Opposite(b));
    assert hidden[k] in hidden;
  }

  /**
   * Showing a side and then both sides releases exactly the folds the
   * first call made and leaves no record of the dimension.
   */
  lemma ShowThenBoth(folds: ChoiceFolds, forest: Forest, dimension: string, b: Branch, next: nat)
    ensures var first := ShowDimensionChoice(folds, forest, dimension, Some(b), next);
      var second := ShowDimensionChoice(first.choiceFolds, forest, dimension, None, first.nextFold);
      && second.unfolded == FoldIds(first.folded)
      && dimension !in second.choiceFolds
      && second.folded == []
  {
  }

  /** Switching from one side to the other releases the first side's folds. */
  lemma SwitchSides(folds: ChoiceFolds, forest: Forest, dimension: string, b: Branch, next: nat)
    ensures var first := ShowDimensionChoice(folds, forest, dimension, Some(b), next);
      var second := ShowDimensionChoice(first.choiceFolds, forest, dimension, Some(Opposite(b)), first.nextFold);
      && second.unfolded == FoldIds(first.folded)
      && second.choiceFolds[dimension].branch == b
  {
  }

  /**
   * Asking twice for the same side releases nothing the second time: the
   * first call's fold ids are no longer recorded, so they are never
   * released by a later call either.
   */
  lemma SameSideTwice(folds: ChoiceFolds, forest: Forest, dimension: string, b: Branch, next: nat)
    requires |OfChoice(Flatten(forest), dimension, Opposite(b))| > 0
    ensures var first := ShowDimensionChoice(folds, forest, dimension, Some(b), next);
      var second := ShowDimensionChoice(first.choiceFolds, forest, dimension, Some(b), first.nextFold);
      && second.unfolded == []
      && first.folded != []
      && forall id | id in FoldIds(first.folded) :: id !in second.choiceFolds[dimension].foldIds
  {
    var first := ShowDimensionChoice(folds, forest, dimension, Some(b), next);
    var second := ShowDimensionChoice(first.choiceFolds, forest, dimension, Some(b), first.nextFold);
    forall id | id in FoldIds(first.folded) ensures id !in second.choiceFolds[dimension].foldIds {
      assert id < first.nextFold;
    }
  }
}

=== FILE: nesting.dfy ===
/**
 * What one `addDecoration` does to the forest as a whole: it adds exactly
 * one decoration and drops none, keeps class names equal to their nesting
 * path, and keeps the nesting invariant (siblings sorted and disjoint,
 * children inside their parent) when the new range contains no existing
 * node. When every existing range is either disjoint from the new one or
 * strictly contains it, the insertion never throws.
 */
module Nesting {
  import opened Wrappers
  import opened Rows
  import opened Decorations

  /** Siblings are pairwise disjoint and sorted by row. */
  predicate Ordered(f: Forest) {
    forall j, k :: 0 <= j < k < |f| ==> f[j].deco.range.end < f[k].deco.range.start
  }

  /** The forest's nesting invariant, at every level. */
  predicate Nested(f: Forest)
    decreases f
  {
    && Ordered(f)
    && forall n | n in f ::
         && n.deco.range.Valid()
         && (forall c | c in n.children :: ContainsRange(n.deco.range, c.deco.range))
         && Nested(n.children)
  }

  /** Every class name is its parent's class name (or the top prefix) followed by its own dimension and side. */
  predicate ClassNamesFollowPaths(prefix: string, f: Forest)
    decreases f
  {
    forall n | n in f ::
      && n.deco.className == ClassName(prefix, n.deco.dimension, n.deco.branch)
      && ClassNamesFollowPaths(n.deco.className, n.children)
  }

  /** The range r contains no decoration of the forest. */
  predicate ContainsNone(r: RowRange, f: Forest) {
    forall d | d in Decos(f) :: !ContainsRange(r, d.range)
  }

  /** Every decoration of the forest either shares no row with r or strictly contains it. */
  predicate FitsAround(r: RowRange, f: Forest) {
    forall d | d in Decos(f) :: Disjoint(d.range, r) || StrictlyInside(r, d.range)
  }

  function TopRanges(f: Forest): set<RowRange> {
    set n | n in f :: n.deco.range
  }

  lemma {:induction false} DecosAppend(a: Forest, b: Forest)
    ensures Decos(a + b) == Decos(a) + Decos(b)
    decreases |a|
  {
    if |a| == 0 {
      assert a + b == b;
    } else {
      assert (a + b)[0] == a[0];
      assert (a + b)[1..] == a[1..] + b;
      DecosAppend(a[1..], b);
    }
  }

  lemma DecosAround(pre: Forest, n: Node, post: Forest)
    ensures Decos(pre + [n] + post) == Decos(pre) + ([n.deco] + Decos(n.children)) + Decos(post)
  {
    DecosAppend(pre + [n], post);
    DecosAppend(pre, [n]);
    DecosOfNode(n);
  }

  /** The decorations of a forest, split around its k-th top-level node. */
  lemma DecosSplit(s: Forest, k: nat)
    requires k < |s|
    ensures Decos(s) == Decos(s[..k]) + ([s[k].deco] + Decos(s[k].children)) + Decos(s[k + 1..])
  {
    SplitAround(s, k);
    DecosAround(s[..k], s[k], s[k + 1..]);
  }

  lemma SplitAround<T>(s: seq<T>, k: nat)
    requires k < |s|
    ensures s == s[..k] + [s[k]] + s[k + 1..]
  {
  }

  lemma DecosOfNode(n: Node)
    ensures Decos([n]) == [n.deco] + Decos(n.children)
  {
    assert [n][1..] == [];
  }

  lemma NestedDecosValid(f: Forest)
    requires Nested(f)
    ensures forall d | d in Decos(f) :: d.range.Valid()
    decreases f
  {
    if |f| > 0 {
      assert f[0] in f;
      NestedDecosValid(f[0].children);
      assert Nested(f[1..]) by {
        forall n | n in f[1..] ensures n in f { }
      }
      NestedDecosValid(f[1..]);
    }
  }

  lemma MultisetSplice<T>(a: seq<T>, x: T, c: seq<T>)
    ensures multiset(a + [x] + c) == multiset(a + c) + multiset{x}
  {
  }

  lemma SpliceAddsOneAt(pre: Forest, n: Node, post: Forest)
    requires n.children == []
    ensures multiset(Decos(pre + [n] + post)) == multiset(Decos(pre + post)) + multiset{n.deco}
  {
    DecosAround(pre, n, post);
    assert [n.deco] + Decos(n.children) == [n.deco];
    DecosAppend(pre, post);
    MultisetSplice(Decos(pre), n.deco, Decos(post));
  }

  lemma SpliceAddsOne(s: Forest, i: nat, n: Node)
    requires i <= |s| && n.children == []
    ensures multiset(Decos(s[..i] + [n] + s[i..])) == multiset(Decos(s)) + multiset{n.deco}
  {
    assert s[..i] + s[i..] == s;
    SpliceAddsOneAt(s[..i], n, s[i..]);
  }

  lemma MultisetReplace<T>(a: seq<T>, x: T, y: seq<T>, y': seq<T>, c: seq<T>)
    ensures multiset(a + ([x] + y') + c) + multiset(y) == multiset(a + ([x] + y) + c) + multiset(y')
  {
  }

  lemma ReplaceChildrenDecos(s: Forest, i: nat, sub: Forest)
    requires i < |s|
    ensures multiset(Decos(s[i := Node(s[i].deco, sub)])) + multiset(Decos(s[i].children))
         == multiset(Decos(s)) + multiset(Decos(sub))
  {
    var s' := s[i := Node(s[i].deco, sub)];
    DecosSplit(s, i);
    DecosSplit(s', i);
    assert s'[..i] == s[..i] && s'[i + 1..] == s[i + 1..];
    MultisetReplace(Decos(s[..i]), s[i].deco, Decos(s[i].children), Decos(sub), Decos(s[i + 1..]));
  }

  lemma MultisetCancel<T>(a: multiset<T>, b: multiset<T>, c: multiset<T>, x: T)
    requires a + c == b + (c + multiset{x})
    ensures a == b + multiset{x}
  {
    forall y
      ensures a[y] == (b + multiset{x})[y]
    {
      assert (a + c)[y] == (b + (c + multiset{x}))[y];
    }
  }

  /**
   * An unfolding of the reference walk `InsertFrom` past the last sibling,
   * stated for the nesting proofs below: the walk appends the new node.
   */
  lemma InsertFromEnd(prefix: string, s: Forest, r: RowRange, dimension: string, b: Branch, id: nat)
    ensures InsertFrom(prefix, s, |s|, r, dimension, b, id) == Ok(s + [NewNode(prefix, r, dimension, b, id)])
    ensures s + [NewNode(prefix, r, dimension, b, id)] == s[..|s|] + [NewNode(prefix, r, dimension, b, id)] + s[|s|..]
  {
    assert s[..|s|] == s && s[|s|..] == [];
  }

  /**
   * An unfolding of the reference walk `InsertFrom` at sibling i, case by
   * case, stated for the nesting proofs below: the walk fails on a
   * malformed comparison, goes into a sibling the range is inside, splices
   * the new node before a sibling it lies above, and otherwise moves on to
   * the next sibling.
   */
  lemma InsertFromAt(prefix: string, s: Forest, i: nat, r: RowRange, dimension: string, b: Branch, id: nat)
    requires i < |s|
    ensures CompareDecorations(r, s[i].deco.range).Err? ==> InsertFrom(prefix, s, i, r, dimension, b, id).Err?
    ensures CompareDecorations(r, s[i].deco.range) == Ok(Child) ==>
      var inner := InsertFrom(s[i].deco.className, s[i].children, 0, r, dimension, b, id);
      && (InsertFrom(prefix, s, i, r, dimension, b, id).Ok? <==> inner.Ok?)
      && (inner.Ok? ==> InsertFrom(prefix, s, i, r, dimension, b, id).value == s[i := Node(s[i].deco, inner.value)])
    ensures CompareDecorations(r, s[i].deco.range) == Ok(Above) ==>
      InsertFrom(prefix, s, i, r, dimension, b, id) == Ok(s[..i] + [NewNode(prefix, r, dimension, b, id)] + s[i..])
    ensures CompareDecorations(r, s[i].deco.range) in {Ok(Parent), Ok(Below)} ==>
      InsertFrom(prefix, s, i, r, dimension, b, id) == InsertFrom(prefix, s, i + 1, r, dimension, b, id)
  {
  }

  /**
   * A successful insertion adds exactly one decoration, carrying the new
   * range, dimension, side and handle, and removes none; `className` is the
   * class name it was given.
   */
  lemma {:induction false} InsertFromAddsOne(prefix: string, s: Forest, i: nat, r: RowRange, dimension: string, b: Branch, id: nat)
    returns (className: string)
    requires i <= |s|
    requires InsertFrom(prefix, s, i, r, dimension, b, id).Ok?
    ensures multiset(Decos(InsertFrom(prefix, s, i, r, dimension, b, id).value))
         == multiset(Decos(s)) + multiset{Decoration(dimension, b, id, className, r)}
    decreases s, |s| - i
  {
    var added := NewNode(prefix, r, dimension, b, id);
    if i == |s| {
      InsertFromEnd(prefix, s, r, dimension, b, id);
      SpliceAddsOne(s, i, added);
      className := added.deco.className;
    } else {
      var n := s[i];
      var cmp := CompareDecorations(r, n.deco.range);
      InsertFromAt(prefix, s, i, r, dimension, b, id);
      if cmp == Ok(Child) {
        var inner := InsertFrom(n.deco.className, n.children, 0, r, dimension, b, id);
        className := InsertFromAddsOne(n.deco.className, n.children, 0, r, dimension, b, id);
        ReplaceChildrenDecos(s, i, inner.value);
        MultisetCancel(multiset(Decos(s[i := Node(n.deco, inner.value)])), multiset(Decos(s)), multiset(Decos(n.children)),
                       Decoration(dimension, b, id, className, r));
      } else if cmp == Ok(Above) {
        SpliceAddsOne(s, i, added);
        className := added.deco.className;
      } else {
        className := InsertFromAddsOne(prefix, s, i + 1, r, dimension, b, id);
      }
    }
  }

  /** `addDecoration` adds exactly one node and removes none. */
  lemma InsertAddsOne(prefix: string, s: Forest, r: RowRange, dimension: string, b: Branch, id: nat)
    returns (className: string)
    requires Insert(prefix, s, r, dimension, b, id).Ok?
    ensures multiset(Decos(Insert(prefix, s, r, dimension, b, id).value))
         == multiset(Decos(s)) + multiset{Decoration(dimension, b, id, className, r)}
  {
    InsertStartsAtZero(prefix, s, r, dimension, b, id);
    className := InsertFromAddsOne(prefix, s, 0, r, dimension, b, id);
  }

  lemma MemberDecos(s: Forest, k: nat)
    requires k < |s|
    ensures s[k].deco in Decos(s)
    ensures forall d | d in Decos(s[k].children) :: d in Decos(s)
  {
    DecosSplit(s, k);
  }

  /** The nesting invariant, from its parts at the top level. */
  lemma NestedIntro(f: Forest)
    requires Ordered(f)
    requires forall m | m in f ::
               && m.deco.range.Valid()
               && (forall c | c in m.children :: ContainsRange(m.deco.range, c.deco.range))
               && Nested(m.children)
    ensures Nested(f)
  {
  }

  lemma SpliceOrdered(s: Forest, i: nat, n: Node)
    requires i <= |s| && Ordered(s)
    requires forall k | 0 <= k < i :: s[k].deco.range.end < n.deco.range.start
    requires forall k | i <= k < |s| :: n.deco.range.end < s[k].deco.range.start
    ensures Ordered(s[..i] + [n] + s[i..])
  {
    var s' := s[..i] + [n] + s[i..];
    assert forall k | 0 <= k < |s'| :: s'[k] == (if k < i then s[k] else if k == i then n else s[k - 1]);
  }

  lemma SpliceMembers(s: Forest, i: nat, n: Node)
    requires i <= |s|
    ensures forall m | m in s[..i] + [n] + s[i..] :: m in s || m == n
  {
    assert s == s[..i] + s[i..];
  }

  /** Splicing a childless node into a nested forest at a gap it fits keeps the forest nested. */
  lemma NestedSplice(s: Forest, i: nat, n: Node)
    requires i <= |s| && Nested(s)
    requires n.children == [] && n.deco.range.Valid()
    requires forall k | 0 <= k < i :: s[k].deco.range.end < n.deco.range.start
    requires forall k | i <= k < |s| :: n.deco.range.end < s[k].deco.range.start
    ensures Nested(s[..i] + [n] + s[i..])
    ensures TopRanges(s[..i] + [n] + s[i..]) <= TopRanges(s) + {n.deco.range}
  {
    SpliceOrdered(s, i, n);
    SpliceNodesNested(s, i, n);
    NestedIntro(s[..i] + [n] + s[i..]);
    SpliceTopRanges(s, i, n);
  }

  lemma SpliceNodesNested(s: Forest, i: nat, n: Node)
    requires i <= |s| && Nested(s)
    requires n.children == [] && n.deco.range.Valid()
    ensures forall m | m in s[..i] + [n] + s[i..] ::
              && m.deco.range.Valid()
              && (forall c | c in m.children :: ContainsRange(m.deco.range, c.deco.range))
              && Nested(m.children)
  {
    SpliceMembers(s, i, n);
    assert Nested(n.children);
  }

  lemma SpliceTopRanges(s: Forest, i: nat, n: Node)
    requires i <= |s|
    ensures TopRanges(s[..i] + [n] + s[i..]) <= TopRanges(s) + {n.deco.range}
  {
    SpliceMembers(s, i, n);
  }

  lemma ReplaceMembers(s: Forest, i: nat, m': Node)
    requires i < |s|
    ensures forall m | m in s[i := m'] :: m in s || m == m'
    ensures forall k | 0 <= k < |s| && k != i :: s[i := m'][k] == s[k]
  {
    forall m | m in s[i := m'] ensures m in s || m == m' {
      var k :| 0 <= k < |s| && s[i := m'][k] == m;
      if k != i {
        assert s[k] in s;
      }
    }
  }

  lemma ReplaceTopRanges(s: Forest, i: nat, sub: Forest)
    requires i < |s|
    ensures TopRanges(s[i := Node(s[i].deco, sub)]) == TopRanges(s)
  {
    var s' := s[i := Node(s[i].deco, sub)];
    assert forall k | 0 <= k < |s| :: s'[k].deco.range == s[k].deco.range;
    forall x | x in TopRanges(s') ensures x in TopRanges(s) {
      var m :| m in s' && m.deco.range == x;
      var k :| 0 <= k < |s'| && s'[k] == m;
      assert s[k] in s;
    }
    forall x | x in TopRanges(s) ensures x in TopRanges(s') {
      var m :| m in s && m.deco.range == x;
      var k :| 0 <= k < |s| && s[k] == m;
      assert s'[k] in s';
    }
  }

  lemma ReplaceOrdered(s: Forest, i: nat, sub: Forest)
    requires i < |s| && Ordered(s)
    ensures Ordered(s[i := Node(s[i].deco, sub)])
  {
    var s' := s[i := Node(s[i].deco, sub)];
    assert forall k | 0 <= k < |s| :: s'[k].deco.range == s[k].deco.range;
  }

  /** Replacing a node's children by a nested list inside the node keeps the forest nested. */
  lemma NestedReplace(s: Forest, i: nat, sub: Forest)
    requires i < |s| && Nested(s) && Nested(sub)
    requires forall c | c in sub :: ContainsRange(s[i].deco.range, c.deco.range)
    ensures Nested(s[i := Node(s[i].deco, sub)])
    ensures TopRanges(s[i := Node(s[i].deco, sub)]) == TopRanges(s)
  {
    assert s[i] in s;
    ReplaceMembers(s, i, Node(s[i].deco, sub));
    ReplaceOrdered(s, i, sub);
    NestedIntro(s[i := Node(s[i].deco, sub)]);
    ReplaceTopRanges(s, i, sub);
  }

  /**
   * The child step: the sub-forest built below s[i] holds only ranges that
   * s[i] contains, so putting it in place of the old children keeps the
   * forest nested.
   */
  lemma ChildStepKeepsNesting(s: Forest, i: nat, sub: Forest, r: RowRange)
    requires i < |s| && Nested(s) && Nested(sub)
    requires ContainsRange(s[i].deco.range, r)
    requires TopRanges(sub) <= TopRanges(s[i].children) + {r}
    ensures Nested(s[i := Node(s[i].deco, sub)])
    ensures TopRanges(s[i := Node(s[i].deco, sub)]) == TopRanges(s)
  {
    var n := s[i];
    assert n in s;
    forall c | c in sub
      ensures ContainsRange(n.deco.range, c.deco.range)
    {
      assert c.deco.range in TopRanges(sub);
      if c.deco.range != r {
        var m :| m in n.children && m.deco.range == c.deco.range;
      }
    }
    NestedReplace(s, i, sub);
  }

  /** A range above s[i] is above every later sibling too. */
  lemma AboveLaterSiblings(s: Forest, i: nat, r: RowRange)
    requires i < |s| && Nested(s)
    requires r.end < s[i].deco.range.start
    ensures forall k | i <= k < |s| :: r.end < s[k].deco.range.start
  {
    assert s[i] in s;
  }

  /**
   * The nesting invariant survives the sibling walk, provided the new range
   * contains no existing decoration and lies below every sibling already
   * passed; the new top-level ranges are the old ones plus at most r.
   */
  lemma {:induction false} InsertFromKeepsNesting(prefix: string, s: Forest, i: nat, r: RowRange, dimension: string, b: Branch, id: nat)
    requires i <= |s|
    requires Nested(s) && r.Valid() && ContainsNone(r, s)
    requires forall k | 0 <= k < i :: s[k].deco.range.end < r.start
    requires InsertFrom(prefix, s, i, r, dimension, b, id).Ok?
    ensures Nested(InsertFrom(prefix, s, i, r, dimension, b, id).value)
    ensures TopRanges(InsertFrom(prefix, s, i, r, dimension, b, id).value) <= TopRanges(s) + {r}
    decreases s, |s| - i
  {
    var added := NewNode(prefix, r, dimension, b, id);
    if i == |s| {
      InsertFromEnd(prefix, s, r, dimension, b, id);
      NestedSplice(s, i, added);
    } else {
      var n := s[i];
      var cmp := CompareDecorations(r, n.deco.range);
      InsertFromAt(prefix, s, i, r, dimension, b, id);
      if cmp == Ok(Child) {
        var inner := InsertFrom(n.deco.className, n.children, 0, r, dimension, b, id);
        ChildContainsNone(s, i, r);
        InsertFromKeepsNesting(n.deco.className, n.children, 0, r, dimension, b, id);
        ChildStepKeepsNesting(s, i, inner.value, r);
      } else if cmp == Ok(Above) {
        AboveLaterSiblings(s, i, r);
        NestedSplice(s, i, added);
      } else {
        PassedSibling(s, i, r);
        InsertFromKeepsNesting(prefix, s, i + 1, r, dimension, b, id);
      }
    }
  }

  /** Below a sibling, the new range still contains nothing and the children are nested. */
  lemma ChildContainsNone(s: Forest, i: nat, r: RowRange)
    requires i < |s| && Nested(s) && ContainsNone(r, s)
    ensures Nested(s[i].children) && ContainsNone(r, s[i].children)
  {
    assert s[i] in s;
    MemberDecos(s, i);
  }

  /** A sibling the walk moves past without splicing lies wholly before the new range. */
  lemma PassedSibling(s: Forest, i: nat, r: RowRange)
    requires i < |s| && Nested(s) && r.Valid() && ContainsNone(r, s)
    requires CompareDecorations(r, s[i].deco.range) in {Ok(Parent), Ok(Below)}
    requires forall k | 0 <= k < i :: s[k].deco.range.end < r.start
    ensures forall k | 0 <= k < i + 1 :: s[k].deco.range.end < r.start
  {
    assert s[i] in s;
    MemberDecos(s, i);
  }

  /**
   * `addDecoration` keeps the nesting invariant when the new range contains
   * no existing decoration.
   */
  lemma InsertKeepsNesting(prefix: string, s: Forest, r: RowRange, dimension: string, b: Branch, id: nat)
    requires Nested(s) && r.Valid() && ContainsNone(r, s)
    requires Insert(prefix, s, r, dimension, b, id).Ok?
    ensures Nested(Insert(prefix, s, r, dimension, b, id).value)
  {
    InsertStartsAtZero(prefix, s, r, dimension, b, id);
    InsertFromKeepsNesting(prefix, s, 0, r, dimension, b, id);
  }

  /** The class-name invariant survives the sibling walk. */
  lemma {:induction false} InsertFromKeepsClassNames(prefix: string, s: Forest, i: nat, r: RowRange, dimension: string, b: Branch, id: nat)
    requires i <= |s|
    requires ClassNamesFollowPaths(prefix, s)
    requires InsertFrom(prefix, s, i, r, dimension, b, id).Ok?
    ensures ClassNamesFollowPaths(prefix, InsertFrom(prefix, s, i, r, dimension, b, id).value)
    decreases s, |s| - i
  {
    var added := NewNode(prefix, r, dimension, b, id);
    if i == |s| {
      InsertFromEnd(prefix, s, r, dimension, b, id);
      SpliceMembers(s, i, added);
    } else {
      var n := s[i];
      var cmp := CompareDecorations(r, n.deco.range);
      InsertFromAt(prefix, s, i, r, dimension, b, id);
      if cmp == Ok(Child) {
        var inner := InsertFrom(n.deco.className, n.children, 0, r, dimension, b, id);
        assert n in s;
        InsertFromKeepsClassNames(n.deco.className, n.children, 0, r, dimension, b, id);
        ReplaceMembers(s, i, Node(n.deco, inner.value));
      } else if cmp == Ok(Above) {
        SpliceMembers(s, i, added);
      } else if cmp.Ok? {
        InsertFromKeepsClassNames(prefix, s, i + 1, r, dimension, b, id);
      }
    }
  }

  /**
   * Every class name stays `dimension-marker-<dim>-<side>` at the top and
   * `<parent class>-<dim>-<side>` below, across `addDecoration`.
   */
  lemma InsertKeepsClassNames(s: Forest, r: RowRange, dimension: string, b: Branch, id: nat)
    requires ClassNamesFollowPaths(TopPrefix, s)
    requires Insert(TopPrefix, s, r, dimension, b, id).Ok?
    ensures ClassNamesFollowPaths(TopPrefix, Insert(TopPrefix, s, r, dimension, b, id).value)
  {
    InsertStartsAtZero(TopPrefix, s, r, dimension, b, id);
    InsertFromKeepsClassNames(TopPrefix, s, 0, r, dimension, b, id);
  }

  /**
   * The sibling walk never throws when every existing decoration either
   * shares no row with the new range or strictly contains it.
   */
  lemma {:induction false} InsertFromSucceeds(prefix: string, s: Forest, i: nat, r: RowRange, dimension: string, b: Branch, id: nat)
    requires i <= |s|
    requires Nested(s) && r.Valid() && FitsAround(r, s)
    ensures InsertFrom(prefix, s, i, r, dimension, b, id).Ok?
    decreases s, |s| - i
  {
    if i == |s| {
      InsertFromEnd(prefix, s, r, dimension, b, id);
    } else {
      var n := s[i];
      InsertFromAt(prefix, s, i, r, dimension, b, id);
      var cmp := SiblingFits(s, i, r);
      if cmp == Ok(Child) {
        InsertFromSucceeds(n.deco.className, n.children, 0, r, dimension, b, id);
      } else if cmp == Ok(Below) {
        InsertFromSucceeds(prefix, s, i + 1, r, dimension, b, id);
      }
    }
  }

  /**
   * A range that fits around every decoration is, against any sibling,
   * inside it (and fits around its children), above it or below it.
   */
  lemma SiblingFits(s: Forest, i: nat, r: RowRange) returns (cmp: Result<Relation, Error>)
    requires i < |s| && Nested(s) && r.Valid() && FitsAround(r, s)
    ensures cmp == CompareDecorations(r, s[i].deco.range)
    ensures cmp in {Ok(Child), Ok(Above), Ok(Below)}
    ensures cmp == Ok(Child) ==> Nested(s[i].children) && FitsAround(r, s[i].children)
  {
    assert s[i] in s;
    MemberDecos(s, i);
    cmp := CompareDecorations(r, s[i].deco.range);
  }

  /** A range that fits around every existing decoration contains none of them. */
  lemma FitsAroundContainsNone(r: RowRange, s: Forest)
    requires Nested(s) && r.Valid() && FitsAround(r, s)
    ensures ContainsNone(r, s)
  {
    NestedDecosValid(s);
  }

  /**
   * `addDecoration` of a range that fits around every existing decoration
   * succeeds, keeps the forest nested and adds exactly one decoration.
   */
  lemma InsertFitting(prefix: string, s: Forest, r: RowRange, dimension: string, b: Branch, id: nat)
    returns (className: string)
    requires Nested(s) && r.Valid() && FitsAround(r, s)
    ensures Insert(prefix, s, r, dimension, b, id).Ok?
    ensures Nested(Insert(prefix, s, r, dimension, b, id).value)
    ensures multiset(Decos(Insert(prefix, s, r, dimension, b, id).value))
         == multiset(Decos(s)) + multiset{Decoration(dimension, b, id, className, r)}
  {
    InsertStartsAtZero(prefix, s, r, dimension, b, id);
    InsertFromSucceeds(prefix, s, 0, r, dimension, b, id);
    FitsAroundContainsNone(r, s);
    InsertKeepsNesting(prefix, s, r, dimension, b, id);
    className := InsertAddsOne(prefix, s, r, dimension, b, id);
  }
}

=== FILE: panel_menus.dfy ===
/**
 * The side panel's dimension registry of `VariationalEditorView`
 * (ts/variational-editor-view.ts): a map from dimension name to its menu
 * entry, of which only the name and the colour are modelled. A colour
 * argument that is absent or empty (falsy) is `None`.
 */
module PanelMenus {
  import opened Wrappers
  import opened Colors

  datatype DimensionUI = DimensionUI(name: string, color: Rgb)

  type Menus = map<string, DimensionUI>

  /** Every entry is filed under its own name. */
  predicate Valid(m: Menus) {
    forall k | k in m :: m[k].name == k
  }

  /** The colour a new menu starts with: the given one, else `rgb(127, 71, 62)`. */
  function InitialColor(color: Option<Rgb>): (c: Rgb)
    ensures color.Some? ==> c == color.value
    ensures color.None? ==> c == DefaultColor
  {
    if color.Some? then color.value else DefaultColor
  }

  /** `hasPanelMenu`. */
  predicate HasPanelMenu(m: Menus, name: string) {
    name in m
  }

  /**
   * `createPanelMenu(name, color?)`: registers a new name with its initial
   * colour; an already registered name leaves the whole registry unchanged.
   */
  function CreatePanelMenu(m: Menus, name: string, color: Option<Rgb>): (m': Menus)
    ensures HasPanelMenu(m', name)
    ensures m'.Keys == m.Keys + {name}
    ensures forall k | k in m :: m'[k] == m[k]
    ensures name !in m ==> m'[name] == DimensionUI(name, InitialColor(color))
    ensures Valid(m) ==> Valid(m')
  {
    if HasPanelMenu(m, name) then m
    else m[name := DimensionUI(name, InitialColor(color))]
  }

  /** `getPanelMenu`: the entry of a registered name, else the "doesn't exist" error. */
  function GetPanelMenu(m: Menus, name: string): (r: Result<DimensionUI, Error>)
    ensures r.Ok? <==> HasPanelMenu(m, name)
    ensures r.Ok? ==> r.value == m[name]
    ensures r.Err? ==> r.error == UnknownDimension(name)
  {
    if !HasPanelMenu(m, name) then Err(UnknownDimension(name)) else Ok(m[name])
  }

  /** `getDimensionColor`: the colour of a registered name, else the "cannot get color" error. */
  function GetDimensionColor(m: Menus, name: string): (r: Result<Rgb, Error>)
    ensures r.Ok? <==> HasPanelMenu(m, name)
    ensures r.Ok? ==> r.value == m[name].color
    ensures r.Err? ==> r.error == UnknownDimension(name)
  {
    if !HasPanelMenu(m, name) then Err(UnknownDimension(name)) else Ok(m[name].color)
  }

  /** A freshly created menu without a colour reports `rgb(127, 71, 62)`. */
  lemma NewMenuHasDefaultColor(m: Menus, name: string)
    requires !HasPanelMenu(m, name)
    ensures GetPanelMenu(CreatePanelMenu(m, name, None), name) == Ok(DimensionUI(name, DefaultColor))
    ensures GetDimensionColor(CreatePanelMenu(m, name, None), name) == Ok(DefaultColor)
  {
  }

  /** Creating menus only ever adds names; a registered name stays registered with its colour. */
  lemma CreateKeepsRegistered(m: Menus, name: string, color: Option<Rgb>, other: string)
    requires HasPanelMenu(m, other)
    ensures GetDimensionColor(CreatePanelMenu(m, name, color), other) == GetDimensionColor(m, other)
  {
  }

  /**
   * `serialize`: the colour of every registered menu, filed under the
   * menu's name, collected one menu at a time.
   */
  method Serialize(m: Menus) returns (colors: map<string, Rgb>)
    requires Valid(m)
    ensures colors.Keys == m.Keys
    ensures forall k | k in colors :: colors[k] == m[k].color
  {
    colors := map[];
    var todo := m.Keys;
    while todo != {}
      invariant todo <= m.Keys
      invariant colors.Keys == m.Keys - todo
      invariant forall k | k in colors :: colors[k] == m[k].color
      decreases todo
    {
      var dimension :| dimension in todo;
      var menu := m[dimension];
      colors := colors[menu.name := menu.color];
      todo := todo - {dimension};
    }
  }

  /**
   * The constructor: one `createPanelMenu(dimension, state[dimension])`
   * per saved dimension, starting from an empty registry.
   */
  method FromState(state: map<string, Option<Rgb>>) returns (m: Menus)
    ensures Valid(m)
    ensures m.Keys == state.Keys
    ensures forall k | k in m :: m[k].color == InitialColor(state[k])
  {
    m := map[];
    var todo := state.Keys;
    while todo != {}
      invariant todo <= state.Keys
      invariant Valid(m)
      invariant m.Keys == state.Keys - todo
      invariant forall k | k in m :: m[k].color == InitialColor(state[k])
      decreases todo
    {
      var dimension :| dimension in todo;
      m := CreatePanelMenu(m, dimension, state[dimension]);
      todo := todo - {dimension};
    }
  }

  /** Saving the registry and rebuilding from the saved colours gives back the same registry. */
  method SerializeRoundTrip(m: Menus) returns (m': Menus)
    requires Valid(m)
    ensures m' == m
  {
    var colors := Serialize(m);
    var state := map k | k in colors :: Some(colors[k]);
    m' := FromState(state);
    assert forall k | k in m :: m'[k] == m[k] by {
      forall k | k in m ensures m'[k] == m[k] {
        assert m'[k].name == k == m[k].name;
      }
    }
  }
}

=== FILE: queues.dfy ===
/**
 * The linked-list FIFO queue used by the style-sheet generator. The
 * queue's nodes live in an explicit heap (address to node); the queue
 * keeps the first and last node, its size, and the next unused address.
 * Its contents are the items met walking `size` links from the first node.
 */
module Queues {
  import opened Wrappers

  datatype QNode<T> = QNode(item: T, next: Option<nat>)

  type Heap<T> = map<nat, QNode<T>>

  /** The addresses met following at most n links from p, stopping at a missing node. */
  function Walk<T>(heap: Heap<T>, p: Option<nat>, n: nat): (w: seq<nat>)
    ensures |w| <= n
    ensures forall a | a in w :: a in heap
    decreases n
  {
    if n == 0 || p.None? || p.value !in heap then []
    else [p.value] + Walk(heap, heap[p.value].next, n - 1)
  }

  function Items<T>(heap: Heap<T>, w: seq<nat>): (items: seq<T>)
    requires forall a | a in w :: a in heap
    ensures |items| == |w|
    ensures forall k | 0 <= k < |w| :: items[k] == heap[w[k]].item
  {
    seq(|w|, k requires 0 <= k < |w| => heap[w[k]].item)
  }

  predicate Distinct(w: seq<nat>) {
    forall j, k | 0 <= j < k < |w| :: w[j] != w[k]
  }

  datatype Queue<T> = Queue(heap: Heap<T>, start: Option<nat>, end: Option<nat>, size: nat, nextAddr: nat)
  {
    function Chain(): seq<nat> {
      Walk(heap, start, size)
    }

    /**
     * The chain from the first node has exactly `size` distinct nodes; the
     * last of them is the end node and has no successor; with no nodes both
     * ends are unset; every address in use is below `nextAddr`.
     */
    predicate Valid() {
      && |Chain()| == size
      && Distinct(Chain())
      && (forall a | a in heap :: a < nextAddr)
      && (size == 0 ==> start.None? && end.None?)
      && (size > 0 ==> end == Some(Chain()[size - 1]) && heap[Chain()[size - 1]].next.None?)
    }

    function Contents(): (items: seq<T>)
      requires Valid()
      ensures |items| == size
    {
      Items(heap, Chain())
    }
  }

  /** `new Queue()`: nothing in it. */
  function NewQueue<T>(): (q: Queue<T>)
    ensures q.Valid() && q.Contents() == [] && q.size == 0
  {
    Queue(map[], None, None, 0, 0)
  }

  /** `empty()`: true exactly when the queue holds nothing. */
  function IsEmpty<T>(q: Queue<T>): (r: bool)
    requires q.Valid()
    ensures r <==> q.Contents() == []
  {
    q.size == 0
  }

  /** `peek()`: the front item, or the error `peek` throws on an empty queue. */
  function Peek<T>(q: Queue<T>): (r: Result<T, Error>)
    requires q.Valid()
    ensures r.Err? <==> q.Contents() == []
    ensures r.Err? ==> r.error == EmptyQueue
    ensures r.Ok? ==> r.value == q.Contents()[0]
  {
    if q.size == 0 then Err(EmptyQueue) else Ok(q.heap[q.start.value].item)
  }

  /**
   * `pop()`: the front item and the queue without it. Taking the last node
   * also clears the end node, so the next push starts a fresh chain.
   */
  function Pop<T>(q: Queue<T>): (r: Result<(T, Queue<T>), Error>)
    requires q.Valid()
    ensures r.Err? <==> q.Contents() == []
    ensures r.Err? ==> r.error == EmptyQueue
    ensures r.Ok? ==> var (x, q') := r.value;
      && q'.Valid()
      && x == q.Contents()[0]
      && q'.Contents() == q.Contents()[1..]
      && q'.size == q.size - 1
  {
    if q.size == 0 then Err(EmptyQueue)
    else
      var x := q.heap[q.start.value].item;
      var start' := q.heap[q.start.value].next;
      var end' := if start'.None? then start' else q.end;
      var q' := Queue(q.heap, start', end', q.size - 1, q.nextAddr);
      PopChain(q);
      Ok((x, q'))
  }

  lemma PopChain<T>(q: Queue<T>)
    requires q.Valid() && q.size > 0
    ensures var start' := q.heap[q.start.value].next;
      var q' := Queue(q.heap, start', if start'.None? then start' else q.end, q.size - 1, q.nextAddr);
      && q'.Chain() == q.Chain()[1..]
      && q'.Valid()
      && q'.Contents() == q.Contents()[1..]
  {
    var start' := q.heap[q.start.value].next;
    var q' := Queue(q.heap, start', if start'.None? then start' else q.end, q.size - 1, q.nextAddr);
    var w := q.Chain();
    assert w == [q.start.value] + Walk(q.heap, start', q.size - 1);
    assert q'.Chain() == w[1..];
    if q.size == 1 {
      assert w[0] == q.end.value;
    }
  }

  /** Adding one item behind the end node of a well-formed chain. */
  function PushOne<T>(q: Queue<T>, x: T): (q': Queue<T>)
    requires q.Valid()
    ensures q'.Valid()
    ensures q'.Contents() == q.Contents() + [x]
    ensures q'.size == q.size + 1
  {
    var a := q.nextAddr;
    var node := QNode(x, None);
    if q.size == 0 then
      var q' := Queue(q.heap[a := node], Some(a), Some(a), 1, a + 1);
      assert q'.Chain() == [a];
      q'
    else
      var e := q.end.value;
      var heap' := q.heap[e := q.heap[e].(next := Some(a))][a := node];
      var q' := Queue(heap', q.start, Some(a), q.size + 1, a + 1);
      PushChain(q, x, q');
      q'
  }

  lemma {:induction false} WalkExtend<T>(heap: Heap<T>, p: Option<nat>, n: nat, a: nat, x: T)
    requires n > 0 && |Walk(heap, p, n)| == n && Distinct(Walk(heap, p, n))
    requires heap[Walk(heap, p, n)[n - 1]].next.None?
    requires a !in heap
    ensures var e := Walk(heap, p, n)[n - 1];
      var heap' := heap[e := heap[e].(next := Some(a))][a := QNode(x, None)];
      Walk(heap', p, n + 1) == Walk(heap, p, n) + [a]
    decreases n
  {
    var w := Walk(heap, p, n);
    var e := w[n - 1];
    var heap' := heap[e := heap[e].(next := Some(a))][a := QNode(x, None)];
    var first := p.value;
    assert w == [first] + Walk(heap, heap[first].next, n - 1);
    if n == 1 {
      assert first == e;
      assert Walk(heap', Some(a), 1) == [a] + Walk(heap', None, 0);
    } else {
      var w' := Walk(heap, heap[first].next, n - 1);
      assert w' == w[1..];
      assert first != e by {
        assert w[0] == first && w[n - 1] == e;
      }
      assert heap'[first] == heap[first];
      assert Distinct(w') by {
        forall j, k | 0 <= j < k < |w'| ensures w'[j] != w'[k] {
          assert w'[j] == w[j + 1] && w'[k] == w[k + 1];
        }
      }
      WalkExtend(heap, heap[first].next, n - 1, a, x);
    }
  }

  /** Changing only the successor of chain nodes, and adding a node after them, keeps their items. */
  lemma ItemsExtend<T>(heap: Heap<T>, heap': Heap<T>, w: seq<nat>, a: nat, x: T)
    requires forall b | b in w :: b in heap && b in heap' && heap'[b].item == heap[b].item
    requires a in heap' && heap'[a].item == x
    ensures Items(heap', w + [a]) == Items(heap, w) + [x]
  {
  }

  lemma DistinctAppend(w: seq<nat>, a: nat)
    requires Distinct(w) && a !in w
    ensures Distinct(w + [a])
  {
  }

  lemma PushChain<T>(q: Queue<T>, x: T, q': Queue<T>)
    requires q.Valid() && q.size > 0
    requires q' == Queue(q.heap[q.end.value := q.heap[q.end.value].(next := Some(q.nextAddr))][q.nextAddr := QNode(x, None)],
                         q.start, Some(q.nextAddr), q.size + 1, q.nextAddr + 1)
    ensures q'.Valid()
    ensures q'.Contents() == q.Contents() + [x]
  {
    var a := q.nextAddr;
    var w := q.Chain();
    assert a !in q.heap;
    WalkExtend(q.heap, q.start, q.size, a, x);
    assert q'.Chain() == w + [a];
    assert a !in w;
    DistinctAppend(w, a);
    ItemsExtend(q.heap, q'.heap, w, a, x);
  }

  lemma PushStep<T>(c: seq<T>, items: seq<T>, i: nat)
    requires i < |items|
    ensures (c + items[..i]) + [items[i]] == c + items[..i + 1]
  {
    assert items[..i + 1] == items[..i] + [items[i]];
  }

  /** `push(...items)`: the items go behind the current contents, in argument order. */
  method Push<T>(q: Queue<T>, items: seq<T>) returns (q': Queue<T>)
    requires q.Valid()
    ensures q'.Valid()
    ensures q'.Contents() == q.Contents() + items
    ensures q'.size == q.size + |items|
  {
    q' := q;
    var i := 0;
    while i < |items|
      invariant 0 <= i <= |items|
      invariant q'.Valid()
      invariant q'.Contents() == q.Contents() + items[..i]
      invariant q'.size == q.size + i
    {
      q' := PushOne(q', items[i]);
      PushStep(q.Contents(), items, i);
      i := i + 1;
    }
    assert items[..i] == items;
  }

  lemma DrainStep<T>(out: seq<T>, c: seq<T>, x: T, c': seq<T>)
    requires c == [x] + c'
    ensures (out + [x]) + c' == out + c
  {
  }

  /** A queue with contents pops its front item, leaving the rest in a smaller well-formed queue. */
  lemma PopFront<T>(q: Queue<T>)
    requires q.Valid() && q.Contents() != []
    ensures Pop(q).Ok? && Pop(q).value.1.Valid() && Pop(q).value.1.size < q.size
    ensures q.Contents() == [Pop(q).value.0] + Pop(q).value.1.Contents()
  {
    var c := q.Contents();
    assert c == [c[0]] + c[1..];
  }

  /** Popping until empty yields exactly the contents, front first. */
  method Drain<T>(q: Queue<T>) returns (out: seq<T>, q': Queue<T>)
    requires q.Valid()
    ensures out == q.Contents()
    ensures q'.Valid() && IsEmpty(q')
  {
    out := [];
    q' := q;
    while !IsEmpty(q')
      invariant q'.Valid()
      invariant out + q'.Contents() == q.Contents()
      decreases q'.size
    {
      PopFront(q');
      var r := Pop(q');
      var x, rest := r.value.0, r.value.1;
      DrainStep(out, q'.Contents(), x, rest.Contents());
      out := out + [x];
      q' := rest;
    }
  }
}

=== FILE: requests.dfy ===
/**
 * The decorations a parse tree asks for, in the order `addDimensions`
 * asks for them (ts/variational-editor.ts:218-273): for each choice, in
 * pre-order, its then branch, its else branch if it has segments, then
 * everything nested in the then branch, then everything nested in the else
 * branch.
 */
module Requests {
  import opened Rows
  import opened Decorations
  import opened Ast

  /** One call of `DimensionDecorationManager.addDecoration`: rows, dimension and side. */
  datatype Request = Request(range: RowRange, dimension: string, branch: Branch)

  /** A `positive` choice's then branch is the defined side, otherwise the undefined side. */
  function ThenCondition(kind: ChoiceKind): (b: Branch)
    ensures b == Def <==> kind == Positive
  {
    if kind == Positive then Def else Ndef
  }

  /**
   * The rows a branch decoration covers: from the row after the branch's
   * directive to the row its span ends on, both at column 0.
   */
  function BranchRange(reg: Region): (r: RowRange)
    ensures r.Valid()
    ensures reg.span.startRow < reg.span.endRow ==> r == RowRange(reg.span.startRow + 1, reg.span.endRow)
  {
    MakeRange(reg.span.startRow + 1, reg.span.endRow)
  }

  /** The one or two decorations `addDecoration(node)` asks for. */
  function ChoiceRequests(c: Segment): (rs: seq<Request>)
    requires c.Choice?
    ensures |rs| == if HasElse(c) then 2 else 1
    ensures rs[0] == Request(BranchRange(c.thenBranch), c.name, ThenCondition(c.kind))
    ensures HasElse(c) ==> rs[1] == Request(BranchRange(c.elseBranch), c.name, Opposite(rs[0].branch))
  {
    var thenb := ThenCondition(c.kind);
    var thenReq := Request(BranchRange(c.thenBranch), c.name, thenb);
    if HasElse(c) then
      [thenReq, Request(BranchRange(c.elseBranch), c.name, Opposite(thenb))]
    else
      [thenReq]
  }

  function SegmentRequests(s: Segment): seq<Request>
    decreases s, 1
  {
    match s
    case Text(_) => []
    case Choice(_, thenBranch, elseBranch, _, _) =>
      ChoiceRequests(s) + RegionRequestsFrom(thenBranch, 0) + RegionRequestsFrom(elseBranch, 0)
  }

  function RegionRequestsFrom(reg: Region, i: nat): seq<Request>
    requires i <= |reg.segments|
    decreases reg, 0, |reg.segments| - i
  {
    if i == |reg.segments| then []
    else SegmentRequests(reg.segments[i]) + RegionRequestsFrom(reg, i + 1)
  }

  function RegionRequests(reg: Region): seq<Request> {
    RegionRequestsFrom(reg, 0)
  }

  /** b, asked for after a, either shares no row with a or lies strictly inside it. */
  predicate Fits(a: Request, b: Request) {
    Disjoint(a.range, b.range) || StrictlyInside(b.range, a.range)
  }

  /** Every request fits every earlier one. */
  predicate LaterNests(rs: seq<Request>) {
    forall j, k | 0 <= j < k < |rs| :: Fits(rs[j], rs[k])
  }

  /** Every request is a proper range starting below row lo and ending by row hi. */
  predicate Within(rs: seq<Request>, lo: nat, hi: nat) {
    forall q | q in rs :: q.range.Valid() && lo < q.range.start && q.range.end <= hi
  }

  lemma LaterNestsAppend(a: seq<Request>, b: seq<Request>)
    requires LaterNests(a) && LaterNests(b)
    requires forall x, y | x in a && y in b :: Fits(x, y)
    ensures LaterNests(a + b)
  {
    var ab := a + b;
    forall j, k | 0 <= j < k < |ab| ensures Fits(ab[j], ab[k]) {
      if k < |a| {
        assert ab[j] == a[j] && ab[k] == a[k];
      } else if j >= |a| {
        assert ab[j] == b[j - |a|] && ab[k] == b[k - |a|];
      } else {
        assert ab[j] in a && ab[k] in b;
      }
    }
  }

  lemma WithinAppend(a: seq<Request>, b: seq<Request>, lo: nat, hi: nat)
    requires Within(a, lo, hi) && Within(b, lo, hi)
    ensures Within(a + b, lo, hi)
  {
  }

  /** The then request of a well-spanned choice is its whole then branch below the directive. */
  lemma ChoiceRequestRanges(c: Segment)
    requires c.Choice? && WellSpannedChoice(c)
    ensures ChoiceRequests(c)[0].range == RowRange(c.thenBranch.span.startRow + 1, c.thenBranch.span.endRow)
    ensures HasElse(c) ==> ChoiceRequests(c)[1].range == RowRange(c.elseBranch.span.startRow + 1, c.elseBranch.span.endRow)
    ensures LaterNests(ChoiceRequests(c))
    ensures Within(ChoiceRequests(c), ExtentStart(c), ExtentEnd(c))
  {
    var rs := ChoiceRequests(c);
    if HasElse(c) {
      assert Disjoint(rs[0].range, rs[1].range);
      assert forall q | q in rs :: q == rs[0] || q == rs[1];
    } else {
      assert forall q | q in rs :: q == rs[0];
    }
  }

  /** What is nested in the then branch fits both of the choice's own requests. */
  lemma ThenNestedFits(c: Segment, tr: seq<Request>)
    requires c.Choice? && WellSpannedChoice(c)
    requires Within(tr, c.thenBranch.span.startRow + 1, c.thenBranch.span.endRow)
    ensures forall x, y | x in ChoiceRequests(c) && y in tr :: Fits(x, y)
  {
    var cr := ChoiceRequests(c);
    ChoiceRequestRanges(c);
    forall x, y | x in cr && y in tr ensures Fits(x, y) {
      if x != cr[0] {
        assert Disjoint(x.range, y.range);
      }
    }
  }

  /** What is nested in the else branch fits the choice's own requests and the then branch's. */
  lemma ElseNestedFits(c: Segment, tr: seq<Request>, er: seq<Request>)
    requires c.Choice? && WellSpannedChoice(c)
    requires Within(tr, c.thenBranch.span.startRow + 1, c.thenBranch.span.endRow)
    requires HasElse(c) ==> Within(er, c.elseBranch.span.startRow + 1, c.elseBranch.span.endRow)
    requires !HasElse(c) ==> er == []
    ensures forall x, y | x in ChoiceRequests(c) + tr && y in er :: Fits(x, y)
  {
    var cr := ChoiceRequests(c);
    ChoiceRequestRanges(c);
    forall x, y | x in cr + tr && y in er ensures Fits(x, y) {
      assert HasElse(c);
      if x != cr[1] {
        assert Disjoint(x.range, y.range);
      }
    }
  }

  /**
   * A well-spanned choice asks for ranges that all lie strictly below its
   * opening row and within its last row, and each fits every earlier one.
   */
  lemma {:induction false} ChoiceRequestsNest(c: Segment)
    requires c.Choice? && WellSpannedChoice(c)
    ensures LaterNests(SegmentRequests(c))
    ensures Within(SegmentRequests(c), ExtentStart(c), ExtentEnd(c))
    decreases c, 1
  {
    var t := c.thenBranch.span;
    var e := c.elseBranch.span;
    var cr := ChoiceRequests(c);
    var tr := RegionRequestsFrom(c.thenBranch, 0);
    var er := RegionRequestsFrom(c.elseBranch, 0);
    assert SegmentRequests(c) == cr + tr + er;
    ChoiceRequestRanges(c);
    RegionRequestsNest(c.thenBranch, t.startRow + 1, t.endRow, 0, t.startRow + 1);
    if HasElse(c) {
      RegionRequestsNest(c.elseBranch, e.startRow + 1, e.endRow, 0, e.startRow + 1);
    } else {
      assert er == [];
    }
    ThenNestedFits(c, tr);
    LaterNestsAppend(cr, tr);
    ElseNestedFits(c, tr, er);
    LaterNestsAppend(cr + tr, er);
    WithinAppend(cr, tr, ExtentStart(c), ExtentEnd(c));
    WithinAppend(cr + tr, er, ExtentStart(c), ExtentEnd(c));
  }

  /**
   * From segment i on, the requests of a well-spanned region fit each
   * other, lie within the region's rows, and start below row `floor`
   * whenever every remaining choice starts at or below it.
   */
  lemma {:induction false} RegionRequestsNest(reg: Region, lo: nat, hi: nat, i: nat, floor: nat)
    requires i <= |reg.segments| && WellSpannedRegion(reg, lo, hi)
    requires forall k | i <= k < |reg.segments| && reg.segments[k].Choice? :: floor <= ExtentStart(reg.segments[k])
    ensures LaterNests(RegionRequestsFrom(reg, i))
    ensures Within(RegionRequestsFrom(reg, i), floor, hi)
    decreases reg, 0, |reg.segments| - i
  {
    if i < |reg.segments| {
      var s := reg.segments[i];
      var head := SegmentRequests(s);
      var rest := RegionRequestsFrom(reg, i + 1);
      assert s in reg.segments;
      if s.Choice? {
        ChoiceRequestsNest(s);
        RegionRequestsNest(reg, lo, hi, i + 1, ExtentEnd(s) + 1);
        assert Within(head, floor, hi);
        assert forall x, y | x in head && y in rest :: Fits(x, y) by {
          forall x, y | x in head && y in rest ensures Fits(x, y) {
            assert x.range.end <= ExtentEnd(s) < y.range.start;
          }
        }
        LaterNestsAppend(head, rest);
        assert Within(rest, floor, hi);
        WithinAppend(head, rest, floor, hi);
      } else {
        assert head == [];
        RegionRequestsNest(reg, lo, hi, i + 1, floor);
        assert RegionRequestsFrom(reg, i) == rest;
      }
    }
  }

  /** All requests of a region well spanned within rows lo..hi lie within them and nest. */
  lemma RegionNests(reg: Region, lo: nat, hi: nat)
    requires WellSpannedRegion(reg, lo, hi)
    ensures LaterNests(RegionRequests(reg))
    ensures Within(RegionRequests(reg), lo, hi)
  {
    RegionRequestsNest(reg, lo, hi, 0, lo);
  }
}

=== FILE: rows.dfy ===
/**
 * Buffer ranges reduced to their rows.
 *
 * Every range the modelled code builds starts and ends at column 0, so a
 * point compares exactly as its row does. The host editor's `Range`
 * operations are library code that is not part of this model; the
 * functions below are the definitions this model assumes for them:
 * `containsRange` and `intersectsWith` are inclusive at both ends, and
 * `compare` orders by start, then by reversed end.
 */
module Rows {

  datatype RowRange = RowRange(start: nat, end: nat) {
    predicate Valid() {
      start <= end
    }
  }

  /** The host's range constructor, which puts the smaller point first. */
  function MakeRange(a: nat, b: nat): (r: RowRange)
    ensures r.Valid()
    ensures multiset{r.start, r.end} == multiset{a, b}
  {
    if a <= b then RowRange(a, b) else RowRange(b, a)
  }

  /** Assumed definition of `r1.containsRange(r2)`. */
  predicate ContainsRange(r1: RowRange, r2: RowRange) {
    r1.start <= r2.start && r2.end <= r1.end
  }

  /** Assumed definition of `r1.intersectsWith(r2)` (inclusive: touching ranges intersect). */
  predicate IntersectsWith(r1: RowRange, r2: RowRange) {
    r1.start <= r2.end && r2.start <= r1.end
  }

  /** Assumed definition of `r1.compare(r2)`: -1, 0 or 1. */
  function CompareRanges(r1: RowRange, r2: RowRange): int {
    if r1.start < r2.start then -1
    else if r1.start > r2.start then 1
    else if r2.end < r1.end then -1
    else if r2.end > r1.end then 1
    else 0
  }

  /** Two ranges share no row. */
  predicate Disjoint(r1: RowRange, r2: RowRange) {
    !IntersectsWith(r1, r2)
  }

  /** `inner` lies inside `outer` and is not equal to it. */
  predicate StrictlyInside(inner: RowRange, outer: RowRange) {
    ContainsRange(outer, inner) && inner != outer
  }

  lemma DisjointSymmetric(a: RowRange, b: RowRange)
    ensures Disjoint(a, b) <==> Disjoint(b, a)
  {
  }

  /** A range inside `a` shares no row with anything disjoint from `a`. */
  lemma InsideDisjoint(x: RowRange, a: RowRange, b: RowRange)
    requires ContainsRange(a, x)
    requires Disjoint(a, b)
    requires x.Valid()
    ensures Disjoint(x, b)
  {
  }
}

=== FILE: session_ui.dfy ===
/**
 * The older dimension bookkeeping of `VJavaUI` (ts/ui.ts): a session list
 * and a dimension list of (name, colour) entries, and the active choices
 * of the side panel. Lists may hold several entries with one name; each
 * lookup says which one it reads. The `'none'` colour that stands for "no
 * session colour" is `None`.
 */
module SessionUI {
  import opened Wrappers
  import opened Colors
  import opened Ast
  import PanelMenus

  type DimensionUI = PanelMenus.DimensionUI

  datatype Status = DefStatus | NdefStatus | BothStatus

  datatype Selector = Selector(name: string, status: Status)

  datatype UI = UI(session: seq<DimensionUI>, dimensions: seq<DimensionUI>, activeChoices: seq<Selector>)

  /** The index of the first entry with that name, if any. */
  function FirstNamed(ds: seq<DimensionUI>, name: string): (r: Option<nat>)
    ensures r.None? <==> forall k | 0 <= k < |ds| :: ds[k].name != name
    ensures r.Some? ==> r.value < |ds| && ds[r.value].name == name
    ensures r.Some? ==> forall k | 0 <= k < r.value :: ds[k].name != name
  {
    if ds == [] then None
    else if ds[0].name == name then Some(0)
    else
      var t := FirstNamed(ds[1..], name);
      assert forall k | 0 < k < |ds| :: ds[k] == ds[1..][k - 1];
      if t.None? then None else Some(t.value + 1)
  }

  /** The first entry with the name is at i exactly when it has the name and none before it has. */
  lemma FirstNamedAt(ds: seq<DimensionUI>, name: string, i: nat)
    requires i < |ds| && ds[i].name == name
    requires forall k | 0 <= k < i :: ds[k].name != name
    ensures FirstNamed(ds, name) == Some(i)
  {
    assert FirstNamed(ds, name).Some?;
  }

  /** The index of the last entry with that name, if any: the one the loops of the colour lookups keep. */
  function LastNamed(ds: seq<DimensionUI>, name: string): (r: Option<nat>)
    ensures r.None? <==> forall k | 0 <= k < |ds| :: ds[k].name != name
    ensures r.Some? ==> r.value < |ds| && ds[r.value].name == name
    ensures r.Some? ==> forall k | r.value < k < |ds| :: ds[k].name != name
  {
    if ds == [] then None
    else if ds[|ds| - 1].name == name then Some(|ds| - 1)
    else LastNamed(ds[..|ds| - 1], name)
  }

  /** `hasDimension`: some entry of the dimension list has the name. */
  function HasDimension(ui: UI, name: string): (r: bool)
    ensures r <==> exists k | 0 <= k < |ui.dimensions| :: ui.dimensions[k].name == name
  {
    FirstNamed(ui.dimensions, name).Some?
  }

  /** `sessionColorFor`: the colour of the first session entry with the name, else none. */
  function SessionColorFor(ui: UI, name: string): (c: Option<Rgb>)
    ensures c.None? <==> forall k | 0 <= k < |ui.session| :: ui.session[k].name != name
    ensures c.Some? ==> exists k | 0 <= k < |ui.session| ::
      && ui.session[k].name == name && ui.session[k].color == c.value
      && forall j | 0 <= j < k :: ui.session[j].name != name
  {
    match FirstNamed(ui.session, name)
    case None => None
    case Some(i) => Some(ui.session[i].color)
  }

  /**
   * `updateSession`: the first session entry with the entry's name is
   * replaced in place; with none, the entry is appended. Nothing else in
   * the session changes.
   */
  function UpdateSession(ui: UI, d: DimensionUI): (ui': UI)
    ensures ui'.dimensions == ui.dimensions && ui'.activeChoices == ui.activeChoices
    ensures (exists k | 0 <= k < |ui.session| :: ui.session[k].name == d.name) ==>
      && |ui'.session| == |ui.session|
      && exists i | 0 <= i < |ui.session| ::
           && ui.session[i].name == d.name
           && (forall k | 0 <= k < i :: ui.session[k].name != d.name)
           && ui'.session == ui.session[i := d]
    ensures (forall k | 0 <= k < |ui.session| :: ui.session[k].name != d.name) ==>
      ui'.session == ui.session + [d]
  {
    match FirstNamed(ui.session, d.name)
    case Some(i) => ui.(session := ui.session[i := d])
    case None => ui.(session := ui.session + [d])
  }

  /** After an update, the session colour of the entry's name is the entry's colour; other names keep theirs. */
  lemma {:induction false} UpdateThenSessionColor(ui: UI, d: DimensionUI, other: string)
    requires other != d.name
    ensures SessionColorFor(UpdateSession(ui, d), d.name) == Some(d.color)
    ensures SessionColorFor(UpdateSession(ui, d), other) == SessionColorFor(ui, other)
  {
    var s := ui.session;
    var s' := UpdateSession(ui, d).session;
    match FirstNamed(s, d.name)
    case Some(i) =>
      assert s' == s[i := d];
      FirstNamedAt(s', d.name, i);
      SameFirstNamed(s, s', other);
    case None =>
      assert s' == s + [d];
      FirstNamedAt(s', d.name, |s|);
      SameFirstNamed(s, s', other);
  }

  /** Two lists that agree on the entries named `other` up to the first one agree on the first one found. */
  lemma SameFirstNamed(s: seq<DimensionUI>, s': seq<DimensionUI>, other: string)
    requires |s| <= |s'|
    requires forall k | 0 <= k < |s| :: s[k].name == other || s'[k].name == other ==> s'[k] == s[k]
    requires forall k | |s| <= k < |s'| :: s'[k].name != other
    ensures FirstNamed(s, other) == FirstNamed(s', other)
    ensures FirstNamed(s, other).Some? ==> s[FirstNamed(s, other).value] == s'[FirstNamed(s, other).value]
  {
    match FirstNamed(s, other)
    case Some(i) =>
      assert s'[i] == s[i];
      FirstNamedAt(s', other, i);
    case None =>
      assert forall k | 0 <= k < |s'| :: s'[k].name != other;
  }

  /** Updating twice with the same entry is the same as updating once. */
  lemma UpdateSessionTwice(ui: UI, d: DimensionUI)
    ensures UpdateSession(UpdateSession(ui, d), d) == UpdateSession(ui, d)
  {
    var s := ui.session;
    var s' := UpdateSession(ui, d).session;
    match FirstNamed(s, d.name)
    case Some(i) =>
      FirstNamedAt(s', d.name, i);
    case None =>
      FirstNamedAt(s', d.name, |s|);
      assert s'[|s| := d] == s';
  }

  /**
   * `getColorForDim`: a known dimension's colour is that of the last
   * entry with its name, and nothing changes; an unknown dimension is
   * appended with the session colour, or with `rgb(127, 71, 62)` when the
   * session has none, and that colour is returned.
   */
  function ColorForDim(ui: UI, name: string): (r: (UI, Rgb))
    ensures HasDimension(r.0, name)
    ensures r.0.session == ui.session && r.0.activeChoices == ui.activeChoices
    ensures HasDimension(ui, name) ==>
      && r.0 == ui
      && exists k | 0 <= k < |ui.dimensions| ::
           && ui.dimensions[k].name == name && r.1 == ui.dimensions[k].color
           && forall j | k < j < |ui.dimensions| :: ui.dimensions[j].name != name
    ensures !HasDimension(ui, name) ==>
      && r.0.dimensions == ui.dimensions + [PanelMenus.DimensionUI(name, r.1)]
      && (SessionColorFor(ui, name).Some? ==> r.1 == SessionColorFor(ui, name).value)
      && (SessionColorFor(ui, name).None? ==> r.1 == DefaultColor)
  {
    if HasDimension(ui, name) then
      (ui, ui.dimensions[LastNamed(ui.dimensions, name).value].color)
    else
      var c := match SessionColorFor(ui, name) case Some(s) => s case None => DefaultColor;
      var ds := ui.dimensions + [PanelMenus.DimensionUI(name, c)];
      assert ds[|ds| - 1].name == name;
      (ui.(dimensions := ds), c)
  }

  /** `getColorForNode`: the lookup of `getColorForDim`, by the choice's name. */
  function ColorForNode(ui: UI, node: Segment): (r: (UI, Rgb))
    requires node.Choice?
  {
    ColorForDim(ui, node.name)
  }

  /** Asking for a dimension's colour again gives the same colour and changes nothing. */
  lemma ColorForDimStable(ui: UI, name: string)
    ensures var first := ColorForDim(ui, name);
      ColorForDim(first.0, name) == first
  {
    var first := ColorForDim(ui, name);
    if !HasDimension(ui, name) {
      var ds := first.0.dimensions;
      assert LastNamed(ds, name) == Some(|ds| - 1);
    }
  }

  /** Asking by node or by name, the editor records and returns the same colour. */
  lemma ColorForNodeByName(ui: UI, node: Segment)
    requires node.Choice?
    ensures HasDimension(ColorForNode(ui, node).0, node.name)
    ensures ColorForNode(ColorForNode(ui, node).0, node) == ColorForNode(ui, node)
  {
    ColorForDimStable(ui, node.name);
  }

  /** The first selector with that name in a list of active choices, if any. */
  function FirstSelector(cs: seq<Selector>, name: string): (r: Option<Selector>)
    ensures r.None? <==> forall k | 0 <= k < |cs| :: cs[k].name != name
    ensures r.Some? ==> exists k | 0 <= k < |cs| ::
      && cs[k] == r.value && r.value.name == name
      && forall j | 0 <= j < k :: cs[j].name != name
  {
    if cs == [] then None
    else if cs[0].name == name then Some(cs[0])
    else
      assert forall k | 0 < k < |cs| :: cs[k] == cs[1..][k - 1];
      FirstSelector(cs[1..], name)
  }

  /** `getSelector`: the first active choice with the name, if any. */
  function GetSelector(ui: UI, name: string): (r: Option<Selector>)
    ensures r.None? <==> forall k | 0 <= k < |ui.activeChoices| :: ui.activeChoices[k].name != name
    ensures r.Some? ==> exists k | 0 <= k < |ui.activeChoices| ::
      && ui.activeChoices[k] == r.value && r.value.name == name
      && forall j | 0 <= j < k :: ui.activeChoices[j].name != name
  {
    FirstSelector(ui.activeChoices, name)
  }

  /**
   * `shouldBeChecked`: the `BOTH` button is checked when the dimension
   * has no selector or its selector says `BOTH`; the `DEF` and `NDEF`
   * buttons only when a selector with exactly that status exists.
   */
  function ShouldBeChecked(ui: UI, status: Status, name: string): (checked: bool)
    ensures status == BothStatus ==>
      (checked <==> (forall k | 0 <= k < |ui.activeChoices| :: ui.activeChoices[k].name != name)
                    || GetSelector(ui, name).value.status == BothStatus)
    ensures status != BothStatus ==>
      (checked <==> GetSelector(ui, name).Some? && GetSelector(ui, name).value.status == status)
  {
    var selector := GetSelector(ui, name);
    match status
    case DefStatus => selector.Some? && selector.value.status == status
    case NdefStatus => selector.Some? && selector.value.status == status
    case BothStatus => selector.None? || selector.value.status == status
  }

  /** Exactly one of the three buttons of a dimension is checked. */
  lemma ExactlyOneChecked(ui: UI, name: string)
    ensures var d := ShouldBeChecked(ui, DefStatus, name);
      var n := ShouldBeChecked(ui, NdefStatus, name);
      var b := ShouldBeChecked(ui, BothStatus, name);
      (d && !n && !b) || (!d && n && !b) || (!d && !n && b)
  {
  }
}

=== FILE: styles.dfy ===
/**
 * The style sheet of the dimension colours (`generateStyleSheet`,
 * ts/variational-editor.ts:350-440). The forest is walked breadth first
 * through the package's queue. The first time a class name comes out of
 * the queue it gets three rules: plain line, cursor line and hovered line.
 * A top-level class gets a solid shade of its dimension's colour. A nested
 * class gets a 90-degree linear gradient: its parent class's stops plus one
 * stop of its own shade, at one percent past the parent's last stop. A
 * class name met again gets nothing new. The stop lists are cached per
 * class name, as `generateStyleSheet` caches the gradient text.
 */
module Styles {
  import opened Wrappers
  import opened Decorations
  import opened Traversal
  import opened Colors
  import opened PanelMenus
  import opened Queues
  import opened BreadthFirst

  /** One colour stop of a gradient: `rgba(...) p%`. */
  datatype Stop = Stop(color: Rgba, percent: nat)

  /** A term of a declaration's value: an angle such as `90deg`, or a colour. */
  datatype CssTerm = Angle(degrees: nat) | Paint(color: Rgba)

  /** `background-color: t1, t2, ...` or `background: linear-gradient(angle deg, stops)`. */
  datatype Background =
    | BackgroundColor(terms: seq<CssTerm>)
    | LinearGradient(angle: nat, stops: seq<Stop>)

  /** The three rules of one class: `.line`, `.line.cursor-line` and `.line.hover-alt`. */
  datatype ClassStyle = ClassStyle(className: string, normal: Background, cursor: Background, hover: Background)

  type Cache = map<string, seq<Stop>>

  /** Gradients are drawn at 90 degrees. */
  const GradientAngle := 90

  /** The i-th stop is at i percent, and there is at least one. */
  predicate Numbered(stops: seq<Stop>) {
    && |stops| > 0
    && forall i | 0 <= i < |stops| :: stops[i].percent == i
  }

  /** `background-color` takes exactly one colour. */
  predicate WellFormedBackground(b: Background) {
    match b
    case BackgroundColor(terms) => |terms| == 1 && terms[0].Paint?
    case LinearGradient(angle, stops) => angle == GradientAngle && Numbered(stops)
  }

  predicate WellFormedStyle(s: ClassStyle) {
    && WellFormedBackground(s.normal)
    && WellFormedBackground(s.cursor)
    && WellFormedBackground(s.hover)
  }

  /** a is b with one more stop at the end. */
  predicate ExtendsByOne(a: seq<Stop>, b: seq<Stop>) {
    |a| == |b| + 1 && a[..|b|] == b
  }

  /** The stops a class passes on to its children: its plain line's colours, a solid colour at 0%. */
  function NormalStops(s: ClassStyle): seq<Stop> {
    match s.normal
    case BackgroundColor(terms) =>
      if |terms| > 0 && terms[0].Paint? then [Stop(terms[0].color, 0)] else []
    case LinearGradient(_, stops) => stops
  }

  /** The rule of a class for one line state. */
  function Rule(s: ClassStyle, st: LineState): Background {
    match st
    case Normal => s.normal
    case CursorLine => s.cursor
    case Hover => s.hover
  }

  function Solid(c: Rgba): Background {
    BackgroundColor([Paint(c)])
  }

  /** The rules of a top-level class, as `generateStyleSheet` writes them: the hover rule's value starts with `90deg`. */
  function AsWrittenTopStyle(className: string, color: Rgb, b: Branch): (s: ClassStyle)
    ensures s.hover == BackgroundColor([Angle(GradientAngle), Paint(BranchShade(color, b, Hover))])
  {
    ClassStyle(className, Solid(BranchShade(color, b, Normal)), Solid(BranchShade(color, b, CursorLine)),
      BackgroundColor([Angle(GradientAngle), Paint(BranchShade(color, b, Hover))]))
  }

  /** `background-color: 90deg, rgba(...)` is not a colour: the as-written hover rule is malformed. */
  lemma AsWrittenHoverIsMalformed(className: string, color: Rgb, b: Branch)
    ensures !WellFormedBackground(AsWrittenTopStyle(className, color, b).hover)
    ensures !WellFormedStyle(AsWrittenTopStyle(className, color, b))
  {
  }

  /** The rules of a top-level class with the hover rule a solid colour like the other two. */
  function TopStyle(className: string, color: Rgb, b: Branch): (s: ClassStyle)
    ensures WellFormedStyle(s)
    ensures s.className == className
    ensures forall st :: Rule(s, st) == Solid(BranchShade(color, b, st))
    ensures NormalStops(s) == [Stop(BranchShade(color, b, Normal), 0)]
  {
    ClassStyle(className, Solid(BranchShade(color, b, Normal)), Solid(BranchShade(color, b, CursorLine)),
      Solid(BranchShade(color, b, Hover)))
  }

  /** The gradient of a nested class in one line state: the parent's stops, then its own shade. */
  function NestedBackground(parent: seq<Stop>, color: Rgb, b: Branch, st: LineState): (g: Background)
    requires Numbered(parent)
    ensures WellFormedBackground(g)
    ensures g.LinearGradient? && ExtendsByOne(g.stops, parent)
    ensures g.stops[|parent|] == Stop(BranchShade(color, b, st), |parent|)
  {
    var last := parent[|parent| - 1].percent;
    var g := LinearGradient(GradientAngle, parent + [Stop(BranchShade(color, b, st), last + 1)]);
    assert g.stops[..|parent|] == parent;
    g
  }

  /**
   * The rules of a nested class. All three gradients extend the stops the
   * parent class passes on (its plain line's), each with its own line
   * state's shade.
   */
  function NestedStyle(className: string, parent: seq<Stop>, color: Rgb, b: Branch): (s: ClassStyle)
    requires Numbered(parent)
    ensures WellFormedStyle(s)
    ensures s.className == className
    ensures forall st ::
      && Rule(s, st).LinearGradient? && ExtendsByOne(Rule(s, st).stops, parent)
      && Rule(s, st).stops[|parent|] == Stop(BranchShade(color, b, st), |parent|)
    ensures ExtendsByOne(NormalStops(s), parent)
  {
    ClassStyle(className,
      NestedBackground(parent, color, b, Normal),
      NestedBackground(parent, color, b, CursorLine),
      NestedBackground(parent, color, b, Hover))
  }

  /**
   * The rules and cached stops for an entry whose class has none yet. The
   * dimension's colour is looked up first, so an unregistered dimension is
   * an error; a nested entry's parent class has cached stops.
   */
  function StyleFor(menus: Menus, cache: Cache, e: Entry): (r: Result<(ClassStyle, seq<Stop>), Error>)
    requires e.parentClass.Some? ==> e.parentClass.value in cache && Numbered(cache[e.parentClass.value])
    ensures r.Err? <==> !HasPanelMenu(menus, e.node.deco.dimension)
    ensures r.Err? ==> r.error == UnknownDimension(e.node.deco.dimension)
    ensures r.Ok? ==>
      var (s, stops) := r.value;
      && s.className == e.node.deco.className
      && WellFormedStyle(s)
      && Numbered(stops)
      && stops == NormalStops(s)
    ensures r.Ok? && e.parentClass.None? ==>
      var c := menus[e.node.deco.dimension].color;
      && r.value.0 == TopStyle(e.node.deco.className, c, e.node.deco.branch)
      && r.value.1 == [Stop(BranchShade(c, e.node.deco.branch, Normal), 0)]
    ensures r.Ok? && e.parentClass.Some? ==>
      var parent := cache[e.parentClass.value];
      var c := menus[e.node.deco.dimension].color;
      && r.value.0 == NestedStyle(e.node.deco.className, parent, c, e.node.deco.branch)
      && ExtendsByOne(r.value.1, parent)
      && r.value.1[|parent|] == Stop(BranchShade(c, e.node.deco.branch, Normal), |parent|)
  {
    var color :- GetDimensionColor(menus, e.node.deco.dimension);
    var b := e.node.deco.branch;
    var cn := e.node.deco.className;
    match e.parentClass
    case None =>
      var s := TopStyle(cn, color, b);
      Ok((s, NormalStops(s)))
    case Some(p) =>
      var s := NestedStyle(cn, cache[p], color, b);
      Ok((s, NormalStops(s)))
  }

  /** The elements of s in order of first occurrence, each once. */
  function FirstOccurrences(s: seq<string>): seq<string>
    decreases |s|
  {
    if s == [] then []
    else
      var d := FirstOccurrences(s[..|s| - 1]);
      if s[|s| - 1] in d then d else d + [s[|s| - 1]]
  }

  lemma FirstOccurrencesSnoc(s: seq<string>, x: string)
    ensures FirstOccurrences(s + [x]) == if x in FirstOccurrences(s) then FirstOccurrences(s) else FirstOccurrences(s) + [x]
  {
    assert (s + [x])[..|s|] == s;
  }

  /** First occurrences keep exactly the elements of s, and no element twice. */
  lemma {:induction false} FirstOccurrencesMembers(s: seq<string>)
    ensures forall x :: x in FirstOccurrences(s) <==> x in s
    ensures NoRepeats(FirstOccurrences(s))
    decreases |s|
  {
    if s != [] {
      var init := s[..|s| - 1];
      var x := s[|s| - 1];
      assert s == init + [x];
      FirstOccurrencesMembers(init);
      FirstOccurrencesSnoc(init, x);
    }
  }

  function StyledClasses(sheet: seq<ClassStyle>): (cs: seq<string>)
    ensures |cs| == |sheet|
    ensures forall k | 0 <= k < |sheet| :: cs[k] == sheet[k].className
  {
    seq(|sheet|, k requires 0 <= k < |sheet| => sheet[k].className)
  }

  /** One style per class name, in the order the classes first came out of the queue. */
  predicate ClassOrder(seen: seq<Entry>, sheet: seq<ClassStyle>) {
    StyledClasses(sheet) == FirstOccurrences(Classes(seen))
  }

  /** The cache holds exactly the classes seen. */
  ghost predicate CacheKeys(seen: seq<Entry>, cache: Cache) {
    forall c :: c in cache <==> c in Classes(seen)
  }

  predicate CacheNumbered(cache: Cache) {
    forall c | c in cache :: Numbered(cache[c])
  }

  /** Each style's class caches the stops the style passes on. */
  predicate SheetCached(cache: Cache, sheet: seq<ClassStyle>) {
    forall j | 0 <= j < |sheet| ::
      sheet[j].className in cache && cache[sheet[j].className] == NormalStops(sheet[j])
  }

  predicate SheetWellFormed(sheet: seq<ClassStyle>) {
    forall j | 0 <= j < |sheet| :: WellFormedStyle(sheet[j])
  }

  /** Every gradient extends, by one stop, the stops of a style emitted before it. */
  predicate NestedAfterParents(sheet: seq<ClassStyle>) {
    forall j | 0 <= j < |sheet| && sheet[j].normal.LinearGradient? ::
      exists i | 0 <= i < j :: ExtendsByOne(sheet[j].normal.stops, NormalStops(sheet[i]))
  }

  /**
   * What the loop has built after taking the entries `seen` out of the
   * queue: one style per class name, in order of first appearance; the
   * cache holds exactly the classes seen, each with the stops its style
   * passes on; and every nested style extends an earlier style's stops.
   */
  ghost predicate Generated(seen: seq<Entry>, cache: Cache, sheet: seq<ClassStyle>) {
    && ClassOrder(seen, sheet)
    && CacheKeys(seen, cache)
    && CacheNumbered(cache)
    && SheetCached(cache, sheet)
    && SheetWellFormed(sheet)
    && NestedAfterParents(sheet)
  }

  lemma ClassesSnoc(seen: seq<Entry>, e: Entry)
    ensures Classes(seen + [e]) == Classes(seen) + [e.node.deco.className]
  {
  }

  /** A class already cached: the entry adds nothing. */
  lemma GeneratedSeenAgain(seen: seq<Entry>, cache: Cache, sheet: seq<ClassStyle>, e: Entry)
    requires Generated(seen, cache, sheet)
    requires e.node.deco.className in cache
    ensures Generated(seen + [e], cache, sheet)
  {
    var cn := e.node.deco.className;
    ClassesSnoc(seen, e);
    FirstOccurrencesMembers(Classes(seen));
    FirstOccurrencesSnoc(Classes(seen), cn);
  }

  /** Some earlier style carries the stops cached for class p. */
  lemma CachedStyle(seen: seq<Entry>, cache: Cache, sheet: seq<ClassStyle>, p: string) returns (i: nat)
    requires ClassOrder(seen, sheet) && CacheKeys(seen, cache) && SheetCached(cache, sheet)
    requires p in cache
    ensures i < |sheet| && sheet[i].className == p && NormalStops(sheet[i]) == cache[p]
  {
    FirstOccurrencesMembers(Classes(seen));
    assert p in StyledClasses(sheet);
    var k :| 0 <= k < |sheet| && StyledClasses(sheet)[k] == p;
    i := k;
  }

  lemma ClassOrderStep(seen: seq<Entry>, sheet: seq<ClassStyle>, e: Entry, s: ClassStyle)
    requires ClassOrder(seen, sheet)
    requires e.node.deco.className !in Classes(seen)
    requires s.className == e.node.deco.className
    ensures ClassOrder(seen + [e], sheet + [s])
    ensures e.node.deco.className !in StyledClasses(sheet)
  {
    var cn := e.node.deco.className;
    ClassesSnoc(seen, e);
    FirstOccurrencesMembers(Classes(seen));
    FirstOccurrencesSnoc(Classes(seen), cn);
    assert StyledClasses(sheet + [s]) == StyledClasses(sheet) + [cn];
  }

  lemma SheetCachedStep(cache: Cache, sheet: seq<ClassStyle>, s: ClassStyle, stops: seq<Stop>)
    requires SheetCached(cache, sheet)
    requires s.className !in StyledClasses(sheet)
    requires stops == NormalStops(s)
    ensures SheetCached(cache[s.className := stops], sheet + [s])
  {
    var cache' := cache[s.className := stops];
    var sheet' := sheet + [s];
    forall j | 0 <= j < |sheet'| ensures sheet'[j].className in cache' && cache'[sheet'[j].className] == NormalStops(sheet'[j]) {
      if j < |sheet| {
        assert sheet'[j] == sheet[j];
        assert StyledClasses(sheet)[j] == sheet[j].className;
      }
    }
  }

  lemma NestedStep(sheet: seq<ClassStyle>, s: ClassStyle, i: nat)
    requires NestedAfterParents(sheet)
    requires i < |sheet| && (s.normal.LinearGradient? ==> ExtendsByOne(s.normal.stops, NormalStops(sheet[i])))
    ensures NestedAfterParents(sheet + [s])
  {
    var sheet' := sheet + [s];
    forall j | 0 <= j < |sheet'| && sheet'[j].normal.LinearGradient?
      ensures exists i' | 0 <= i' < j :: ExtendsByOne(sheet'[j].normal.stops, NormalStops(sheet'[i']))
    {
      if j < |sheet| {
        assert sheet'[j] == sheet[j];
        var i' :| 0 <= i' < j && ExtendsByOne(sheet[j].normal.stops, NormalStops(sheet[i']));
        assert sheet'[i'] == sheet[i'];
      } else {
        assert sheet'[i] == sheet[i];
      }
    }
  }

  lemma NestedFirst(s: ClassStyle)
    requires !s.normal.LinearGradient?
    ensures NestedAfterParents([s])
  {
  }

  /** A new class: its style is appended and its stops cached. */
  lemma GeneratedNewClass(seen: seq<Entry>, cache: Cache, sheet: seq<ClassStyle>, e: Entry, s: ClassStyle, stops: seq<Stop>)
    requires Generated(seen, cache, sheet)
    requires e.node.deco.className !in cache
    requires s.className == e.node.deco.className && WellFormedStyle(s)
    requires Numbered(stops) && stops == NormalStops(s)
    requires s.normal.LinearGradient? ==>
      e.parentClass.Some? && e.parentClass.value in cache && ExtendsByOne(stops, cache[e.parentClass.value])
    ensures Generated(seen + [e], cache[e.node.deco.className := stops], sheet + [s])
  {
    var cn := e.node.deco.className;
    ClassOrderStep(seen, sheet, e, s);
    SheetCachedStep(cache, sheet, s, stops);
    assert CacheKeys(seen + [e], cache[cn := stops]) by {
      ClassesSnoc(seen, e);
    }
    if s.normal.LinearGradient? {
      var i := CachedStyle(seen, cache, sheet, e.parentClass.value);
      NestedStep(sheet, s, i);
    } else if sheet == [] {
      NestedFirst(s);
    } else {
      NestedStep(sheet, s, 0);
    }
  }

  /** The k-th entry is the first with its class name. */
  ghost predicate FirstOfClass(seen: seq<Entry>, k: nat) {
    && k < |seen|
    && forall k' | 0 <= k' < k :: seen[k'].node.deco.className != seen[k].node.deco.className
  }

  /**
   * The j-th style is the one e's class gets: e's dimension is registered,
   * and the style is the solid top-level style of its colour and branch,
   * or, under a parent class, the nested style extending the stops of the
   * parent class's style, which comes earlier in the sheet.
   */
  ghost predicate StyleMatches(menus: Menus, e: Entry, sheet: seq<ClassStyle>, j: nat)
    requires j < |sheet|
  {
    var d := e.node.deco;
    && sheet[j].className == d.className
    && HasPanelMenu(menus, d.dimension)
    && match e.parentClass
       case None => sheet[j] == TopStyle(d.className, menus[d.dimension].color, d.branch)
       case Some(_) => exists i | 0 <= i < j :: NestedUnder(menus, e, sheet, i, j)
  }

  /** The j-th style is e's nested style over the stops of the i-th, which is the style of e's parent class. */
  ghost predicate NestedUnder(menus: Menus, e: Entry, sheet: seq<ClassStyle>, i: nat, j: nat)
    requires i < j < |sheet| && e.parentClass.Some? && HasPanelMenu(menus, e.node.deco.dimension)
  {
    var d := e.node.deco;
    && sheet[i].className == e.parentClass.value && Numbered(NormalStops(sheet[i]))
    && sheet[j] == NestedStyle(d.className, NormalStops(sheet[i]), menus[d.dimension].color, d.branch)
  }

  /** The j-th style is the one the first entry of its class gets. */
  ghost predicate StyledFrom(menus: Menus, seen: seq<Entry>, sheet: seq<ClassStyle>, j: nat)
    requires j < |sheet|
  {
    exists k | 0 <= k < |seen| :: FirstOfClass(seen, k) && StyleMatches(menus, seen[k], sheet, j)
  }

  /** Every style is the one the first entry of its class gets. */
  ghost predicate Colored(menus: Menus, seen: seq<Entry>, sheet: seq<ClassStyle>) {
    forall j | 0 <= j < |sheet| :: StyledFrom(menus, seen, sheet, j)
  }

  /** The entry a style of a matched sheet was made for. */
  lemma StyledEntry(menus: Menus, seen: seq<Entry>, sheet: seq<ClassStyle>, j: nat) returns (k: nat)
    requires Colored(menus, seen, sheet) && j < |sheet|
    ensures k < |seen| && FirstOfClass(seen, k) && StyleMatches(menus, seen[k], sheet, j)
  {
    assert StyledFrom(menus, seen, sheet, j);
    k :| 0 <= k < |seen| && FirstOfClass(seen, k) && StyleMatches(menus, seen[k], sheet, j);
  }

  /** A first entry of its class stays first when the walk goes on. */
  lemma FirstOfClassExtend(seen: seq<Entry>, e: Entry, k: nat)
    requires FirstOfClass(seen, k)
    ensures FirstOfClass(seen + [e], k) && (seen + [e])[k] == seen[k]
  {
    assert forall k' | 0 <= k' <= k :: (seen + [e])[k'] == seen[k'];
  }

  /** Appending a style leaves the earlier ones matching their entries. */
  lemma StyleMatchesExtend(menus: Menus, e: Entry, sheet: seq<ClassStyle>, s: ClassStyle, j: nat)
    requires j < |sheet| && StyleMatches(menus, e, sheet, j)
    ensures StyleMatches(menus, e, sheet + [s], j)
  {
    var sheet' := sheet + [s];
    assert sheet'[j] == sheet[j];
    if e.parentClass.Some? {
      var i :| 0 <= i < j && NestedUnder(menus, e, sheet, i, j);
      assert sheet'[i] == sheet[i];
      assert NestedUnder(menus, e, sheet', i, j);
    }
  }

  /** An entry of a class already styled leaves every style matched to the same entry. */
  lemma ColoredSeenAgain(menus: Menus, seen: seq<Entry>, sheet: seq<ClassStyle>, e: Entry)
    requires Colored(menus, seen, sheet)
    ensures Colored(menus, seen + [e], sheet)
  {
    var seen' := seen + [e];
    forall j | 0 <= j < |sheet| ensures StyledFrom(menus, seen', sheet, j) {
      var k := StyledEntry(menus, seen, sheet, j);
      FirstOfClassExtend(seen, e, k);
    }
  }

  /** A new class's entry, with the style it gets appended: every style is still matched. */
  lemma ColoredNewClass(menus: Menus, seen: seq<Entry>, sheet: seq<ClassStyle>, e: Entry, s: ClassStyle)
    requires Colored(menus, seen, sheet)
    requires e.node.deco.className !in Classes(seen)
    requires StyleMatches(menus, e, sheet + [s], |sheet|)
    ensures Colored(menus, seen + [e], sheet + [s])
  {
    var seen' := seen + [e];
    var sheet' := sheet + [s];
    forall j | 0 <= j < |sheet'| ensures StyledFrom(menus, seen', sheet', j) {
      if j < |sheet| {
        var k := StyledEntry(menus, seen, sheet, j);
        FirstOfClassExtend(seen, e, k);
        StyleMatchesExtend(menus, seen[k], sheet, s, j);
      } else {
        NewClassFirst(seen, e);
      }
    }
  }

  /** An entry of a class not met before is the first of its class. */
  lemma NewClassFirst(seen: seq<Entry>, e: Entry)
    requires e.node.deco.className !in Classes(seen)
    ensures FirstOfClass(seen + [e], |seen|) && (seen + [e])[|seen|] == e
  {
    assert forall k' | 0 <= k' < |seen| :: (seen + [e])[k'] == seen[k'] && Classes(seen)[k'] == seen[k'].node.deco.className;
  }

  /**
   * One entry out of the queue: the first time its class is met, its
   * rules are appended and its stops cached; after that it changes
   * nothing. Only a new class looks its dimension's colour up, so only a
   * new class can fail.
   */
  function Emit(menus: Menus, cache: Cache, sheet: seq<ClassStyle>, e: Entry): (r: Result<(Cache, seq<ClassStyle>), Error>)
    requires CacheNumbered(cache) && (e.parentClass.Some? ==> e.parentClass.value in cache)
    ensures r.Err? <==> e.node.deco.className !in cache && !HasPanelMenu(menus, e.node.deco.dimension)
    ensures r.Err? ==> r.error == UnknownDimension(e.node.deco.dimension)
    ensures r.Ok? ==> r.value.0.Keys == cache.Keys + {e.node.deco.className}
    ensures r.Ok? && e.node.deco.className in cache ==> r.value == (cache, sheet)
    ensures r.Ok? && e.node.deco.className !in cache ==>
      && StyleFor(menus, cache, e).Ok?
      && r.value.1 == sheet + [StyleFor(menus, cache, e).value.0]
      && r.value.0 == cache[e.node.deco.className := StyleFor(menus, cache, e).value.1]
  {
    var cn := e.node.deco.className;
    if cn in cache then Ok((cache, sheet))
    else
      var made :- StyleFor(menus, cache, e);
      Ok((cache[cn := made.1], sheet + [made.0]))
  }

  lemma EmitKeepsGenerated(seen: seq<Entry>, menus: Menus, cache: Cache, sheet: seq<ClassStyle>, e: Entry)
    requires Generated(seen, cache, sheet) && (e.parentClass.Some? ==> e.parentClass.value in cache)
    requires Emit(menus, cache, sheet, e).Ok?
    ensures Generated(seen + [e], Emit(menus, cache, sheet, e).value.0, Emit(menus, cache, sheet, e).value.1)
  {
    var cn := e.node.deco.className;
    if cn in cache {
      GeneratedSeenAgain(seen, cache, sheet, e);
    } else {
      var made := StyleFor(menus, cache, e);
      GeneratedNewClass(seen, cache, sheet, e, made.value.0, made.value.1);
    }
  }

  /** What one entry out of the queue emits is the style its class gets, so every style stays matched. */
  lemma EmitKeepsColored(seen: seq<Entry>, menus: Menus, cache: Cache, sheet: seq<ClassStyle>, e: Entry)
    requires Generated(seen, cache, sheet) && Colored(menus, seen, sheet)
    requires e.parentClass.Some? ==> e.parentClass.value in cache
    requires Emit(menus, cache, sheet, e).Ok?
    ensures Colored(menus, seen + [e], Emit(menus, cache, sheet, e).value.1)
  {
    var cn := e.node.deco.className;
    if cn in cache {
      ColoredSeenAgain(menus, seen, sheet, e);
    } else {
      var s := StyleFor(menus, cache, e).value.0;
      var sheet' := sheet + [s];
      assert sheet'[|sheet|] == s;
      if e.parentClass.Some? {
        var i := CachedStyle(seen, cache, sheet, e.parentClass.value);
        assert sheet'[i] == sheet[i];
        assert NestedUnder(menus, e, sheet', i, |sheet|);
      }
      ColoredNewClass(menus, seen, sheet, e, s);
    }
  }

  lemma BfsStep(c: seq<Entry>, e: Entry, rest: seq<Entry>)
    requires c != [] && e == c[0] && rest == c[1..]
    ensures c == [e] + rest
    ensures Bfs(c) == [e] + Bfs(rest + Children(e))
    ensures |Flatten(Nodes(rest + Children(e)))| < |Flatten(Nodes(c))|
  {
    NextQueue(c);
  }

  lemma SeenStep(seen: seq<Entry>, e: Entry, next: seq<Entry>, all: seq<Entry>)
    requires seen + ([e] + next) == all
    ensures (seen + [e]) + next == all
    ensures e in all
  {
    assert all[|seen|] == e;
  }

  /** Every entry of the walk from a forest's top level holds a node of the forest. */
  lemma WalkedNodeInForest(f: Forest, e: Entry)
    requires e in Bfs(TopEntries(f))
    ensures e.node in Flatten(f)
  {
    BfsCoversForest(f);
    var k :| 0 <= k < |Bfs(TopEntries(f))| && Bfs(TopEntries(f))[k] == e;
    assert Nodes(Bfs(TopEntries(f)))[k] == e.node;
    assert e.node in multiset(Nodes(Bfs(TopEntries(f))));
  }

  /** Every queued entry with a parent class finds that class cached. */
  predicate ParentsIn(q: seq<Entry>, cache: Cache) {
    forall x | x in q && x.parentClass.Some? :: x.parentClass.value in cache
  }

  /** A walked entry whose dimension is unregistered names a node of the forest with that dimension. */
  lemma UnknownInForest(f: Forest, menus: Menus, e: Entry)
    requires e in Bfs(TopEntries(f)) && !HasPanelMenu(menus, e.node.deco.dimension)
    ensures exists n | n in Flatten(f) ::
      !HasPanelMenu(menus, n.deco.dimension) && UnknownDimension(e.node.deco.dimension) == UnknownDimension(n.deco.dimension)
    ensures !(forall n | n in Flatten(f) :: HasPanelMenu(menus, n.deco.dimension))
  {
    WalkedNodeInForest(f, e);
  }

  /** Parent classes of queued entries are cached after e's class is. */
  lemma ParentsCached(rest: seq<Entry>, e: Entry, cache: Cache, cache': Cache)
    requires ParentsIn([e] + rest, cache)
    requires cache.Keys <= cache'.Keys && e.node.deco.className in cache'
    ensures ParentsIn(rest + Children(e), cache')
  {
    forall x | x in rest + Children(e) && x.parentClass.Some? ensures x.parentClass.value in cache' {
      if x in rest {
        assert x in [e] + rest;
      } else {
        var k :| 0 <= k < |Children(e)| && Children(e)[k] == x;
      }
    }
  }

  /** Take the front entry out of the queue and queue its children. */
  method Advance(q: Queue<Entry>, ghost pending: seq<Entry>) returns (e: Entry, q': Queue<Entry>)
    requires q.Valid() && q.Contents() == pending && pending != []
    ensures e == pending[0]
    ensures q'.Valid() && q'.Contents() == pending[1..] + Children(e)
  {
    var popped := Pop(q);
    e := popped.value.0;
    q' := Push(popped.value.1, Children(e));
  }

  /**
   * Where the loop of `generateStyleSheet` stands: the queue holds
   * `pending`, the entries taken out so far followed by the walk from
   * `pending` make the whole walk, what has been built matches the
   * entries taken out, and every queued entry's parent class is cached.
   */
  ghost predicate Walking(menus: Menus, all: seq<Entry>, q: Queue<Entry>, pending: seq<Entry>, seen: seq<Entry>, cache: Cache, sheet: seq<ClassStyle>) {
    && q.Valid() && q.Contents() == pending
    && seen + Bfs(pending) == all
    && Generated(seen, cache, sheet)
    && Colored(menus, seen, sheet)
    && ParentsIn(pending, cache)
  }

  /** The queue primed with the forest's top level, before anything is taken out. */
  method Prime(forest: Forest, menus: Menus) returns (q: Queue<Entry>)
    ensures Walking(menus, Bfs(TopEntries(forest)), q, TopEntries(forest), [], map[], [])
  {
    q := Push(NewQueue(), TopEntries(forest));
    StartWalk(forest);
  }

  /** Before anything is taken out, nothing is built and no top-level entry has a parent class. */
  lemma StartWalk(forest: Forest)
    ensures [] + Bfs(TopEntries(forest)) == Bfs(TopEntries(forest))
    ensures Generated([], map[], [])
    ensures ParentsIn(TopEntries(forest), map[])
  {
    assert Classes([]) == [];
  }

  /**
   * One turn of the loop of `generateStyleSheet`: take the front entry
   * out, emit its class's rules if they are new, queue its children. The
   * turn fails exactly when the entry's class is new and its dimension
   * has no menu; otherwise what has been built still matches the entries
   * taken out so far, and fewer nodes are left to visit.
   */
  method Visit(menus: Menus, q: Queue<Entry>, ghost pending: seq<Entry>, ghost seen: seq<Entry>, ghost all: seq<Entry>,
               cache: Cache, sheet: seq<ClassStyle>)
    returns (r: Result<(Queue<Entry>, Cache, seq<ClassStyle>), Error>, ghost pending': seq<Entry>, ghost seen': seq<Entry>)
    requires Walking(menus, all, q, pending, seen, cache, sheet) && pending != []
    ensures r.Err? <==> pending[0].node.deco.className !in cache && !HasPanelMenu(menus, pending[0].node.deco.dimension)
    ensures r.Err? ==> pending[0] in all && r.error == UnknownDimension(pending[0].node.deco.dimension)
    ensures r.Ok? ==> Walking(menus, all, r.value.0, pending', seen', r.value.1, r.value.2)
    ensures r.Ok? ==> |Flatten(Nodes(pending'))| < |Flatten(Nodes(pending))|
  {
    var e, q' := Advance(q, pending);
    ghost var rest := pending[1..];
    BfsStep(pending, e, rest);
    SeenStep(seen, e, Bfs(rest + Children(e)), all);
    assert e in [e] + rest;
    pending' := rest + Children(e);
    seen' := seen + [e];
    var emitted := Emit(menus, cache, sheet, e);
    if emitted.Err? {
      return Err(emitted.error), pending', seen';
    }
    EmitKeepsGenerated(seen, menus, cache, sheet, e);
    EmitKeepsColored(seen, menus, cache, sheet, e);
    ParentsCached(rest, e, cache, emitted.value.0);
    r := Ok((q', emitted.value.0, emitted.value.1));
  }

  /**
   * The loop of `generateStyleSheet`: every entry of the walk comes out of
   * the queue in turn. On success, what has been built matches the whole
   * walk; on failure, the error names a dimension of the forest that has
   * no menu.
   */
  method WalkQueue(forest: Forest, menus: Menus) returns (r: Result<seq<ClassStyle>, Error>, ghost seen: seq<Entry>, ghost cache': Cache)
    ensures r.Ok? ==> seen == Bfs(TopEntries(forest)) && Generated(seen, cache', r.value) && Colored(menus, seen, r.value)
    ensures r.Err? ==> exists n | n in Flatten(forest) ::
      !HasPanelMenu(menus, n.deco.dimension) && r.error == UnknownDimension(n.deco.dimension)
  {
    ghost var all := Bfs(TopEntries(forest));
    var q := Prime(forest, menus);
    ghost var pending := TopEntries(forest);
    var cache: Cache := map[];
    var sheet: seq<ClassStyle> := [];
    seen := [];
    while !IsEmpty(q)
      invariant Walking(menus, all, q, pending, seen, cache, sheet)
      decreases |Flatten(Nodes(pending))|
    {
      var visited;
      ghost var e := pending[0];
      visited, pending, seen := Visit(menus, q, pending, seen, all, cache, sheet);
      if visited.Err? {
        UnknownInForest(forest, menus, e);
        return Err(visited.error), seen, cache;
      }
      q, cache, sheet := visited.value.0, visited.value.1, visited.value.2;
    }
    assert seen == all;
    return Ok(sheet), seen, cache;
  }

  /**
   * `generateStyleSheet`: walk the forest breadth first and emit the rules
   * of every class the first time it comes out of the queue. The result is
   * one style per class name of the forest, in the order the walk first
   * meets them, each well formed; a nested class's gradient extends the
   * stops of a style emitted before it. Each style is the one the first
   * entry of its class gets from its dimension's colour and branch and
   * from its parent class's style; when every class name sits at one
   * depth, a class at depth d has stops at 0..d percent. An unregistered
   * dimension stops the walk with the view's error.
   */
  method GenerateStyleSheet(forest: Forest, menus: Menus) returns (r: Result<seq<ClassStyle>, Error>)
    ensures r.Ok? ==> StyledClasses(r.value) == FirstOccurrences(Classes(Bfs(TopEntries(forest))))
    ensures r.Ok? ==> SheetWellFormed(r.value) && NestedAfterParents(r.value)
    ensures r.Ok? ==> forall j | 0 <= j < |r.value| :: StyledFrom(menus, Bfs(TopEntries(forest)), r.value, j)
    ensures r.Ok? && OneDepthPerClass(Bfs(TopEntries(forest))) ==>
      forall j, k | 0 <= j < |r.value| && 0 <= k < |Bfs(TopEntries(forest))| &&
                    Bfs(TopEntries(forest))[k].node.deco.className == r.value[j].className ::
        Numbered(NormalStops(r.value[j])) && |NormalStops(r.value[j])| == Bfs(TopEntries(forest))[k].depth + 1
    ensures (forall n | n in Flatten(forest) :: HasPanelMenu(menus, n.deco.dimension)) ==> r.Ok?
    ensures r.Err? ==> exists n | n in Flatten(forest) ::
      !HasPanelMenu(menus, n.deco.dimension) && r.error == UnknownDimension(n.deco.dimension)
  {
    ghost var seen, cache;
    r, seen, cache := WalkQueue(forest, menus);
    if r.Ok? {
      WalkDone(forest, seen, cache, r.value);
      if OneDepthPerClass(seen) {
        StopsByDepth(forest, menus, r.value);
      }
    }
  }

  /** Entries of one class name are all at one depth. */
  predicate OneDepthPerClass(walk: seq<Entry>) {
    forall a, b | 0 <= a < |walk| && 0 <= b < |walk| && walk[a].node.deco.className == walk[b].node.deco.className ::
      walk[a].depth == walk[b].depth
  }

  /**
   * When every class name of the walk sits at one depth, the style of a
   * class at depth d passes on d + 1 stops: one for each level from the
   * top down to it.
   */
  lemma {:induction false} StopsAtDepth(f: Forest, walk: seq<Entry>, menus: Menus, sheet: seq<ClassStyle>, j: nat)
    requires walk == Bfs(TopEntries(f))
    requires Colored(menus, walk, sheet) && OneDepthPerClass(walk)
    requires j < |sheet|
    ensures forall k | 0 <= k < |walk| && walk[k].node.deco.className == sheet[j].className ::
      |NormalStops(sheet[j])| == walk[k].depth + 1
    decreases j
  {
    var k := StyledEntry(menus, walk, sheet, j);
    var e := walk[k];
    assert e in walk;
    WalkOrigin(f, e);
    var parent := MatchedStops(menus, e, sheet, j);
    if e.parentClass.Some? {
      var ky := ParentEntry(f, e);
      StopsAtDepth(f, walk, menus, sheet, parent.value);
      assert |NormalStops(sheet[parent.value])| == walk[ky].depth + 1;
    }
    assert |NormalStops(sheet[j])| == e.depth + 1;
    forall k' | 0 <= k' < |walk| && walk[k'].node.deco.className == sheet[j].className
      ensures |NormalStops(sheet[j])| == walk[k'].depth + 1
    {
      assert walk[k].node.deco.className == walk[k'].node.deco.className;
    }
  }

  /**
   * A matched style passes on one stop at the top level, and one stop more
   * than the earlier style of its parent class otherwise.
   */
  lemma MatchedStops(menus: Menus, e: Entry, sheet: seq<ClassStyle>, j: nat) returns (parent: Option<nat>)
    requires j < |sheet| && StyleMatches(menus, e, sheet, j)
    ensures Numbered(NormalStops(sheet[j]))
    ensures e.parentClass.None? ==> |NormalStops(sheet[j])| == 1
    ensures e.parentClass.Some? ==>
      && parent.Some? && parent.value < j && sheet[parent.value].className == e.parentClass.value
      && |NormalStops(sheet[j])| == |NormalStops(sheet[parent.value])| + 1
  {
    match e.parentClass
    case None =>
      parent := None;
    case Some(p) =>
      var i :| 0 <= i < j && NestedUnder(menus, e, sheet, i, j);
      parent := Some(i);
  }

  /** When every class name of the walk sits at one depth, a class at depth d has stops at 0..d percent. */
  lemma StopsByDepth(f: Forest, menus: Menus, sheet: seq<ClassStyle>)
    requires Colored(menus, Bfs(TopEntries(f)), sheet) && OneDepthPerClass(Bfs(TopEntries(f)))
    ensures forall j, k | 0 <= j < |sheet| && 0 <= k < |Bfs(TopEntries(f))| &&
                          Bfs(TopEntries(f))[k].node.deco.className == sheet[j].className ::
      Numbered(NormalStops(sheet[j])) && |NormalStops(sheet[j])| == Bfs(TopEntries(f))[k].depth + 1
  {
    forall j | 0 <= j < |sheet|
      ensures Numbered(NormalStops(sheet[j]))
      ensures forall k | 0 <= k < |Bfs(TopEntries(f))| && Bfs(TopEntries(f))[k].node.deco.className == sheet[j].className ::
        |NormalStops(sheet[j])| == Bfs(TopEntries(f))[k].depth + 1
    {
      var k := StyledEntry(menus, Bfs(TopEntries(f)), sheet, j);
      StopsAtDepth(f, Bfs(TopEntries(f)), menus, sheet, j);
    }
  }

  /** Once the whole walk is out of the queue, the sheet has the order and shape the view promises. */
  lemma WalkDone(forest: Forest, seen: seq<Entry>, cache: Cache, sheet: seq<ClassStyle>)
    requires seen == Bfs(TopEntries(forest))
    requires Generated(seen, cache, sheet)
    ensures StyledClasses(sheet) == FirstOccurrences(Classes(Bfs(TopEntries(forest))))
    ensures SheetWellFormed(sheet) && NestedAfterParents(sheet)
  {
  }

  lemma WalkedClassInForest(f: Forest, c: string)
    requires c in Classes(Bfs(TopEntries(f)))
    ensures exists n | n in Flatten(f) :: n.deco.className == c
  {
    var walk := Bfs(TopEntries(f));
    var k :| 0 <= k < |walk| && Classes(walk)[k] == c;
    WalkedNodeInForest(f, walk[k]);
  }

  lemma ForestClassWalked(f: Forest, n: Node)
    requires n in Flatten(f)
    ensures n.deco.className in Classes(Bfs(TopEntries(f)))
  {
    var walk := Bfs(TopEntries(f));
    BfsCoversForest(f);
    assert n in multiset(Nodes(walk));
    var k :| 0 <= k < |walk| && Nodes(walk)[k] == n;
    assert Classes(walk)[k] == n.deco.className;
  }

  /**
   * The class names styled by a walk from a forest's top level are exactly
   * the class names in the forest, each once.
   */
  lemma StylesCoverForest(f: Forest)
    ensures forall c :: c in FirstOccurrences(Classes(Bfs(TopEntries(f)))) <==> exists n | n in Flatten(f) :: n.deco.className == c
    ensures NoRepeats(FirstOccurrences(Classes(Bfs(TopEntries(f)))))
  {
    var classes := Classes(Bfs(TopEntries(f)));
    FirstOccurrencesMembers(classes);
    forall c ensures c in classes <==> exists n | n in Flatten(f) :: n.deco.className == c {
      if c in classes {
        WalkedClassInForest(f, c);
      }
      if n :| n in Flatten(f) && n.deco.className == c {
        ForestClassWalked(f, n);
      }
    }
  }
}

=== FILE: suppressor.dfy ===
/**
 * The predicate suppressor (ts/predicate-suppressor.ts): lines holding
 * preprocessor predicates are folded away, and uncovered only while the
 * cursor stands on them.
 *
 * A `Predicate` is one tracked line: its row, the column its line ends at
 * and, while it is hidden, the id of the fold the editor made for it. A
 * group (the `Predicates` class) is the set of lines added together.
 * The suppressor keeps its groups, the cursor position it is about to
 * move the cursor to (so the event caused by that move is ignored), and
 * the next fold id the host will hand out.
 */
module Suppression {
  import opened Wrappers

  datatype Point = Point(row: nat, column: nat)

  datatype Predicate = Predicate(row: nat, endColumn: nat, fold: Option<nat>)

  /** A predicate is hidden exactly while it holds a fold. */
  predicate Hidden(p: Predicate) {
    p.fold.Some?
  }

  /** Same line, whatever its fold. */
  predicate SameLine(p: Predicate, q: Predicate) {
    p.row == q.row && p.endColumn == q.endColumn
  }

  /** `Predicate.hide`: a shown predicate gets the host's next fold id; a hidden one is left alone. */
  function HidePredicate(p: Predicate, next: nat): (r: (Predicate, nat))
    ensures Hidden(r.0) && SameLine(r.0, p)
    ensures Hidden(p) ==> r == (p, next)
    ensures !Hidden(p) ==> r.0.fold == Some(next) && r.1 == next + 1
  {
    if Hidden(p) then (p, next) else (p.(fold := Some(next)), next + 1)
  }

  /** `Predicate.show`: a hidden predicate gives its fold back (the second result); a shown one is left alone. */
  function ShowPredicate(p: Predicate): (r: (Predicate, Option<nat>))
    ensures !Hidden(r.0) && SameLine(r.0, p)
    ensures r.1 == p.fold
    ensures !Hidden(p) ==> r.0 == p
  {
    if Hidden(p) then (p.(fold := None), p.fold) else (p, None)
  }

  /** Hiding twice is hiding once; showing twice is showing once. */
  lemma HideShowIdempotent(p: Predicate, next: nat, next': nat)
    ensures HidePredicate(HidePredicate(p, next).0, next') == (HidePredicate(p, next).0, next')
    ensures ShowPredicate(ShowPredicate(p).0) == (ShowPredicate(p).0, None)
  {
  }

  /** Showing a predicate right after hiding it gives back the fold the hide took. */
  lemma ShowUndoesHide(p: Predicate, next: nat)
    requires !Hidden(p)
    ensures ShowPredicate(HidePredicate(p, next).0) == (p, Some(next))
  {
  }

  /** `Predicate.destroy`: show it, releasing its fold if it held one, then drop it. */
  function DestroyPredicate(p: Predicate): (released: Option<nat>)
    ensures released.Some? <==> Hidden(p)
    ensures Hidden(p) ==> released == p.fold
  {
    ShowPredicate(p).1
  }

  // ---------------------------------------------------------------------
  // Groups of predicates
  // ---------------------------------------------------------------------

  datatype Group = Group(members: seq<Predicate>)

  /** Some member is at the row. */
  predicate Tracks(ps: seq<Predicate>, row: nat) {
    exists k | 0 <= k < |ps| :: ps[k].row == row
  }

  /** No two members are at the same row. */
  predicate RowsDistinct(ps: seq<Predicate>) {
    forall i, j | 0 <= i < j < |ps| :: ps[i].row != ps[j].row
  }

  /** The members, in order, are the same lines. */
  predicate SameLines(ps: seq<Predicate>, qs: seq<Predicate>) {
    |ps| == |qs| && forall k | 0 <= k < |ps| :: SameLine(ps[k], qs[k])
  }

  /** How many members are at the row: the length of `filter(x => x.atRow(row))`. */
  function CountAtRow(ps: seq<Predicate>, row: nat): (n: nat)
    ensures n <= |ps|
    ensures n > 0 <==> Tracks(ps, row)
  {
    if ps == [] then 0
    else
      var rest := CountAtRow(ps[1..], row);
      assert forall k | 0 < k < |ps| :: ps[k] == ps[1..][k - 1];
      if ps[0].row == row then rest + 1 else rest
  }

  /** How many members are hidden: the length of `filter(x => x.hidden)`. */
  function CountHidden(ps: seq<Predicate>): (n: nat)
    ensures n <= |ps|
    ensures n == |ps| <==> forall k | 0 <= k < |ps| :: Hidden(ps[k])
  {
    if ps == [] then 0
    else
      var rest := CountHidden(ps[1..]);
      assert forall k | 0 < k < |ps| :: ps[k] == ps[1..][k - 1];
      if Hidden(ps[0]) then rest + 1 else rest
  }

  /** `hasRow`: some member is at the row. */
  function HasRow(g: Group, row: nat): (r: bool)
    ensures r <==> Tracks(g.members, row)
  {
    CountAtRow(g.members, row) > 0
  }

  /** `Predicates.hidden`: as many members are hidden as there are members, i.e. all of them. */
  function GroupHidden(g: Group): (r: bool)
    ensures r <==> forall k | 0 <= k < |g.members| :: Hidden(g.members[k])
  {
    CountHidden(g.members) == |g.members|
  }

  /** One row of the constructor's loop: a new, shown predicate unless the row is already tracked. */
  function TrackOne(ps: seq<Predicate>, row: nat, lineLength: nat -> nat): (ps': seq<Predicate>)
    requires RowsDistinct(ps)
    ensures RowsDistinct(ps')
    ensures forall r: nat :: Tracks(ps', r) <==> Tracks(ps, r) || r == row
    ensures |ps| <= |ps'| && ps'[..|ps|] == ps
    ensures forall k | |ps| <= k < |ps'| :: !Hidden(ps'[k]) && ps'[k].endColumn == lineLength(ps'[k].row)
  {
    if HasRow(Group(ps), row) then ps
    else
      var ps' := ps + [Predicate(row, lineLength(row), None)];
      assert ps'[..|ps|] == ps;
      assert forall r: nat :: Tracks(ps', r) <==> Tracks(ps, r) || r == row by {
        forall r: nat ensures Tracks(ps', r) <==> Tracks(ps, r) || r == row {
          if Tracks(ps, r) {
            var k :| 0 <= k < |ps| && ps[k].row == r;
            assert ps'[k] == ps[k];
          }
          if r == row {
            assert ps'[|ps|].row == r;
          }
        }
      }
      ps'
  }

  /**
   * The constructor's loop over the listed rows, from predicates `ps`:
   * each row not yet tracked gets a new, shown predicate whose line ends
   * where the host says the line ends.
   */
  function Track(ps: seq<Predicate>, rows: seq<nat>, lineLength: nat -> nat): (ps': seq<Predicate>)
    requires RowsDistinct(ps)
    ensures RowsDistinct(ps')
    ensures forall row: nat :: Tracks(ps', row) <==> Tracks(ps, row) || row in rows
    ensures |ps| <= |ps'| && ps'[..|ps|] == ps
    ensures forall k | |ps| <= k < |ps'| :: !Hidden(ps'[k]) && ps'[k].endColumn == lineLength(ps'[k].row)
    decreases |rows|
  {
    if rows == [] then ps
    else
      var ps1 := TrackOne(ps, rows[0], lineLength);
      var ps' := Track(ps1, rows[1..], lineLength);
      assert forall row :: row in rows <==> row == rows[0] || row in rows[1..];
      PrefixCompose(ps, ps1, ps');
      ps'
  }

  lemma PrefixCompose<T>(a: seq<T>, b: seq<T>, c: seq<T>)
    requires |a| <= |b| <= |c| && b[..|a|] == a && c[..|b|] == b
    ensures c[..|a|] == a
    ensures forall k | |a| <= k < |b| :: c[k] == b[k]
  {
    assert c[..|a|] == c[..|b|][..|a|];
    forall k | |a| <= k < |b| ensures c[k] == b[k] {
      assert c[..|b|][k] == c[k];
    }
  }

  /** `new Predicates(rows)`: one shown predicate per distinct row, in the order rows are first listed. */
  function NewGroup(rows: seq<nat>, lineLength: nat -> nat): (g: Group)
    ensures RowsDistinct(g.members)
    ensures forall row: nat :: HasRow(g, row) <==> row in rows
    ensures forall k | 0 <= k < |g.members| :: !Hidden(g.members[k])
    ensures forall k | 0 <= k < |g.members| :: g.members[k].endColumn == lineLength(g.members[k].row)
  {
    Group(Track([], rows, lineLength))
  }

  /** The loop of `hasRows` over the listed rows: each must be tracked. */
  function AllTracked(g: Group, rows: seq<nat>): (r: bool)
    ensures r <==> forall i | 0 <= i < |rows| :: HasRow(g, rows[i])
  {
    if rows == [] then true
    else if !HasRow(g, rows[0]) then false
    else
      assert forall i | 0 < i < |rows| :: rows[i] == rows[1..][i - 1];
      AllTracked(g, rows[1..])
  }

  /** `hasRows`: the same number of rows as members, and each listed row tracked. */
  function HasRows(g: Group, rows: seq<nat>): (r: bool)
    ensures r <==> |rows| == |g.members| && forall i | 0 <= i < |rows| :: HasRow(g, rows[i])
  {
    if |rows| != |g.members| then false else AllTracked(g, rows)
  }

  function RowsOf(ps: seq<Predicate>): (rows: seq<nat>)
    ensures |rows| == |ps|
    ensures forall k | 0 <= k < |ps| :: rows[k] == ps[k].row
  {
    seq(|ps|, k requires 0 <= k < |ps| => ps[k].row)
  }

  /** The elements of s, as a set. */
  function Elems(s: seq<nat>): (e: set<nat>)
    ensures forall x :: x in e <==> x in s
  {
    if s == [] then {} else {s[0]} + Elems(s[1..])
  }

  lemma NoRepeatsTail(s: seq<nat>)
    requires s != [] && NoRepeats(s)
    ensures NoRepeats(s[1..]) && s[0] !in s[1..]
  {
    var tail := s[1..];
    forall i, j | 0 <= i < j < |tail| ensures tail[i] != tail[j] {
      assert tail[i] == s[i + 1] && tail[j] == s[j + 1];
    }
    forall k | 0 <= k < |tail| ensures tail[k] != s[0] {
      assert tail[k] == s[k + 1];
    }
  }

  /** A sequence without repeats has as many distinct elements as it is long. */
  lemma {:induction false} DistinctCount(s: seq<nat>)
    requires NoRepeats(s)
    ensures |Elems(s)| == |s|
  {
    if s != [] {
      NoRepeatsTail(s);
      DistinctCount(s[1..]);
      assert s[0] !in Elems(s[1..]);
    }
  }

  lemma SubsetSameSize(a: set<nat>, b: set<nat>)
    requires a <= b && |a| == |b|
    ensures a == b
  {
    assert |b - a| == |b| - |a|;
  }

  /** The rows a group tracks are the elements of its row list, and they do not repeat. */
  lemma OwnRows(g: Group)
    requires RowsDistinct(g.members)
    ensures NoRepeats(RowsOf(g.members))
    ensures |Elems(RowsOf(g.members))| == |g.members|
    ensures forall r: nat :: r in Elems(RowsOf(g.members)) <==> HasRow(g, r)
  {
    var own := RowsOf(g.members);
    assert NoRepeats(own);
    DistinctCount(own);
    forall r: nat ensures r in Elems(own) <==> HasRow(g, r) {
      if HasRow(g, r) {
        var k :| 0 <= k < |g.members| && g.members[k].row == r;
        assert own[k] == r;
      }
    }
  }

  lemma HasRowsGivesSameRows(g: Group, rows: seq<nat>)
    requires RowsDistinct(g.members) && NoRepeats(rows) && HasRows(g, rows)
    ensures Elems(rows) == Elems(RowsOf(g.members))
  {
    OwnRows(g);
    DistinctCount(rows);
    SubsetSameSize(Elems(rows), Elems(RowsOf(g.members)));
  }

  lemma SameRowsGivesHasRows(g: Group, rows: seq<nat>)
    requires RowsDistinct(g.members) && NoRepeats(rows)
    requires Elems(rows) == Elems(RowsOf(g.members))
    ensures HasRows(g, rows)
  {
    OwnRows(g);
    DistinctCount(rows);
    forall i | 0 <= i < |rows| ensures HasRow(g, rows[i]) {
      assert rows[i] in Elems(rows);
    }
  }

  /**
   * For a group without repeated rows and a list without repeated rows,
   * `hasRows` holds exactly when the list names the group's rows.
   */
  lemma HasRowsIffSameRows(g: Group, rows: seq<nat>)
    requires RowsDistinct(g.members) && NoRepeats(rows)
    ensures HasRows(g, rows) <==> Elems(rows) == Elems(RowsOf(g.members))
  {
    if HasRows(g, rows) {
      HasRowsGivesSameRows(g, rows);
    }
    if Elems(rows) == Elems(RowsOf(g.members)) {
      SameRowsGivesHasRows(g, rows);
    }
  }

  /** `hasRows` is not fooled by order: any listing of a group's rows is accepted. */
  lemma HasOwnRows(g: Group)
    ensures HasRows(g, RowsOf(g.members))
  {
    forall i | 0 <= i < |g.members| ensures HasRow(g, RowsOf(g.members)[i]) {
      assert g.members[i].row == RowsOf(g.members)[i];
    }
  }

  /** `findPredicateForRow`: the first member at the row. */
  function FindPredicateForRow(g: Group, row: nat): (r: Option<nat>)
    ensures r.None? <==> !HasRow(g, row)
    ensures r.Some? ==> r.value < |g.members| && g.members[r.value].row == row
    ensures r.Some? ==> forall k | 0 <= k < r.value :: g.members[k].row != row
  {
    FirstAtRow(g.members, row, 0)
  }

  function FirstAtRow(ps: seq<Predicate>, row: nat, i: nat): (r: Option<nat>)
    requires i <= |ps|
    requires forall k | 0 <= k < i :: ps[k].row != row
    ensures r.None? <==> !Tracks(ps, row)
    ensures r.Some? ==> r.value < |ps| && ps[r.value].row == row
    ensures r.Some? ==> forall k | 0 <= k < r.value :: ps[k].row != row
    decreases |ps| - i
  {
    if i == |ps| then None
    else if ps[i].row == row then Some(i)
    else FirstAtRow(ps, row, i + 1)
  }

  /** Member j is shown in ps and hidden in qs: `hide` gave it a new fold. */
  predicate NewFold(ps: seq<Predicate>, qs: seq<Predicate>, j: int) {
    0 <= j < |ps| && j < |qs| && !Hidden(ps[j]) && Hidden(qs[j])
  }

  /** The new folds of qs are numbered upward in member order, so no two are the same. */
  predicate FoldsIncreasing(ps: seq<Predicate>, qs: seq<Predicate>) {
    forall j, i | 0 <= j < i < |qs| && NewFold(ps, qs, j) && NewFold(ps, qs, i) :: qs[j].fold.value < qs[i].fold.value
  }

  /** Every new fold of qs is numbered below every new fold of qs'. */
  predicate FoldsBelow(ps: seq<Predicate>, qs: seq<Predicate>, ps': seq<Predicate>, qs': seq<Predicate>) {
    forall j, i | 0 <= j < |qs| && 0 <= i < |qs'| && NewFold(ps, qs, j) && NewFold(ps', qs', i) ::
      qs[j].fold.value < qs'[i].fold.value
  }

  /** `Predicates.hide`: every member hidden, shown ones getting fresh folds in member order. */
  function HideMembers(ps: seq<Predicate>, next: nat): (r: (seq<Predicate>, nat))
    ensures SameLines(r.0, ps)
    ensures forall k | 0 <= k < |ps| :: Hidden(r.0[k])
    ensures forall k | 0 <= k < |ps| && Hidden(ps[k]) :: r.0[k] == ps[k]
    ensures forall k | 0 <= k < |ps| && !Hidden(ps[k]) :: next <= r.0[k].fold.value < r.1
    ensures next <= r.1
    ensures r.1 - next == |ps| - CountHidden(ps)
  {
    if ps == [] then ([], next)
    else
      var h := HidePredicate(ps[0], next);
      var rest := HideMembers(ps[1..], h.1);
      assert forall k | 0 < k < |ps| :: ps[k] == ps[1..][k - 1];
      ([h.0] + rest.0, rest.1)
  }

  /** The new folds `hide` hands out increase in member order, so no two members share one. */
  lemma {:induction false} HideMembersIncreasing(ps: seq<Predicate>, next: nat)
    ensures FoldsIncreasing(ps, HideMembers(ps, next).0)
    decreases |ps|
  {
    if ps != [] {
      var h := HidePredicate(ps[0], next);
      var rest := HideMembers(ps[1..], h.1);
      HideMembersIncreasing(ps[1..], h.1);
      assert forall k | 0 <= k < |rest.0| && NewFold(ps[1..], rest.0, k) :: h.1 <= rest.0[k].fold.value;
      FoldsIncreasingCons(ps, h.0, h.1, rest.0);
    }
  }

  /** A first new fold below every later new fold keeps the new folds increasing. */
  lemma FoldsIncreasingCons(ps: seq<Predicate>, q: Predicate, lo: nat, qs: seq<Predicate>)
    requires ps != [] && |qs| == |ps| - 1
    requires !Hidden(ps[0]) && Hidden(q) ==> q.fold.value < lo
    requires forall k | 0 <= k < |qs| && NewFold(ps[1..], qs, k) :: lo <= qs[k].fold.value
    requires FoldsIncreasing(ps[1..], qs)
    ensures FoldsIncreasing(ps, [q] + qs)
  {
    var r := [q] + qs;
    forall j, i | 0 <= j < i < |r| && NewFold(ps, r, j) && NewFold(ps, r, i)
      ensures r[j].fold.value < r[i].fold.value
    {
      assert r[i] == qs[i - 1] && ps[i] == ps[1..][i - 1];
      assert NewFold(ps[1..], qs, i - 1);
      if j > 0 {
        assert r[j] == qs[j - 1] && ps[j] == ps[1..][j - 1];
        assert NewFold(ps[1..], qs, j - 1);
      }
    }
  }

  /** `Predicates.show`: no member hidden, and the folds released are exactly the ones held. */
  function ShowMembers(ps: seq<Predicate>): (r: (seq<Predicate>, seq<nat>))
    ensures SameLines(r.0, ps)
    ensures forall k | 0 <= k < |ps| :: !Hidden(r.0[k])
    ensures forall k | 0 <= k < |ps| && !Hidden(ps[k]) :: r.0[k] == ps[k]
    ensures forall f :: f in r.1 <==> exists k | 0 <= k < |ps| :: ps[k].fold == Some(f)
    ensures |r.1| == CountHidden(ps)
  {
    if ps == [] then ([], [])
    else
      var s := ShowPredicate(ps[0]);
      var rest := ShowMembers(ps[1..]);
      assert forall k | 0 < k < |ps| :: ps[k] == ps[1..][k - 1];
      var released := (if Hidden(ps[0]) then [ps[0].fold.value] else []) + rest.1;
      ([s.0] + rest.0, released)
  }

  /** `Predicates.hide` on a group: the shown members get one new fold each, numbered upward from `next`. */
  function HideGroup(g: Group, next: nat): (r: (Group, nat))
    ensures GroupHidden(r.0) && SameLines(r.0.members, g.members)
    ensures next <= r.1
    ensures forall k | 0 <= k < |g.members| && !Hidden(g.members[k]) :: next <= r.0.members[k].fold.value < r.1
    ensures forall k | 0 <= k < |g.members| && Hidden(g.members[k]) :: r.0.members[k] == g.members[k]
    ensures FoldsIncreasing(g.members, r.0.members)
  {
    var h := HideMembers(g.members, next);
    HideMembersIncreasing(g.members, next);
    (Group(h.0), h.1)
  }

  function ShowGroup(g: Group): (r: Group)
    ensures SameLines(r.members, g.members)
    ensures forall k | 0 <= k < |r.members| :: !Hidden(r.members[k])
  {
    Group(ShowMembers(g.members).0)
  }

  /** `Predicates.destroy`: the folds handed back are exactly those the members held. */
  function DestroyGroup(g: Group): (released: seq<nat>)
    ensures forall f :: f in released <==> exists k | 0 <= k < |g.members| :: g.members[k].fold == Some(f)
    ensures |released| == CountHidden(g.members)
  {
    ShowMembers(g.members).1
  }

  /** Hiding then showing a group leaves its members shown and gives back every fold. */
  lemma HideThenShowGroup(g: Group, next: nat)
    ensures var h := HideGroup(g, next);
      && ShowGroup(h.0).members == seq(|g.members|, k requires 0 <= k < |g.members| => g.members[k].(fold := None))
  {
    var h := HideGroup(g, next);
    var s := ShowGroup(h.0);
    assert |s.members| == |g.members|;
    forall k | 0 <= k < |g.members| ensures s.members[k] == g.members[k].(fold := None) {
      assert SameLine(s.members[k], h.0.members[k]) && SameLine(h.0.members[k], g.members[k]);
    }
  }

  // ---------------------------------------------------------------------
  // The suppressor
  // ---------------------------------------------------------------------

  datatype State = State(groups: seq<Group>, expected: Option<Point>, nextFold: nat)

  /** Every fold held is below the host's next fold id, and no group tracks a row twice. */
  predicate Valid(st: State) {
    && (forall k | 0 <= k < |st.groups| :: RowsDistinct(st.groups[k].members))
    && (forall k, j | 0 <= k < |st.groups| && 0 <= j < |st.groups[k].members| ::
          st.groups[k].members[j].fold.Some? ==> st.groups[k].members[j].fold.value < st.nextFold)
  }

  /** Group by group, the same lines. */
  predicate SameShape(gs: seq<Group>, hs: seq<Group>) {
    |gs| == |hs| && forall k | 0 <= k < |gs| :: SameLines(gs[k].members, hs[k].members)
  }

  /** Members on the same lines as members without repeated rows have no repeated rows. */
  lemma SameLinesDistinct(a: seq<Predicate>, b: seq<Predicate>)
    requires SameLines(a, b) && RowsDistinct(b)
    ensures RowsDistinct(a)
  {
    forall i, j | 0 <= i < j < |a| ensures a[i].row != a[j].row {
      assert SameLine(a[i], b[i]) && SameLine(a[j], b[j]);
    }
  }

  lemma SameShapeDistinct(gs: seq<Group>, hs: seq<Group>)
    requires SameShape(gs, hs) && forall k | 0 <= k < |hs| :: RowsDistinct(hs[k].members)
    ensures forall k | 0 <= k < |gs| :: RowsDistinct(gs[k].members)
  {
    forall k | 0 <= k < |gs| ensures RowsDistinct(gs[k].members) {
      SameLinesDistinct(gs[k].members, hs[k].members);
    }
  }

  lemma SameLinesHasRow(g: Group, h: Group, row: nat)
    requires SameLines(g.members, h.members)
    ensures HasRow(g, row) <==> HasRow(h, row)
  {
    if HasRow(g, row) {
      var k :| 0 <= k < |g.members| && g.members[k].row == row;
      assert h.members[k].row == row;
    }
    if HasRow(h, row) {
      var k :| 0 <= k < |h.members| && h.members[k].row == row;
      assert g.members[k].row == row;
    }
  }

  /** `findPredicatesForRow`: the first group tracking the row. */
  function FindGroupForRow(gs: seq<Group>, row: nat, i: nat): (r: Option<nat>)
    requires i <= |gs|
    requires forall k | 0 <= k < i :: !HasRow(gs[k], row)
    ensures r.None? <==> forall k | 0 <= k < |gs| :: !HasRow(gs[k], row)
    ensures r.Some? ==> r.value < |gs| && HasRow(gs[r.value], row)
    ensures r.Some? ==> forall k | 0 <= k < r.value :: !HasRow(gs[k], row)
    decreases |gs| - i
  {
    if i == |gs| then None
    else if HasRow(gs[i], row) then Some(i)
    else FindGroupForRow(gs, row, i + 1)
  }

  /** `findPredicateForRows`: the first group that `hasRows` accepts. */
  function FindGroupForRows(gs: seq<Group>, rows: seq<nat>, i: nat): (r: Option<nat>)
    requires i <= |gs|
    requires forall k | 0 <= k < i :: !HasRows(gs[k], rows)
    ensures r.None? <==> forall k | 0 <= k < |gs| :: !HasRows(gs[k], rows)
    ensures r.Some? ==> r.value < |gs| && HasRows(gs[r.value], rows)
    ensures r.Some? ==> forall k | 0 <= k < r.value :: !HasRows(gs[k], rows)
    decreases |gs| - i
  {
    if i == |gs| then None
    else if HasRows(gs[i], rows) then Some(i)
    else FindGroupForRows(gs, rows, i + 1)
  }

  /**
   * `add(...rows)`: nothing changes when some group already has exactly
   * these rows; otherwise a new group of the rows is appended, all hidden.
   */
  function Add(st: State, rows: seq<nat>, lineLength: nat -> nat): (st': State)
    requires Valid(st)
    ensures Valid(st')
    ensures (exists k | 0 <= k < |st.groups| :: HasRows(st.groups[k], rows)) ==> st' == st
    ensures (forall k | 0 <= k < |st.groups| :: !HasRows(st.groups[k], rows)) ==>
      && |st'.groups| == |st.groups| + 1
      && st'.groups[..|st.groups|] == st.groups
      && GroupHidden(st'.groups[|st.groups|])
      && (forall row: nat :: HasRow(st'.groups[|st.groups|], row) <==> row in rows)
      && st'.expected == st.expected
  {
    if FindGroupForRows(st.groups, rows, 0).Some? then st
    else
      var h := NewHiddenGroup(rows, lineLength, st.nextFold);
      var st' := State(st.groups + [h.0], st.expected, h.1);
      assert st'.groups[..|st.groups|] == st.groups;
      assert forall k | 0 <= k < |st.groups| :: st'.groups[k] == st.groups[k];
      st'
  }

  /** The group `add` makes for the rows, hidden at once: its folds are the host's next ids from `next` on. */
  function NewHiddenGroup(rows: seq<nat>, lineLength: nat -> nat, next: nat): (r: (Group, nat))
    ensures RowsDistinct(r.0.members) && GroupHidden(r.0)
    ensures forall row: nat :: HasRow(r.0, row) <==> row in rows
    ensures next <= r.1
    ensures forall j | 0 <= j < |r.0.members| :: r.0.members[j].fold.Some? ==> r.0.members[j].fold.value < r.1
  {
    var g := NewGroup(rows, lineLength);
    var h := HideGroup(g, next);
    forall row: nat ensures HasRow(h.0, row) <==> HasRow(g, row) {
      SameLinesHasRow(h.0, g, row);
    }
    SameLinesDistinct(h.0.members, g.members);
    h
  }

  /** Hide group i, as `displayLine` does with the group at the row the cursor left. */
  function HideGroupAt(st: State, i: nat): (st': State)
    requires i < |st.groups| && Valid(st)
    ensures Valid(st') && st'.expected == st.expected
    ensures SameShape(st'.groups, st.groups)
    ensures GroupHidden(st'.groups[i])
    ensures forall k | 0 <= k < |st.groups| && k != i :: st'.groups[k] == st.groups[k]
  {
    var h := HideGroup(st.groups[i], st.nextFold);
    var st' := st.(groups := st.groups[i := h.0], nextFold := h.1);
    SameLinesDistinct(h.0.members, st.groups[i].members);
    st'
  }

  /** Every group not tracking the row hidden, in order: the new folds are numbered upward from `next`, group by group. */
  function HideAllExcept(gs: seq<Group>, row: nat, next: nat): (r: (seq<Group>, nat))
    ensures SameShape(r.0, gs)
    ensures next <= r.1
    ensures forall k | 0 <= k < |gs| && HasRow(gs[k], row) :: r.0[k] == gs[k]
    ensures forall k | 0 <= k < |gs| && !HasRow(gs[k], row) :: GroupHidden(r.0[k])
    ensures forall k | 0 <= k < |gs| :: KeptOrBetween(r.0[k], gs[k], next, r.1)
    ensures forall k | 0 <= k < |gs| :: FoldsIncreasing(gs[k].members, r.0[k].members)
    ensures forall k, l | 0 <= k < l < |gs| :: FoldsBelow(gs[k].members, r.0[k].members, gs[l].members, r.0[l].members)
  {
    if gs == [] then ([], next)
    else
      var h := if HasRow(gs[0], row) then (gs[0], next) else HideGroup(gs[0], next);
      var rest := HideAllExcept(gs[1..], row, h.1);
      HideAllExceptCons(gs, row, next, h, rest);
      HideAllExceptOrder(gs, row, next, h, rest);
      ([h.0] + rest.0, rest.1)
  }

  /** Each fold h holds is g's fold at the same place, or a new one numbered from lo up to hi. */
  predicate KeptOrBetween(h: Group, g: Group, lo: nat, hi: nat) {
    forall j | 0 <= j < |g.members| && j < |h.members| ::
      h.members[j].fold.Some? ==> h.members[j].fold == g.members[j].fold || lo <= h.members[j].fold.value < hi
  }

  lemma HideAllExceptCons(gs: seq<Group>, row: nat, next: nat, h: (Group, nat), rest: (seq<Group>, nat))
    requires gs != []
    requires h == if HasRow(gs[0], row) then (gs[0], next) else HideGroup(gs[0], next)
    requires SameShape(rest.0, gs[1..]) && h.1 <= rest.1
    requires forall k | 0 <= k < |gs| - 1 && HasRow(gs[1..][k], row) :: rest.0[k] == gs[1..][k]
    requires forall k | 0 <= k < |gs| - 1 && !HasRow(gs[1..][k], row) :: GroupHidden(rest.0[k])
    requires forall k | 0 <= k < |gs| - 1 :: KeptOrBetween(rest.0[k], gs[1..][k], h.1, rest.1)
    ensures var r := [h.0] + rest.0;
      && SameShape(r, gs)
      && next <= rest.1
      && (forall k | 0 <= k < |gs| && HasRow(gs[k], row) :: r[k] == gs[k])
      && (forall k | 0 <= k < |gs| && !HasRow(gs[k], row) :: GroupHidden(r[k]))
      && (forall k | 0 <= k < |gs| :: KeptOrBetween(r[k], gs[k], next, rest.1))
  {
    var r := [h.0] + rest.0;
    assert KeptOrBetween(h.0, gs[0], next, h.1);
    forall k | 0 < k < |gs| ensures r[k] == rest.0[k - 1] && gs[k] == gs[1..][k - 1] {
    }
  }

  /** The order of new folds carries over from the rest of the groups to the whole. */
  lemma HideAllExceptOrder(gs: seq<Group>, row: nat, next: nat, h: (Group, nat), rest: (seq<Group>, nat))
    requires gs != []
    requires h == if HasRow(gs[0], row) then (gs[0], next) else HideGroup(gs[0], next)
    requires SameShape(rest.0, gs[1..])
    requires forall k | 0 <= k < |gs| - 1 :: KeptOrBetween(rest.0[k], gs[1..][k], h.1, rest.1)
    requires forall k | 0 <= k < |gs| - 1 :: FoldsIncreasing(gs[1..][k].members, rest.0[k].members)
    requires forall k, l | 0 <= k < l < |gs| - 1 :: FoldsBelow(gs[1..][k].members, rest.0[k].members, gs[1..][l].members, rest.0[l].members)
    ensures var r := [h.0] + rest.0;
      && (forall k | 0 <= k < |gs| :: FoldsIncreasing(gs[k].members, r[k].members))
      && (forall k, l | 0 <= k < l < |gs| :: FoldsBelow(gs[k].members, r[k].members, gs[l].members, r[l].members))
  {
    assert gs == [gs[0]] + gs[1..];
    assert KeptOrBetween(h.0, gs[0], next, h.1);
    ConsIncreasing(gs[0], h.0, gs[1..], rest.0);
    ConsBelow(gs[0], h.0, gs[1..], rest.0, next, h.1, rest.1);
  }

  /** Prepending a group whose new folds increase keeps every group's new folds increasing. */
  lemma ConsIncreasing(g: Group, h: Group, gs: seq<Group>, hs: seq<Group>)
    requires |hs| == |gs| && FoldsIncreasing(g.members, h.members)
    requires forall k | 0 <= k < |gs| :: FoldsIncreasing(gs[k].members, hs[k].members)
    ensures forall k | 0 <= k < |gs| + 1 :: FoldsIncreasing(([g] + gs)[k].members, ([h] + hs)[k].members)
  {
    forall k | 0 < k < |gs| + 1 ensures FoldsIncreasing(([g] + gs)[k].members, ([h] + hs)[k].members) {
      assert ([g] + gs)[k] == gs[k - 1] && ([h] + hs)[k] == hs[k - 1];
    }
  }

  /** Prepending a group whose new folds lie below all later ones keeps the groups ordered. */
  lemma ConsBelow(g: Group, h: Group, gs: seq<Group>, hs: seq<Group>, lo: nat, mid: nat, hi: nat)
    requires |hs| == |gs| && KeptOrBetween(h, g, lo, mid)
    requires forall k | 0 <= k < |gs| :: KeptOrBetween(hs[k], gs[k], mid, hi)
    requires forall k, l | 0 <= k < l < |gs| :: FoldsBelow(gs[k].members, hs[k].members, gs[l].members, hs[l].members)
    ensures forall k, l | 0 <= k < l < |gs| + 1 :: FoldsBelow(([g] + gs)[k].members, ([h] + hs)[k].members, ([g] + gs)[l].members, ([h] + hs)[l].members)
  {
    var g2, h2 := [g] + gs, [h] + hs;
    forall k | 0 < k < |gs| + 1 ensures g2[k] == gs[k - 1] && h2[k] == hs[k - 1] {
    }
    forall l | 0 < l < |gs| + 1 ensures FoldsBelow(g.members, h.members, g2[l].members, h2[l].members) {
      BetweenBelow(g, h, gs[l - 1], hs[l - 1], lo, mid, hi);
    }
    forall k, l | 0 < k < l < |gs| + 1 ensures FoldsBelow(g2[k].members, h2[k].members, g2[l].members, h2[l].members) {
      assert FoldsBelow(gs[k - 1].members, hs[k - 1].members, gs[l - 1].members, hs[l - 1].members);
    }
  }

  /** New folds from [lo, mid) lie below new folds from [mid, hi). */
  lemma BetweenBelow(g: Group, h: Group, g': Group, h': Group, lo: nat, mid: nat, hi: nat)
    requires KeptOrBetween(h, g, lo, mid) && KeptOrBetween(h', g', mid, hi)
    ensures FoldsBelow(g.members, h.members, g'.members, h'.members)
  {
  }

  /** Every group tracking the row shown. */
  function ShowAt(gs: seq<Group>, row: nat): (r: seq<Group>)
    ensures SameShape(r, gs)
    ensures forall k | 0 <= k < |gs| && !HasRow(gs[k], row) :: r[k] == gs[k]
    ensures forall k | 0 <= k < |gs| && HasRow(gs[k], row) ::
      forall j | 0 <= j < |r[k].members| :: !Hidden(r[k].members[j])
  {
    seq(|gs|, k requires 0 <= k < |gs| => if HasRow(gs[k], row) then ShowGroup(gs[k]) else gs[k])
  }

  /** `PredicateSuppressor.hide`: with an expected position, every group not at its row hidden. */
  function Hide(st: State): (st': State)
    requires Valid(st)
    ensures Valid(st') && st'.expected == st.expected
    ensures SameShape(st'.groups, st.groups)
    ensures st.expected.None? ==> st' == st
    ensures st.expected.Some? ==>
      forall k | 0 <= k < |st.groups| ::
        if HasRow(st.groups[k], st.expected.value.row) then st'.groups[k] == st.groups[k]
        else GroupHidden(st'.groups[k])
  {
    match st.expected
    case None => st
    case Some(p) =>
      var h := HideAllExcept(st.groups, p.row, st.nextFold);
      var st' := st.(groups := h.0, nextFold := h.1);
      SameShapeDistinct(st'.groups, st.groups);
      st'
  }

  /** `PredicateSuppressor.show`: with an expected position, every group at its row shown. */
  function Show(st: State): (st': State)
    requires Valid(st)
    ensures Valid(st') && st'.expected == st.expected && st'.nextFold == st.nextFold
    ensures SameShape(st'.groups, st.groups)
    ensures st.expected.None? ==> st' == st
    ensures st.expected.Some? ==>
      forall k | 0 <= k < |st.groups| ::
        if HasRow(st.groups[k], st.expected.value.row)
        then forall j | 0 <= j < |st'.groups[k].members| :: !Hidden(st'.groups[k].members[j])
        else st'.groups[k] == st.groups[k]
  {
    match st.expected
    case None => st
    case Some(p) =>
      var gs := ShowAt(st.groups, p.row);
      var st' := st.(groups := gs);
      SameShapeDistinct(st'.groups, st.groups);
      st'
  }

  /** One row toward the new row from the old one, or the old row when they agree. */
  function TargetRow(old_: Point, new_: Point): (row: nat)
    ensures new_.row > old_.row ==> row == old_.row + 1
    ensures new_.row < old_.row ==> row == old_.row - 1
    ensures new_.row == old_.row ==> row == old_.row
  {
    var direction := if new_.row > old_.row then 1 else if new_.row < old_.row then -1 else 0;
    old_.row + direction
  }

  /**
   * `adjustedCursorPosition`: if a group tracks the row one step from the
   * old row toward the new one, the cursor goes to that row, at the new
   * column or the predicate line's end, whichever is smaller; otherwise
   * the new position stands.
   */
  function AdjustedCursorPosition(gs: seq<Group>, old_: Point, new_: Point): (p: Point)
    ensures var row := TargetRow(old_, new_);
      match FindGroupForRow(gs, row, 0)
      case None => p == new_
      case Some(i) =>
        var end := gs[i].members[FindPredicateForRow(gs[i], row).value].endColumn;
        && p.row == row
        && p.column <= new_.column && p.column <= end
        && (p.column == new_.column || p.column == end)
    ensures (forall k | 0 <= k < |gs| :: !HasRow(gs[k], TargetRow(old_, new_))) ==> p == new_
  {
    var row := TargetRow(old_, new_);
    match FindGroupForRow(gs, row, 0)
    case None => new_
    case Some(i) =>
      var pred := gs[i].members[FindPredicateForRow(gs[i], row).value];
      Point(row, if new_.column > pred.endColumn then pred.endColumn else new_.column)
  }

  /** Every member shown. */
  predicate GroupShown(g: Group) {
    forall j | 0 <= j < |g.members| :: !Hidden(g.members[j])
  }

  /** Group by group, the same lines means the same rows tracked. */
  lemma SameShapeHasRow(gs: seq<Group>, hs: seq<Group>, row: nat)
    requires SameShape(gs, hs)
    ensures forall k | 0 <= k < |gs| :: HasRow(gs[k], row) <==> HasRow(hs[k], row)
  {
    forall k | 0 <= k < |gs| ensures HasRow(gs[k], row) <==> HasRow(hs[k], row) {
      SameLinesHasRow(gs[k], hs[k], row);
    }
  }

  lemma SameShapeTrans(as_: seq<Group>, bs: seq<Group>, cs: seq<Group>)
    requires SameShape(as_, bs) && SameShape(bs, cs)
    ensures SameShape(as_, cs)
  {
    forall k | 0 <= k < |as_| ensures SameLines(as_[k].members, cs[k].members) {
      assert SameLines(as_[k].members, bs[k].members) && SameLines(bs[k].members, cs[k].members);
    }
  }

  /** The first group tracking the row left behind is hidden, if there is one. */
  function LeaveRow(st: State, row: nat): (st': State)
    requires Valid(st)
    ensures Valid(st') && st'.expected == st.expected
    ensures SameShape(st'.groups, st.groups)
    ensures match FindGroupForRow(st.groups, row, 0)
      case Some(i) => GroupHidden(st'.groups[i]) && forall k | 0 <= k < |st.groups| && k != i :: st'.groups[k] == st.groups[k]
      case None => st' == st
  {
    match FindGroupForRow(st.groups, row, 0)
    case Some(i) => HideGroupAt(st, i)
    case None => st
  }

  /** `hide` then `show` around the expected position: groups at its row shown, every other one hidden. */
  function Reposition(st: State): (st': State)
    requires Valid(st) && st.expected.Some?
    ensures Valid(st') && st'.expected == st.expected
    ensures SameShape(st'.groups, st.groups)
    ensures forall k | 0 <= k < |st.groups| ::
      if HasRow(st.groups[k], st.expected.value.row) then GroupShown(st'.groups[k]) else GroupHidden(st'.groups[k])
  {
    var st3 := Hide(st);
    var st4 := Show(st3);
    SameShapeHasRow(st3.groups, st.groups, st.expected.value.row);
    SameShapeTrans(st4.groups, st3.groups, st.groups);
    st4
  }

  /** After a cursor event: the suppressor's next state, and where it moves the cursor, if anywhere. */
  datatype Reaction = Reaction(state: State, moveTo: Option<Point>)

  /**
   * `displayLine`: the cursor moved from `old_` to `new_`.
   *  - The event the suppressor caused itself (at the expected position) is
   *    swallowed: the expectation is cleared and nothing else changes.
   *  - A move within a row clears the expectation and changes nothing else.
   *  - Otherwise the group at the row left is hidden and the adjusted
   *    position computed. If it differs from the new position, the groups
   *    are re-hidden and re-shown around it and the cursor is moved there,
   *    the expectation kept; if not, the expectation is cleared.
   */
  function DisplayLine(st: State, old_: Point, new_: Point): (r: Reaction)
    requires Valid(st)
    ensures Valid(r.state)
    ensures SameShape(r.state.groups, st.groups)
    ensures st.expected == Some(new_) ==> r == Reaction(st.(expected := None), None)
    ensures st.expected != Some(new_) && old_.row == new_.row ==> r == Reaction(st.(expected := None), None)
    ensures r.moveTo.Some? ==>
      && st.expected != Some(new_) && old_.row != new_.row
      && r.moveTo.value != new_
      && r.state.expected == r.moveTo
      && forall k | 0 <= k < |st.groups| ::
           if HasRow(st.groups[k], r.moveTo.value.row) then GroupShown(r.state.groups[k]) else GroupHidden(r.state.groups[k])
    ensures r.moveTo.None? ==> r.state.expected.None?
    ensures st.expected != Some(new_) && old_.row != new_.row ==>
      var left := LeaveRow(st, old_.row);
      var adjusted := AdjustedCursorPosition(left.groups, old_, new_);
      && (adjusted != new_ ==> r.moveTo == Some(adjusted))
      && (adjusted == new_ ==> r == Reaction(left.(expected := None), None))
  {
    if st.expected == Some(new_) then Reaction(st.(expected := None), None)
    else if old_.row == new_.row then Reaction(st.(expected := None), None)
    else
      var st1 := LeaveRow(st, old_.row);
      var expected := AdjustedCursorPosition(st1.groups, old_, new_);
      var st2 := st1.(expected := Some(expected));
      if expected != new_ then
        var st4 := Reposition(st2);
        SameShapeHasRow(st1.groups, st.groups, expected.row);
        SameShapeTrans(st4.groups, st1.groups, st.groups);
        Reaction(st4, Some(expected))
      else
        Reaction(st2.(expected := None), None)
  }

  /**
   * The event the suppressor's own cursor move raises is swallowed: it
   * clears the expectation and changes no fold.
   */
  lemma OwnMoveSwallowed(st: State, old_: Point, new_: Point)
    requires Valid(st)
    requires DisplayLine(st, old_, new_).moveTo.Some?
    ensures var r := DisplayLine(st, old_, new_);
      DisplayLine(r.state, new_, r.moveTo.value) == Reaction(r.state.(expected := None), None)
  {
  }

  /**
   * When the cursor leaves a row and is not moved, the first group
   * tracking the row it left ends up hidden.
   */
  lemma LeftRowHidden(st: State, old_: Point, new_: Point, i: nat)
    requires Valid(st)
    requires st.expected != Some(new_) && old_.row != new_.row
    requires i < |st.groups| && HasRow(st.groups[i], old_.row)
    requires forall k | 0 <= k < i :: !HasRow(st.groups[k], old_.row)
    requires DisplayLine(st, old_, new_).moveTo.None?
    ensures GroupHidden(DisplayLine(st, old_, new_).state.groups[i])
  {
    var f := FindGroupForRow(st.groups, old_.row, 0);
    assert f == Some(i);
  }

  /** A group tracking exactly the rows of a list without repeats passes `hasRows` for that list. */
  lemma ListedRowsHasRows(g: Group, rows: seq<nat>)
    requires RowsDistinct(g.members) && NoRepeats(rows)
    requires forall row: nat :: HasRow(g, row) <==> row in rows
    ensures HasRows(g, rows)
  {
    OwnRows(g);
    assert Elems(rows) == Elems(RowsOf(g.members));
    SameRowsGivesHasRows(g, rows);
  }

  /** Adding the same rows a second time changes nothing. */
  lemma AddTwice(st: State, rows: seq<nat>, lineLength: nat -> nat)
    requires Valid(st) && NoRepeats(rows)
    ensures Add(Add(st, rows, lineLength), rows, lineLength) == Add(st, rows, lineLength)
  {
    var st1 := Add(st, rows, lineLength);
    if forall k | 0 <= k < |st.groups| :: !HasRows(st.groups[k], rows) {
      var n := |st.groups|;
      assert RowsDistinct(st1.groups[n].members);
      ListedRowsHasRows(st1.groups[n], rows);
    }
  }

  /** A listed row repeated: the group tracks it once, so `hasRows` rejects the same list and `add` appends again. */
  lemma AddRepeatedRowsAgain(st: State, row: nat, lineLength: nat -> nat)
    requires Valid(st) && st.groups == []
    ensures |Add(Add(st, [row, row], lineLength), [row, row], lineLength).groups| == 2
  {
    var st1 := Add(st, [row, row], lineLength);
    assert |st1.groups| == 1;
    var g := st1.groups[0];
    assert forall r: nat :: HasRow(g, r) <==> r == row;
    OneRowOneMember(g, row);
    assert !HasRows(g, [row, row]);
  }

  /** A group without repeated rows that tracks exactly one row has exactly one member. */
  lemma OneRowOneMember(g: Group, row: nat)
    requires RowsDistinct(g.members)
    requires forall r: nat :: HasRow(g, r) <==> r == row
    ensures |g.members| == 1
  {
    assert HasRow(g, row);
    forall j | 0 <= j < |g.members| ensures g.members[j].row == row {
      assert HasRow(g, g.members[j].row);
    }
    CountAllAtRow(g.members, row);
    CountDistinctAtRow(g.members, row);
  }

  lemma {:induction false} CountAllAtRow(ps: seq<Predicate>, row: nat)
    requires forall j | 0 <= j < |ps| :: ps[j].row == row
    ensures CountAtRow(ps, row) == |ps|
  {
    if ps != [] {
      assert forall j | 0 <= j < |ps[1..]| :: ps[1..][j] == ps[j + 1];
      CountAllAtRow(ps[1..], row);
    }
  }

  /** Without repeated rows, at most one member is at any row. */
  lemma {:induction false} CountDistinctAtRow(ps: seq<Predicate>, row: nat)
    requires RowsDistinct(ps)
    ensures CountAtRow(ps, row) <= 1
  {
    if ps != [] {
      var rest := ps[1..];
      assert forall j | 0 <= j < |rest| :: rest[j] == ps[j + 1];
      CountDistinctAtRow(rest, row);
      if ps[0].row == row {
        assert !Tracks(rest, row);
      }
    }
  }
}

=== FILE: traversal.dfy ===
/**
 * Pre-order facts about the forest's collectors: `filterDimension` and
 * `filterDimensionChoice` keep exactly the matching nodes of the pre-order
 * walk, in walk order, and the second is a subsequence of the first.
 */
module Traversal {
  import opened Decorations

  /** Reference filter on a flat node list: the nodes of one dimension, in order. */
  function OfDimension(s: seq<Node>, dimension: string): (r: seq<Node>)
    ensures forall n :: n in r <==> n in s && n.deco.dimension == dimension
  {
    if |s| == 0 then []
    else (if s[0].deco.dimension == dimension then [s[0]] else []) + OfDimension(s[1..], dimension)
  }

  /** Reference filter on a flat node list: the nodes of one dimension and side, in order. */
  function OfChoice(s: seq<Node>, dimension: string, b: Branch): (r: seq<Node>)
    ensures forall n :: n in r <==> n in s && n.deco.dimension == dimension && n.deco.branch == b
  {
    if |s| == 0 then []
    else
      (if s[0].deco.dimension == dimension && s[0].deco.branch == b then [s[0]] else [])
      + OfChoice(s[1..], dimension, b)
  }

  /** a can be obtained from b by deleting elements. */
  predicate IsSubsequence<T(==)>(a: seq<T>, b: seq<T>)
    decreases |b|
  {
    |a| == 0 || (|b| > 0 && if a[0] == b[0] then IsSubsequence(a[1..], b[1..]) else IsSubsequence(a, b[1..]))
  }

  lemma {:induction false} FlattenAppend(a: Forest, b: Forest)
    ensures Flatten(a + b) == Flatten(a) + Flatten(b)
    decreases |a|
  {
    if |a| == 0 {
      assert a + b == b;
    } else {
      assert (a + b)[0] == a[0];
      assert (a + b)[1..] == a[1..] + b;
      FlattenAppend(a[1..], b);
    }
  }

  lemma {:induction false} OfDimensionAppend(a: seq<Node>, b: seq<Node>, dimension: string)
    ensures OfDimension(a + b, dimension) == OfDimension(a, dimension) + OfDimension(b, dimension)
    decreases |a|
  {
    if |a| == 0 {
      assert a + b == b;
    } else {
      assert (a + b)[1..] == a[1..] + b;
      OfDimensionAppend(a[1..], b, dimension);
    }
  }

  lemma {:induction false} OfChoiceAppend(a: seq<Node>, b: seq<Node>, dimension: string, br: Branch)
    ensures OfChoice(a + b, dimension, br) == OfChoice(a, dimension, br) + OfChoice(b, dimension, br)
    decreases |a|
  {
    if |a| == 0 {
      assert a + b == b;
    } else {
      assert (a + b)[1..] == a[1..] + b;
      OfChoiceAppend(a[1..], b, dimension, br);
    }
  }

  /** One step of the pre-order walk seen through the flat dimension filter. */
  lemma OfDimensionStep(f: Forest, dimension: string)
    requires |f| > 0
    ensures OfDimension(Flatten(f), dimension)
         == (if f[0].deco.dimension == dimension then [f[0]] else [])
            + OfDimension(Flatten(f[0].children), dimension) + OfDimension(Flatten(f[1..]), dimension)
  {
    var head, kids, rest := [f[0]], Flatten(f[0].children), Flatten(f[1..]);
    assert Flatten(f) == head + (kids + rest);
    assert head[1..] == [];
    OfDimensionAppend(head, kids + rest, dimension);
    OfDimensionAppend(kids, rest, dimension);
  }

  /** One step of the pre-order walk seen through the flat choice filter. */
  lemma OfChoiceStep(f: Forest, dimension: string, b: Branch)
    requires |f| > 0
    ensures OfChoice(Flatten(f), dimension, b)
         == (if f[0].deco.dimension == dimension && f[0].deco.branch == b then [f[0]] else [])
            + OfChoice(Flatten(f[0].children), dimension, b) + OfChoice(Flatten(f[1..]), dimension, b)
  {
    var head, kids, rest := [f[0]], Flatten(f[0].children), Flatten(f[1..]);
    assert Flatten(f) == head + (kids + rest);
    assert head[1..] == [];
    OfChoiceAppend(head, kids + rest, dimension, b);
    OfChoiceAppend(kids, rest, dimension, b);
  }

  /** `filterDimension` returns the pre-order walk restricted to the dimension. */
  lemma {:induction false} FilterDimensionIsPreOrder(f: Forest, dimension: string)
    ensures FilterDimension(f, dimension) == OfDimension(Flatten(f), dimension)
    decreases f
  {
    if |f| > 0 {
      FilterDimensionIsPreOrder(f[0].children, dimension);
      FilterDimensionIsPreOrder(f[1..], dimension);
      OfDimensionStep(f, dimension);
    }
  }

  /** `filterDimensionChoice` returns the pre-order walk restricted to the dimension and side. */
  lemma {:induction false} FilterChoiceIsPreOrder(f: Forest, dimension: string, b: Branch)
    ensures FilterDimensionChoice(f, dimension, b) == OfChoice(Flatten(f), dimension, b)
    decreases f
  {
    if |f| > 0 {
      FilterChoiceIsPreOrder(f[0].children, dimension, b);
      FilterChoiceIsPreOrder(f[1..], dimension, b);
      OfChoiceStep(f, dimension, b);
    }
  }

  lemma {:induction false} SubsequenceTail<T>(a: seq<T>, b: seq<T>)
    requires |a| > 0 && IsSubsequence(a, b)
    ensures IsSubsequence(a[1..], b)
    decreases |b|, 0
  {
    if a[0] == b[0] {
      SubsequenceExtend(a[1..], b[1..], b[0]);
      assert [b[0]] + b[1..] == b;
    } else {
      SubsequenceTail(a, b[1..]);
      SubsequenceExtend(a[1..], b[1..], b[0]);
      assert [b[0]] + b[1..] == b;
    }
  }

  lemma {:induction false} SubsequenceExtend<T>(a: seq<T>, b: seq<T>, x: T)
    requires IsSubsequence(a, b)
    ensures IsSubsequence(a, [x] + b)
    decreases |b|, 1
  {
    var xb := [x] + b;
    assert xb[1..] == b;
    if |a| > 0 && a[0] == x {
      SubsequenceTail(a, b);
    }
  }

  lemma {:induction false} OfChoiceWithinOfDimension(s: seq<Node>, dimension: string, b: Branch)
    ensures IsSubsequence(OfChoice(s, dimension, b), OfDimension(s, dimension))
    decreases |s|
  {
    if |s| > 0 {
      OfChoiceWithinOfDimension(s[1..], dimension, b);
      var c := OfChoice(s[1..], dimension, b);
      var d := OfDimension(s[1..], dimension);
      if s[0].deco.dimension == dimension && s[0].deco.branch == b {
        var c' := [s[0]] + c;
        var d' := [s[0]] + d;
        assert c'[1..] == c && d'[1..] == d;
      } else if s[0].deco.dimension == dimension {
        assert OfChoice(s, dimension, b) == c;
        assert OfDimension(s, dimension) == [s[0]] + d;
        SubsequenceExtend(c, d, s[0]);
      } else {
        assert OfChoice(s, dimension, b) == c;
        assert OfDimension(s, dimension) == d;
      }
    }
  }

  /** Every node `filterDimensionChoice` returns is returned by `filterDimension`, in the same order. */
  lemma ChoiceIsSubsequenceOfDimension(f: Forest, dimension: string, b: Branch)
    ensures IsSubsequence(FilterDimensionChoice(f, dimension, b), FilterDimension(f, dimension))
  {
    FilterDimensionIsPreOrder(f, dimension);
    FilterChoiceIsPreOrder(f, dimension, b);
    OfChoiceWithinOfDimension(Flatten(f), dimension, b);
  }
}

=== FILE: wrappers.dfy ===
/** Failure-compatible result and option types shared by every module. */
module Wrappers {

  datatype Option<+T> = None | Some(value: T)

  /** The outcome of an operation that can throw in the package. */
  datatype Result<+T, +E> = Ok(value: T) | Err(error: E) {

    predicate IsFailure() {
      Err?
    }

    function PropagateFailure<U>(): Result<U, E>
      requires Err?
    {
      Err(error)
    }

    function Extract(): T
      requires Ok?
    {
      value
    }
  }

  /** The errors the modelled code throws. */
  datatype Error =
    | Malformed              // "Dimension is malformed; ..." from compareDecorations
    | UnknownDimension(name: string)  // getPanelMenu / getDimensionColor on an unregistered name
    | EmptyQueue             // peek / pop on an empty queue

  /** No element of s occurs twice. */
  predicate NoRepeats<T(==)>(s: seq<T>) {
    forall i, j | 0 <= i < j < |s| :: s[i] != s[j]
  }
}
